=== FILE: README.md ===
# SaludYa booking app — a Dafny model of its logic

SaludYa is a single-page React app for booking medical appointments. A patient
signs in or registers, describes symptoms to a keyword-based "AI assistant",
picks a specialty, a doctor and a time slot, pays, and can then see, cancel and
review appointments. Everything lives in one in-memory session context
(`AppContext`) seeded with mock data. There is no server.

This project models the app's pure logic as Dafny datatypes and functions and
proves what the pages promise about it. It has one module per source unit:

| module | file | models |
|---|---|---|
| `Wrappers` | wrappers.dfy | `Option` |
| `Text` | text.dfy | the JavaScript string operations the app relies on: `replace(/\D/g, '')`, `replace(/\s/g, '')`, `substring`, `includes`, `toLowerCase`, `toUpperCase` of one character, code-point string order (the default `sort()` order on BMP text such as ISO dates), UTF-16 `length` |
| `Types` | types.dfy | the entities `User`, `Doctor`, `Specialty`, `TimeSlot`, `Appointment`, `ChatMessage` |
| `MockData` | mock_data.dfy | the specialty table, the doctor table, slot generation, the seeded appointments and the symptom dictionary |
| `AppContext` | app_context.dfy | the session: `login`, `register`, `logout`, `updateProfile`, `bookAppointment`, `cancelAppointment`, `isAuthenticated` |
| `AIAssistant` | ai_assistant.dfy | the symptom matcher, the chat reply, and the quick action's choice of specialty |
| `AppointmentLists` | appointment_lists.dfy | the upcoming list, the history list and the home page lists |
| `AppointmentView` | appointment_view.dfy | status badges, the card's cancel button, the detail page, cancelling |
| `Payment` | payment.dfy | card field formatting and the payment submit |
| `AuthPages` | auth_pages.dfy | the sign-in and sign-up forms |
| `SelectDateTime` | select_date_time.dfy | slot grouping by day, the week window, slot selection |
| `SelectDoctor` | select_doctor.dfy | the doctor filter and the page title |
| `ProfilePage` | profile.dfy | the profile edit form and the avatar initial |
| `Navigation` | navigation.dfy | the two navigation bars, their active-item rule and the sign-out handler |

Things the model has to make explicit:
- **Time and randomness are parameters.**
  - The slot dates are a parameter. The source derives them from today's date.
  - Slot availability (`Math.random() > 0.3`) is a sequence of coins.
  - `Date.now()` ids are parameters.
- **Dates are compared as ISO `YYYY-MM-DD` strings.** For such strings, lexicographic order is the order `getTime()` gives.
- **JavaScript's `sort` is stable.** The list pages are therefore modelled by a stable insertion sort. The proofs show it sorts, permutes and keeps equal-key items in order.

Some of the proved properties make the app's actual behaviour visible:
- The sign-in submit handler cannot fail once both fields are filled, so the "invalid credentials" message is unreachable (`AuthPages.LoginNeverRejectsCredentials`).
- The sign-up submit handler cannot fail once its three checks pass (`AuthPages.RegisterSucceedsIffChecksPass`).
- The matcher matches substrings, not words: "datos" matches the keyword "tos" (`AIAssistant.SubstringNotWordExample`).
- The quick action books the first specialty, in table order, that the reply names. That is not necessarily the first one the reply lists:
  - for "migraña" the reply lists Neurología first (`AIAssistant.MigraineExample`);
  - the quick action still opens Medicina General (`AIAssistant.QuickActionFollowsReply`).

## Model

| member | source | states |
|---|---|---|
| Text.Digits | src/pages/booking/Payment.tsx:30 | `replace(/\D/g, '')` leaves only ASCII digits and never lengthens the text |
| Text.DigitsFixpoint | src/pages/booking/Payment.tsx:30 | stripping non-digits changes nothing exactly when the text is all digits |
| Text.DigitsAppend | src/pages/booking/Payment.tsx:30 | stripping non-digits works piecewise over a concatenation |
| Text.RemoveSpaces | src/pages/booking/Payment.tsx:52 | `replace(/\s/g, '')` leaves no whitespace and never lengthens the text |
| Text.RemoveSpacesAppend | src/pages/booking/Payment.tsx:52 | stripping whitespace works piecewise over a concatenation |
| Text.RemoveSpacesOfDigits | src/pages/booking/Payment.tsx:52 | stripping whitespace from digits changes nothing |
| Text.Take | src/pages/booking/Payment.tsx:32 | `substring(0, n)` is a prefix of length min(n, length) |
| Text.MatchesAtSpec | src/pages/AIAssistant.tsx:37 | the character-by-character matcher agrees with comparing slices |
| Text.ContainsFromSpec | src/pages/AIAssistant.tsx:37 | searching from index i finds the pattern exactly when it occurs at some index at or after i |
| Text.ContainsSpec | src/pages/AIAssistant.tsx:37 | `includes` holds exactly when the pattern occurs at some index |
| Text.ContainsInPrefix | src/pages/AIAssistant.tsx:37 | an occurrence in a prefix is an occurrence in the whole text |
| Text.ContainsInSuffix | src/pages/AIAssistant.tsx:37 | an occurrence in a suffix is an occurrence in the whole text |
| Text.MissingCharRulesOut | src/pages/AIAssistant.tsx:37 | a text lacking some character of the pattern does not include it |
| Text.Lower | src/pages/AIAssistant.tsx:33 | `toLowerCase` keeps the length and maps each character to its lower case |
| Text.LowerIdempotent | src/pages/AIAssistant.tsx:33 | lower-casing gives lower-case text, and doing it twice is the same as once |
| Text.LexLeTotal | src/pages/booking/SelectDateTime.tsx:31 | code-point string order, which is `sort()`'s order on BMP text, relates any two strings |
| Text.LexLeTransitive | src/pages/booking/SelectDateTime.tsx:31 | code-point string order is transitive |
| Text.LexLeAntisymmetric | src/pages/booking/SelectDateTime.tsx:31 | two strings each ordered before the other are equal |
| Text.Utf16Length | src/pages/Register.tsx:45 | `length` counts UTF-16 units: between one and two per character |
| Text.Utf16LengthOfBmp | src/pages/Register.tsx:45 | for text without astral characters `length` is the character count |
| MockData.SpecialtyKeysDistinct | src/data/mockData.ts:3-14 | the ten specialty ids are pairwise distinct, and so are the names, none of them empty; the first is "1", Medicina General |
| MockData.FindSpecialtyById | src/pages/booking/SelectDoctor.tsx:12 | `find` returns the first specialty with the id, or nothing when none has it |
| MockData.TimesShape | src/data/mockData.ts:24 | twelve distinct `HH:MM` times in ascending order |
| MockData.SlotsFor | src/data/mockData.ts:19-33 | twelve slots per generated day |
| MockData.SlotsForIndex | src/data/mockData.ts:19-33 | slot k is time k mod 12 of day k div 12, with the k-th coin as availability |
| MockData.SlotsForAll | src/data/mockData.ts:19-33 | the same layout for every index at once |
| MockData.GenerateTimeSlots | src/data/mockData.ts:16-35 | 168 slots over fourteen days, laid out day by day and time by time |
| MockData.SlotIdDeterminesTime | src/data/mockData.ts:27 | a slot id `date-time` determines its date and its time |
| MockData.SlotIdsUnique | src/data/mockData.ts:16-35 | for fourteen distinct days, the 168 slot ids are pairwise distinct |
| MockData.SlotTimesAscendWithinDay | src/data/mockData.ts:24-32 | consecutive slots of one day share the date and have strictly increasing times |
| MockData.Doctors | src/data/mockData.ts:37-148 | the doctor table, each doctor with its own generated slots |
| MockData.DoctorSpecialtiesConsistent | src/data/mockData.ts:37-148 | each doctor's specialty id and name belong to one specialty of the table; doctors and specialties are in one-to-one correspondence |
| MockData.DoctorIdsDistinct | src/data/mockData.ts:37-148 | doctor ids are pairwise distinct |
| MockData.FindDoctor | src/pages/booking/Payment.tsx:17 | `doctors.find` returns the first doctor with the id, or nothing when none has it |
| MockData.InitialAppointments | src/data/mockData.ts:150-189 | four seeded appointments |
| MockData.InitialAppointmentsShape | src/data/mockData.ts:150-189 | the seeded ids are distinct; the first two are scheduled and the last two completed, none cancelled |
| MockData.SymptomKeywordsDistinct | src/data/mockData.ts:191-212 | the dictionary keywords are distinct, as object keys are |
| MockData.SymptomKeywordsLowerCase | src/data/mockData.ts:191-212 | every keyword is already lower case, so it can match lower-cased text |
| MockData.SymptomSuggestionsNonEmpty | src/data/mockData.ts:191-212 | every keyword suggests at least one specialty |
| MockData.SymptomSuggestionsInTable | src/data/mockData.ts:191-212 | every suggested name is the name of a specialty of the table |
| AIAssistant.FindSpecialty | src/pages/AIAssistant.tsx:32-47 | the result is non-empty and duplicate-free; it is Medicina General alone when no keyword occurs, and otherwise the suggestions of the matching keywords in first-occurrence order |
| AIAssistant.AddOneDistinctInOrder | src/pages/AIAssistant.tsx:38 | adding one name to an insertion-ordered set keeps it in first-occurrence order |
| AIAssistant.AddAllDistinctInOrder | src/pages/AIAssistant.tsx:38 | adding a list of names keeps the set in first-occurrence order of everything added |
| AIAssistant.Collect | src/pages/AIAssistant.tsx:36-40 | the keyword loop adding each matched entry's specialties to the set; CollectDistinctInOrder relates it to the candidate list |
| AIAssistant.CollectDistinctInOrder | src/pages/AIAssistant.tsx:36-40 | the loop over the dictionary yields the distinct candidates in first-occurrence order |
| AIAssistant.CandidatesSpec | src/pages/AIAssistant.tsx:36-40 | a name is a candidate exactly when some keyword occurring in the text suggests it |
| AIAssistant.FindSpecialtySoundAndComplete | src/pages/AIAssistant.tsx:32-47 | a name is suggested exactly when a keyword in the lower-cased text suggests it, or no keyword occurs and it is Medicina General |
| AIAssistant.NoCandidatesIffNoKeyword | src/pages/AIAssistant.tsx:42-44 | the fallback applies exactly when no keyword occurs in the text |
| AIAssistant.FindSpecialtyIgnoresCase | src/pages/AIAssistant.tsx:33 | lower-casing the input first changes nothing |
| AIAssistant.CandidatesAppend | src/pages/AIAssistant.tsx:36-40 | candidates of a split dictionary are the candidates of its parts, in order |
| AIAssistant.DistinctElementsCount | src/pages/AIAssistant.tsx:42 | a duplicate-free list has as many elements as its set |
| AIAssistant.SubstringNotWordExample | src/pages/AIAssistant.tsx:37 | "datos" gets the cough suggestions, because `includes` matches inside words |
| AIAssistant.MigraineExample | src/pages/AIAssistant.tsx:32-47 | "Migraña" in any case gets Neurología, then Medicina General |
| AIAssistant.BulletsMention | src/pages/AIAssistant.tsx:72-74 | the bullet list mentions every suggested specialty |
| AIAssistant.IntroRecommends | src/pages/AIAssistant.tsx:71 | the reply's opening contains the word the quick action looks for |
| AIAssistant.ReplyText | src/pages/AIAssistant.tsx:71-75 | the reply contains "recomiendo" and every suggested specialty |
| AIAssistant.QuickActionShown | src/pages/AIAssistant.tsx:176 | the shortcut shows once more than two messages exist, so after the first send (HandleSend adds two to the greeting) |
| AIAssistant.HandleSend | src/pages/AIAssistant.tsx:49-86 | a blank input changes nothing; otherwise the user's message and then the reply are appended, the input is cleared and the typing indicator is off |
| AIAssistant.LastRecommendation | src/pages/AIAssistant.tsx:96 | finds the latest assistant message containing "recomiendo", or reports that there is none |
| AIAssistant.FirstNamedFrom | src/pages/AIAssistant.tsx:98-102 | finds the first specialty, in table order, whose name the text contains |
| AIAssistant.FirstSuggestedSpecialtyId | src/pages/AIAssistant.tsx:95-105 | the id of the first specialty named in the latest recommendation; "1" when there is no recommendation or it names none |
| AIAssistant.LastRecommendationUnique | src/pages/AIAssistant.tsx:96 | the latest recommendation is unique |
| AIAssistant.SuggestionsInTable | src/pages/AIAssistant.tsx:66-69 | every suggestion names a specialty of the table |
| AIAssistant.QuickActionFollowsReply | src/pages/AIAssistant.tsx:176-179 | after a send the quick action shows; it opens the first specialty, in table order, that the reply names, which is Medicina General whenever that is suggested |
| AppContext.IsAuthenticated | src/context/AppContext.tsx:94 | `!!user`: authenticated exactly when a user is present; Login and Register set one and Logout clears it (LoginThenLogout) |
| AppContext.Initial | src/context/AppContext.tsx:20-21 | the session starts signed out, with the seeded appointments |
| AppContext.Login | src/context/AppContext.tsx:23-40 | succeeds exactly when e-mail and password are non-empty, and then signs in the demo user with that e-mail; otherwise nothing changes |
| AppContext.OrEmpty | src/context/AppContext.tsx:49 | `value \|\| ''` for an optional field |
| AppContext.Register | src/context/AppContext.tsx:42-58 | succeeds exactly when the e-mail and password are non-empty; the new user has id "1", the given e-mail, missing fields empty and no avatar |
| AppContext.Logout | src/context/AppContext.tsx:60-62 | signs out and keeps the appointments |
| AppContext.Merge | src/context/AppContext.tsx:66 | `{ ...user, ...patch }`: each field comes from the patch when present, else from the user |
| AppContext.UpdateProfile | src/context/AppContext.tsx:64-68 | merges the patch into the signed-in user; without a user nothing changes |
| AppContext.UpdateWithNoChanges | src/context/AppContext.tsx:64-68 | an empty patch changes nothing |
| AppContext.UpdateIdempotent | src/context/AppContext.tsx:64-68 | applying the same patch twice is the same as once |
| AppContext.UpdateCompose | src/context/AppContext.tsx:64-68 | two updates in a row are one update with the combined patch |
| AppContext.UpdateWithFullPatch | src/context/AppContext.tsx:64-68 | a patch with every field replaces the user, except that an absent avatar keeps the old one |
| AppContext.BookAppointment | src/context/AppContext.tsx:70-80 | appends one scheduled appointment with the slot's date and time and the symptoms, leaving the rest and the user as they were |
| AppContext.BookKeepsIdsUnique | src/context/AppContext.tsx:70-80 | booking with a fresh id keeps appointment ids distinct |
| AppContext.CancelOne | src/context/AppContext.tsx:85 | the appointment with the id becomes cancelled; others are untouched |
| AppContext.CancelAppointment | src/context/AppContext.tsx:82-88 | exactly the appointments with the id become cancelled, in place; the length and the user stay |
| AppContext.CancelUnknownId | src/context/AppContext.tsx:82-88 | cancelling an unknown id changes nothing |
| AppContext.CancelIdempotent | src/context/AppContext.tsx:82-88 | cancelling twice is the same as once |
| AppContext.CancelCommutes | src/context/AppContext.tsx:82-88 | cancellations of two ids commute |
| AppContext.CancelKeepsIdsUnique | src/context/AppContext.tsx:82-88 | cancelling keeps appointment ids distinct |
| AppContext.CountStatusAppend | src/context/AppContext.tsx:79 | status counts add up over a concatenation |
| AppContext.CountAfterPointwiseCancel | src/context/AppContext.tsx:84-86 | cancelling in place never adds completed or scheduled appointments and never removes cancelled ones |
| AppContext.NothingBecomesCompleted | src/context/AppContext.tsx:70-88 | neither booking nor cancelling adds completed appointments; booking keeps their count |
| AppContext.LoginThenLogout | src/context/AppContext.tsx:23-62 | signing in and then out is the same as signing out |
| AppointmentLists.Le | src/pages/Appointments.tsx:26-29 | the upcoming comparator (History.tsx:14 is the other case), a total preorder by LeTotal and LeTransitive |
| AppointmentLists.LeTotal | src/pages/Appointments.tsx:26-29 | the list order relates any two appointments |
| AppointmentLists.LeTransitive | src/pages/Appointments.tsx:26-29 | the list order is transitive, as a comparator must be |
| AppointmentLists.TiedMeans | src/pages/Appointments.tsx:26-29 | two appointments compare equal exactly when they share the date and, on the upcoming list, both or neither are scheduled |
| AppointmentLists.Insert | src/pages/Appointments.tsx:26-30 | inserting adds exactly one element |
| AppointmentLists.Sort | src/pages/Appointments.tsx:26-30 | sorting permutes the list |
| AppointmentLists.InsertMembers | src/pages/Appointments.tsx:26-30 | insertion keeps every element and adds only the new one |
| AppointmentLists.InsertSorted | src/pages/Appointments.tsx:26-30 | insertion into a sorted list keeps it sorted |
| AppointmentLists.InsertTiedWith | src/pages/Appointments.tsx:26-30 | insertion puts the new element after every element it ties with |
| AppointmentLists.SortSorted | src/pages/Appointments.tsx:26-30 | the result is sorted |
| AppointmentLists.SortStable | src/pages/Appointments.tsx:26-30 | elements that compare equal keep their original relative order |
| AppointmentLists.Keep | src/pages/Appointments.tsx:25 | `filter` keeps exactly the appointments whose status is in the set |
| AppointmentLists.UpcomingAppointments | src/pages/Appointments.tsx:24-30 | the scheduled and cancelled appointments, each once, sorted scheduled first and then by ascending date, ties in booking order |
| AppointmentLists.PastAppointments | src/pages/History.tsx:12-14 | the completed and cancelled appointments, each once, latest date first, ties in booking order |
| AppointmentLists.UpcomingScheduledFirst | src/pages/Appointments.tsx:26-29 | no cancelled appointment precedes a scheduled one, and same-status appointments ascend by date |
| AppointmentLists.PastLatestFirst | src/pages/History.tsx:14 | history dates descend |
| AppointmentLists.CancelledOnBothPages | src/pages/Appointments.tsx:25 | a cancelled appointment is listed both as upcoming and in the history |
| AppointmentLists.UpcomingEmptyState | src/pages/Appointments.tsx:45 | the empty state shows exactly when every appointment is completed |
| AppointmentLists.PastEmptyState | src/pages/History.tsx:23 | the empty state shows exactly when every appointment is scheduled |
| AppointmentLists.HomeUpcoming | src/pages/Home.tsx:14-16 | the first two scheduled appointments in booking order, or fewer when fewer exist |
| AppointmentLists.KeepAppend | src/pages/Home.tsx:15 | filtering a concatenation filters each part |
| AppointmentLists.HomeUpcomingStableUnderAppend | src/pages/Home.tsx:14-16 | once two appointments are scheduled, new bookings do not change the home list |
| AppointmentLists.HomeSectionShown | src/pages/Home.tsx:82 | the upcoming section shows exactly when some appointment is scheduled |
| AppointmentLists.PopularSpecialties | src/pages/Home.tsx:18 | the first four specialties of the table: Medicina General, Pediatría, Cardiología, Dermatología |
| AppointmentLists.GreetingName | src/pages/Home.tsx:25 | the user's first name, or "Usuario" when signed out or the name is empty |
| AppointmentView.StatusLabel | src/components/appointment/AppointmentCard.tsx:35-39 | each status has a non-empty badge text |
| AppointmentView.StatusOfLabel | src/pages/AppointmentDetail.tsx:42-46 | reading a badge back yields a status with that badge |
| AppointmentView.StatusLabelInjective | src/pages/AppointmentDetail.tsx:42-46 | the badge determines the status, and reading it back gives that status |
| AppointmentView.StatusColor | src/pages/AppointmentDetail.tsx:36-40 | each status has non-empty colour classes |
| AppointmentView.StatusColorInjective | src/components/appointment/AppointmentCard.tsx:29-33 | different statuses have different colours |
| AppointmentView.ShowCancelButton | src/components/appointment/AppointmentCard.tsx:27 | the prop defaults to false |
| AppointmentView.CardCancelShown | src/components/appointment/AppointmentCard.tsx:79 | the card's cancel button condition; CardCancelNeedsOptIn states it in terms of the props |
| AppointmentView.CardCancelNeedsOptIn | src/components/appointment/AppointmentCard.tsx:79 | the card's button shows exactly when the prop is explicitly true, the appointment is scheduled and a handler is given |
| AppointmentView.CancelTarget | src/pages/Appointments.tsx:61-83 | the cancel action is offered exactly for scheduled appointments and targets their own id |
| AppointmentView.CancelTargetCancelsOnlyIt | src/pages/Appointments.tsx:83 | with distinct ids, the action cancels that appointment alone and changes only its status |
| AppointmentView.FindAppointment | src/pages/AppointmentDetail.tsx:13 | finds the first appointment with the id, or nothing exactly when none has it |
| AppointmentView.Shown | src/pages/AppointmentDetail.tsx:115 | an optional text shows exactly when present and non-empty |
| AppointmentView.DetailPage | src/pages/AppointmentDetail.tsx:13-177 | "not found" exactly when no appointment has the id; otherwise the first with it is shown with its badge, symptoms, medical sections and downloads for completed ones only, and the cancel action for scheduled ones only |
| AppointmentView.DetailSectionsExclusive | src/pages/AppointmentDetail.tsx:124-177 | the medical sections and the cancel action never show together |
| AppointmentView.DetailCancel | src/pages/AppointmentDetail.tsx:167-177 | cancelling is possible exactly when the page offers it; it cancels the id and goes to the appointments list |
| Payment.Chunks | src/pages/booking/Payment.tsx:31 | `match(/.{1,4}/g)`: chunks of one to four characters, all but the last exactly four |
| Payment.GroupedStep | src/pages/booking/Payment.tsx:31-32 | grouping more than four digits is the first four, a space, and the rest grouped |
| Payment.GroupedLength | src/pages/booking/Payment.tsx:31-32 | grouping n > 0 digits adds one space per further group |
| Payment.GroupedSpaces | src/pages/booking/Payment.tsx:31-32 | grouped digits hold digits and spaces, with a space exactly at every fifth position |
| Payment.GroupedLast | src/pages/booking/Payment.tsx:31-32 | grouping never ends in a space |
| Payment.TakeGrouped | src/pages/booking/Payment.tsx:32 | cutting grouped text after n groups is grouping the first 4n digits |
| Payment.FormatCardNumberIsGroupedPrefix | src/pages/booking/Payment.tsx:29-33 | the formatted number is the first sixteen digits, grouped |
| Payment.DigitsOfGrouped | src/pages/booking/Payment.tsx:29-33 | grouping loses no digit: stripping non-digits or spaces gives the digits back |
| Payment.FormatCardNumber | src/pages/booking/Payment.tsx:29-33 | at most 19 characters, a prefix of the typed digits grouped in fours; its shape and digits are FormatCardNumberShape |
| Payment.FormatCardNumberShape | src/pages/booking/Payment.tsx:29-33 | at most 19 characters, digits and spaces, a space exactly at every fifth position, none at the end, and the first sixteen digits once spaces are removed |
| Payment.FormatCardNumberIdempotent | src/pages/booking/Payment.tsx:183 | formatting the field's value again changes nothing |
| Payment.FormatExpiry | src/pages/booking/Payment.tsx:35-41 | fewer than two digits stay as they are; otherwise two digits, a slash, and at most two more digits |
| Payment.FormatExpiryIdempotent | src/pages/booking/Payment.tsx:195 | formatting the field's value again changes nothing |
| Payment.FilterCvv | src/pages/booking/Payment.tsx:205 | at most three digits, the first typed ones: exactly three when at least three were typed, and all of them when fewer |
| Payment.ApplyEdit | src/pages/booking/Payment.tsx:183-205 | each input's change handler updates its own field through its formatter and nothing else |
| Payment.EditsKeepFormatted | src/pages/booking/Payment.tsx:183-205 | starting empty, every edit leaves the card fields in formatted shape |
| Payment.FormattedFieldsAreFixpoints | src/pages/booking/Payment.tsx:183-205 | formatted fields are unchanged by their formatters |
| Payment.FindSlot | src/pages/booking/Payment.tsx:18 | finds the first slot of the doctor with the id, as `find` does, or nothing when none has it |
| Payment.SubmitPayment | src/pages/booking/Payment.tsx:43-66 | missing card fields give the first error; otherwise a card number under 16 characters without whitespace gives the second; otherwise the confirmation always shows; a booking is for the first doctor with the route's doctor id and that doctor's first slot with the route's slot id |
| Payment.SubmitBooksIffFound | src/pages/booking/Payment.tsx:60-65 | a submit that passes both checks always shows the confirmation, and books exactly when the route's doctor exists and has a slot with the route's id, so an unknown doctor or slot is reported as success with nothing booked |
| Payment.SelectedSlotIsBooked | src/pages/booking/Payment.tsx:17-62 | with distinct ids, a valid submit for a doctor's own slot books that very slot for that doctor |
| Payment.CardCheckOnFormattedNumber | src/pages/booking/Payment.tsx:52 | for a value the card field holds, the length check passes exactly when sixteen digits were typed |
| AuthPages.SubmitLogin | src/pages/Login.tsx:19-37 | an empty field gives the missing-fields message without signing in; otherwise the session signs in and goes home, or shows the invalid-credentials message |
| AuthPages.LoginNeverRejectsCredentials | src/pages/Login.tsx:23-36 | the invalid-credentials message never shows; the submit handler goes home exactly when both fields are filled, signed in as that e-mail |
| AuthPages.LoginErrorClearedOnSubmit | src/pages/Login.tsx:21 | the message shown before a submit does not affect it |
| AuthPages.HandleChange | src/pages/Register.tsx:27-29 | the named input takes the value and every other input stays |
| AuthPages.FormsEqualByFields | src/pages/Register.tsx:13-22 | two forms agreeing on all eight inputs are equal |
| AuthPages.HandleChangeCommutes | src/pages/Register.tsx:27-29 | edits of different inputs commute, and a second edit of one input overrides the first |
| AuthPages.ProfileData | src/pages/Register.tsx:51 | the fields passed to `register`: the six profile fields, no id, no avatar |
| AuthPages.SubmitRegister | src/pages/Register.tsx:31-59 | the checks run in order: required fields, matching confirmation, a password of at least six UTF-16 units; only then `register` |
| AuthPages.RegisterSucceedsIffChecksPass | src/pages/Register.tsx:35-58 | the registration error never shows; a submit goes home exactly when all checks pass, with a user holding the form's fields; otherwise the session is unchanged |
| SelectDateTime.SlotsOn | src/pages/booking/SelectDateTime.tsx:26 | the slots of one date, never more than the doctor has |
| SelectDateTime.SlotsOnMembers | src/pages/booking/SelectDateTime.tsx:26 | a slot is in a date's group exactly when it is the doctor's and has that date |
| SelectDateTime.GroupIntoKeys | src/pages/booking/SelectDateTime.tsx:22-27 | a date gets a group exactly when some slot has it |
| SelectDateTime.GroupIntoGroup | src/pages/booking/SelectDateTime.tsx:22-27 | each group is extended by that date's slots in their original order |
| SelectDateTime.GroupIntoSpec | src/pages/booking/SelectDateTime.tsx:22-27 | both of the above for one pass of the loop from any starting groups |
| SelectDateTime.GroupSlots | src/pages/booking/SelectDateTime.tsx:18-29 | `groupedSlots`, built by GroupInto one slot at a time; GroupSlotsSpec states that it partitions the slots by date in input order |
| SelectDateTime.GroupSlotsSpec | src/pages/booking/SelectDateTime.tsx:18-29 | grouping partitions the slots by date, each group in original order |
| SelectDateTime.Keys | src/pages/booking/SelectDateTime.tsx:31 | `Object.keys`: each date once, and exactly the dates that occur |
| SelectDateTime.InsertDate | src/pages/booking/SelectDateTime.tsx:31 | inserting adds exactly one date |
| SelectDateTime.SortDates | src/pages/booking/SelectDateTime.tsx:31 | sorting permutes the dates |
| SelectDateTime.InsertDateAscending | src/pages/booking/SelectDateTime.tsx:31 | inserting a new date into an ascending list keeps it ascending |
| SelectDateTime.SortDatesAscending | src/pages/booking/SelectDateTime.tsx:31 | sorting distinct dates gives a strictly ascending list |
| SelectDateTime.Dates | src/pages/booking/SelectDateTime.tsx:31 | the strictly ascending list of exactly the dates that have slots |
| SelectDateTime.VisibleDates | src/pages/booking/SelectDateTime.tsx:32 | the week's window: up to seven consecutive dates starting at 7 × week |
| SelectDateTime.PrevDisabled | src/pages/booking/SelectDateTime.tsx:75 | "previous" is disabled exactly on week 0, where PrevWeek would not move |
| SelectDateTime.PrevWeek | src/pages/booking/SelectDateTime.tsx:74 | going back never goes below week 0 |
| SelectDateTime.NextDisabled | src/pages/booking/SelectDateTime.tsx:85 | "next" is disabled once fewer than seven dates show; NextWeekLeadsToEmptyWindow gives it in terms of the number of dates |
| SelectDateTime.NextWeekLeadsToEmptyWindow | src/pages/booking/SelectDateTime.tsx:84-85 | "next" is enabled exactly when the window is full, and can then lead to an empty window exactly when the dates end there |
| SelectDateTime.FourteenDatesReachEmptyWindow | src/pages/booking/SelectDateTime.tsx:85 | with fourteen dates, "next" twice reaches an empty week |
| SelectDateTime.FirstAvailable | src/pages/booking/SelectDateTime.tsx:101 | finds a slot exactly when one is available, and it is the available slot that no earlier slot precedes, as `find` returns |
| SelectDateTime.Available | src/pages/booking/SelectDateTime.tsx:126 | `filter(s => s.available)` keeps exactly the available slots, never more than the input; input order is AvailableAppend |
| SelectDateTime.AvailableAppend | src/pages/booking/SelectDateTime.tsx:126 | the filter keeps input order: the filter of a concatenation is the filters of its parts in turn |
| SelectDateTime.SlotsOnAppend | src/pages/booking/SelectDateTime.tsx:26 | a date's group keeps input order: the group of a concatenation is the groups of its parts in turn |
| SelectDateTime.FirstAvailableOn | src/pages/booking/SelectDateTime.tsx:99-101 | the first available slot of a date's group is the first slot of the whole list with that date that is available |
| SelectDateTime.FirstAvailableIsHead | src/pages/booking/SelectDateTime.tsx:94-126 | the slot a date click selects is the first of that date's time list |
| SelectDateTime.DateClickable | src/pages/booking/SelectDateTime.tsx:94 | a date button is enabled exactly when some slot of the doctor has that date and is available |
| SelectDateTime.ClickDate | src/pages/booking/SelectDateTime.tsx:99-105 | an enabled date selects the doctor's first slot, in list order, that has that date and is available; a disabled date changes nothing |
| SelectDateTime.TimeList | src/pages/booking/SelectDateTime.tsx:125-127 | the available slots of the selected slot's date and no others, never more than the doctor's slots, nothing without a selection; order is TimeListAppend |
| SelectDateTime.TimeListAppend | src/pages/booking/SelectDateTime.tsx:125-127 | the time list keeps the order of the doctor's slots: the list of a concatenation is the lists of its parts in turn |
| SelectDateTime.SelectionStaysShown | src/pages/booking/SelectDateTime.tsx:99-130 | date clicks and time clicks keep the selection available and shown in the time list, and a date click selects the head of its list |
| SelectDateTime.ContinueTarget | src/pages/booking/SelectDateTime.tsx:146-148 | "continue" is enabled exactly with a selection and goes to the payment route of the doctor and slot |
| SelectDoctor.FilteredDoctors | src/pages/booking/SelectDoctor.tsx:13 | exactly the doctors of the specialty |
| SelectDoctor.FilteredDoctorsAppend | src/pages/booking/SelectDoctor.tsx:13 | the filter keeps table order |
| SelectDoctor.EmptyStateIffNoDoctor | src/pages/booking/SelectDoctor.tsx:32 | the empty state shows exactly when no doctor has the specialty |
| SelectDoctor.FilterNone | src/pages/booking/SelectDoctor.tsx:13 | a list without the specialty filters to nothing |
| SelectDoctor.FilterSingle | src/pages/booking/SelectDoctor.tsx:13 | a list with one doctor of the specialty filters to that doctor |
| SelectDoctor.OneDoctorPerSpecialty | src/data/mockData.ts:37-148 | each specialty of the table has exactly one doctor, who practises it |
| SelectDoctor.Title | src/pages/booking/SelectDoctor.tsx:27 | the specialty's name, or "Especialidad" when it is unknown or nameless |
| SelectDoctor.TitleOfKnownAndUnknownIds | src/pages/booking/SelectDoctor.tsx:27 | with the app's table, a known id titles the page with its name and an unknown one with the fallback |
| SelectDoctor.DoctorTarget | src/pages/booking/SelectDoctor.tsx:46 | a doctor card leads to the doctor's date-and-time route |
| SelectDoctor.DoctorTargetFindsDoctor | src/pages/booking/SelectDateTime.tsx:14 | with distinct ids, the date-and-time page finds the very doctor whose card was clicked |
| ProfilePage.InitialForm | src/pages/Profile.tsx:16-23 | the form holds the user's six fields, or is empty when signed out |
| ProfilePage.FormsEqualByFields | src/pages/Profile.tsx:16-23 | a form is determined by the values of its six inputs |
| ProfilePage.HandleChange | src/pages/Profile.tsx:25-27 | the named input takes the value and every other input keeps its own |
| ProfilePage.HandleChangeFrame | src/pages/Profile.tsx:25-27 | edits of different inputs commute, and a second edit of one input overrides the first |
| ProfilePage.Patch | src/pages/Profile.tsx:32 | the patch carries the six form fields, never an id or avatar |
| ProfilePage.Open | src/pages/Profile.tsx:14-23 | the page opens out of edit mode with the user's values |
| ProfilePage.Save | src/pages/Profile.tsx:29-35 | saving leaves edit mode and writes the six fields into the user, keeping its id and avatar; signed out, nothing is saved |
| ProfilePage.CancelEdit | src/pages/Profile.tsx:165-175 | cancelling leaves edit mode and resets the form to the user's values |
| ProfilePage.CancelAfterSaveShowsSaved | src/pages/Profile.tsx:29-175 | after a save, cancelling a later edit brings back the saved values |
| ProfilePage.AvatarInitial | src/pages/Profile.tsx:53 | one character: the capitalised first letter of the first name, or "U" |
| ProfilePage.AvatarInitialIsCapital | src/pages/Profile.tsx:53 | the initial is already upper case |
| ProfilePage.SignOutClearsForm | src/pages/Profile.tsx:37-40 | after the page's sign-out the form opens empty |
| Navigation.NavBarsShareRoutes | src/components/layout/BottomNav.tsx:6-12 | both bars list the same five routes in the same order, with two captions differing |
| Navigation.NavPathsOneSegment | src/components/layout/TopNav.tsx:8-14 | every navigation route is a single path segment |
| Navigation.NavPathsDistinct | src/components/layout/TopNav.tsx:8-14 | the five routes are distinct |
| Navigation.IsActive | src/components/layout/TopNav.tsx:41 | an active item's path is a prefix of the location; the exact rule and its consequences are ActivePrefix and AtMostOneActive |
| Navigation.ActivePrefix | src/components/layout/TopNav.tsx:41 | an active item's path is a prefix of the location, followed by a slash or the end |
| Navigation.ActiveMeansFirstSegment | src/components/layout/TopNav.tsx:41 | a one-segment item is active only when it is the location's first segment |
| Navigation.OneSegmentPathsExclusive | src/components/layout/TopNav.tsx:41 | two different one-segment items are never active together |
| Navigation.AtMostOneActive | src/components/layout/BottomNav.tsx:21-22 | in either bar at most one item is highlighted at a time |
| Navigation.SlashPrefixOnly | src/components/layout/TopNav.tsx:41 | "/homepage" does not activate "/home" but "/home/x" does |
| Navigation.DetailAndBookingRoutesActivateNothing | src/App.tsx:44-51 | on the detail and booking routes no navigation item is highlighted |
| Navigation.SignOut | src/components/layout/TopNav.tsx:21-24 | signs out, keeps the appointments and goes to "/"; the profile page's handler is the same |

## Left out

- Asynchronous delays (`setTimeout` before sign-in, registration, saving, the reply and payment) and the loading flags. Each operation is modelled as completing at once. The interleavings of a user acting during a delay are not modelled.
- Chat messages that a second send puts in flight during the reply delay are not modelled; `AIAssistant.HandleSend` appends the user's message and the reply together.
- Clocks and randomness are parameters:
  - today's date and the derived ISO day strings;
  - `Math.random()` slot availability (a coin sequence);
  - `Date.now()` ids for appointments and chat messages;
  - message timestamps.
- Date formatting for display (`toLocaleDateString`, `formatMonth`) is presentation only.
- The doctor's `rating` and `photoUrl` are dropped from the `Doctor` record; they are display-only. Price and experience are carried as whole numbers and specialty icons as strings, and none of them is reasoned about.
- Rendering, styling, scrolling, dialogs, `navigate(-1)` and the router itself are left out; routes are returned as strings.
- The download buttons' `alert` is left out; the detail page only records that the buttons show.
- The signed-in guard of AppLayout.tsx:10-12 is not modelled: it sends a signed-out visitor to "/" before any page renders, so the signed-out branches of `ProfilePage.Save` and `ProfilePage.CancelEdit` cannot be reached in the app. They are kept because the profile code handles a missing user on its own.
- The browser's constraint validation and `maxLength` are not modelled. `type="email"` inputs in forms without `noValidate` (Login.tsx:53-58, Register.tsx:80-109) stop a submit with a malformed address before the handler runs. `maxLength` of 19, 5 and 3 (Payment.tsx:184, 196, 206) truncates what is typed before the formatters see it. The statements about sign-in and sign-up are therefore about the submit handlers, not about every click on the page.
- MockData.SlotIdsUnique: the lemma assumes the fourteen day strings are distinct. The source builds them with `toISOString().split('T')[0]` from local midnights, which are UTC dates. When a daylight-saving change falls inside the window and the page is loaded near local midnight, two consecutive days can give the same string, and their twelve slot ids then collide. Examples are London at 00:30 or New York at 19:30 before the spring change. The model does not cover that case.
- The rest of AppLayout, DoctorCard, SpecialtyCard, LoadingSpinner and the specialty picker page are presentation around the modelled logic and are not part of this model.
- Text.LexLe: the string order is code-point order. JavaScript's default `sort()` compares UTF-16 code units, and the two differ only when a character beyond U+FFFF meets one from U+E000 to U+FFFF (U+1F600 sorts before U+FF61 in JavaScript, after it here). They agree on BMP text, which covers every ISO date the app sorts.
- Text.LowerChar: case mapping covers ASCII and Latin-1 only. Full Unicode `toLowerCase` is not modelled; the dictionary keywords and the app's names lie in that range.
- ProfilePage.AvatarInitial: `toUpperCase` is modelled per character over Latin-1, with ÿ going to Ÿ and the micro sign µ to the Greek capital Μ as in JavaScript. The source's result for characters whose capital is two letters (ß becomes "SS"), and `charAt` on astral characters, are not modelled.
- AppointmentLists.Le: dates are compared as strings. This equals `new Date(...).getTime()` order only for well-formed `YYYY-MM-DD` dates, which is all the app produces.
- A `Partial<User>` key present with the value `undefined` is modelled as absent. `{ ...user, ...patch }` would copy the `undefined`; the app's callers never pass one.
- SelectDateTime.Keys: `Object.keys` order is insertion order only for keys that are not integer-like. ISO dates never are.

=== FILE: ai_assistant.dfy ===
/**
 * The AI assistant page: the keyword-based symptom matcher, the reply it sends, and
 * the choice of specialty behind the "book with a specialist" shortcut.
 */
module AIAssistant {
  import opened Wrappers
  import opened Text
  import opened Types
  import opened MockData

  predicate NoDuplicates(s: seq<string>) {
    forall i, j :: 0 <= i < j < |s| ==> s[i] != s[j]
  }

  /** The index of the first occurrence of `x` in `s`. */
  function FirstIndex(s: seq<string>, x: string): (k: nat)
    requires x in s
    ensures k < |s| && s[k] == x
    ensures forall j :: 0 <= j < k ==> s[j] != x
  {
    if s[0] == x then 0 else 1 + FirstIndex(s[1..], x)
  }

  /**
   * `r` holds the distinct elements of `c`, each once, ordered by where they first
   * occur in `c`: what an insertion-ordered `Set` holds after adding `c` in order.
   */
  ghost predicate DistinctInOrder(r: seq<string>, c: seq<string>) {
    && NoDuplicates(r)
    && (forall x :: x in r <==> x in c)
    && (forall i, j :: 0 <= i < j < |r| ==> FirstIndex(c, r[i]) < FirstIndex(c, r[j]))
  }

  /** `specs.forEach(s => matchedSpecialties.add(s))` on a `Set` whose contents, in insertion order, are `acc`. */
  function AddAll(acc: seq<string>, specs: seq<string>): seq<string>
    decreases |specs|
  {
    if |specs| == 0 then acc
    else AddAll(if specs[0] in acc then acc else acc + [specs[0]], specs[1..])
  }

  /** The loop over `Object.entries(symptomSpecialtyMap)`, starting from the set `acc`. */
  function Collect(dict: seq<Keyword>, text: string, acc: seq<string>): seq<string> {
    if |dict| == 0 then acc
    else
      Collect(dict[1..], text,
        if Contains(text, dict[0].keyword) then AddAll(acc, dict[0].specialties) else acc)
  }

  /**
   * The reference the matcher is measured against: the suggestion lists of the
   * entries whose keyword occurs in `text`, concatenated in dictionary order,
   * duplicates kept.
   */
  function Candidates(dict: seq<Keyword>, text: string): seq<string> {
    if |dict| == 0 then []
    else (if Contains(text, dict[0].keyword) then dict[0].specialties else []) + Candidates(dict[1..], text)
  }

  /**
   * `findSpecialty`: lower-case the text, collect the suggestions of every keyword
   * it contains, fall back to general medicine when nothing was collected.
   */
  function FindSpecialty(text: string): (r: seq<string>)
    ensures |r| > 0 && NoDuplicates(r)
    ensures |Candidates(SymptomSpecialtyMap, Lower(text))| == 0 ==> r == [GeneralMedicine]
    ensures |Candidates(SymptomSpecialtyMap, Lower(text))| > 0 ==>
      DistinctInOrder(r, Candidates(SymptomSpecialtyMap, Lower(text)))
  {
    var c := Candidates(SymptomSpecialtyMap, Lower(text));
    var found := Collect(SymptomSpecialtyMap, Lower(text), []);
    CollectDistinctInOrder(SymptomSpecialtyMap, Lower(text), [], []);
    assert [] + c == c;
    assert |c| > 0 ==> c[0] in found;
    assert |found| > 0 ==> found[0] in c;
    if |found| == 0 then [GeneralMedicine] else found
  }

  lemma FirstIndexOfExtension(c: seq<string>, xs: seq<string>, y: string)
    requires y in c
    ensures FirstIndex(c + xs, y) == FirstIndex(c, y)
  {
    var k := FirstIndex(c, y);
    assert (c + xs)[k] == y;
  }

  /** Adding one more element keeps the insertion-ordered set in step with its history. */
  lemma AddOneDistinctInOrder(acc: seq<string>, c: seq<string>, x: string)
    requires DistinctInOrder(acc, c)
    ensures DistinctInOrder(if x in acc then acc else acc + [x], c + [x])
  {
    var c' := c + [x];
    forall y | y in c
      ensures FirstIndex(c', y) == FirstIndex(c, y)
    {
      FirstIndexOfExtension(c, [x], y);
    }
    if x !in acc {
      var acc' := acc + [x];
      assert FirstIndex(c', x) == |c|;
      forall i, j | 0 <= i < j < |acc'|
        ensures FirstIndex(c', acc'[i]) < FirstIndex(c', acc'[j])
      {
        if j == |acc| {
          assert acc'[i] == acc[i];
        } else {
          assert acc'[i] == acc[i] && acc'[j] == acc[j];
        }
      }
    }
  }

  lemma {:induction false} AddAllDistinctInOrder(acc: seq<string>, c: seq<string>, specs: seq<string>)
    requires DistinctInOrder(acc, c)
    ensures DistinctInOrder(AddAll(acc, specs), c + specs)
    decreases |specs|
  {
    if |specs| == 0 {
      assert c + specs == c;
    } else {
      var x := specs[0];
      var acc' := if x in acc then acc else acc + [x];
      var c' := c + [x];
      assert c' + specs[1..] == c + specs;
      assert AddAll(acc, specs) == AddAll(acc', specs[1..]);
      AddOneDistinctInOrder(acc, c, x);
      AddAllDistinctInOrder(acc', c', specs[1..]);
    }
  }

  /** The matcher's loop computes the first-occurrence order of the candidate list. */
  lemma {:induction false} CollectDistinctInOrder(dict: seq<Keyword>, text: string, acc: seq<string>, c: seq<string>)
    requires DistinctInOrder(acc, c)
    ensures DistinctInOrder(Collect(dict, text, acc), c + Candidates(dict, text))
    decreases |dict|
  {
    if |dict| == 0 {
      assert c + Candidates(dict, text) == c;
    } else {
      var rest := Candidates(dict[1..], text);
      if Contains(text, dict[0].keyword) {
        var specs := dict[0].specialties;
        var acc' := AddAll(acc, specs);
        assert Collect(dict, text, acc) == Collect(dict[1..], text, acc');
        assert Candidates(dict, text) == specs + rest;
        assert c + (specs + rest) == (c + specs) + rest;
        AddAllDistinctInOrder(acc, c, specs);
        CollectDistinctInOrder(dict[1..], text, acc', c + specs);
      } else {
        assert Collect(dict, text, acc) == Collect(dict[1..], text, acc);
        assert Candidates(dict, text) == [] + rest == rest;
        CollectDistinctInOrder(dict[1..], text, acc, c);
      }
    }
  }

  /** A suggestion is a candidate exactly when some keyword occurring in the text lists it. */
  lemma {:induction false} CandidatesSpec(dict: seq<Keyword>, text: string, x: string)
    ensures x in Candidates(dict, text) <==>
      exists i :: 0 <= i < |dict| && Contains(text, dict[i].keyword) && x in dict[i].specialties
  {
    if |dict| > 0 {
      CandidatesSpec(dict[1..], text, x);
      if exists i :: 0 <= i < |dict| && Contains(text, dict[i].keyword) && x in dict[i].specialties {
        var i :| 0 <= i < |dict| && Contains(text, dict[i].keyword) && x in dict[i].specialties;
        if i > 0 {
          assert dict[1..][i - 1] == dict[i];
        }
      }
    }
  }

  /**
   * Soundness and completeness of the matcher: a specialty is suggested exactly when
   * some keyword occurring in the lower-cased text lists it, or no keyword occurs at
   * all and it is the general-medicine fallback.
   */
  lemma FindSpecialtySoundAndComplete(text: string, x: string)
    ensures x in FindSpecialty(text) <==>
      || (exists i :: 0 <= i < |SymptomSpecialtyMap| && Contains(Lower(text), SymptomSpecialtyMap[i].keyword) && x in SymptomSpecialtyMap[i].specialties)
      || ((forall i :: 0 <= i < |SymptomSpecialtyMap| ==> !Contains(Lower(text), SymptomSpecialtyMap[i].keyword)) && x == GeneralMedicine)
  {
    var t := Lower(text);
    var c := Candidates(SymptomSpecialtyMap, t);
    var r := FindSpecialty(text);
    CandidatesSpec(SymptomSpecialtyMap, t, x);
    NoCandidatesIffNoKeyword(t);
    if |c| == 0 {
      assert r == [GeneralMedicine];
    } else {
      assert x in r <==> x in c;
    }
  }

  /** Every entry of the dictionary suggests at least one specialty. */
  lemma NoCandidatesIffNoKeyword(t: string)
    ensures |Candidates(SymptomSpecialtyMap, t)| == 0 <==>
      forall i :: 0 <= i < |SymptomSpecialtyMap| ==> !Contains(t, SymptomSpecialtyMap[i].keyword)
  {
    var m := SymptomSpecialtyMap;
    SymptomSuggestionsNonEmpty();
    if forall i :: 0 <= i < |m| ==> !Contains(t, m[i].keyword) {
      NoKeywordNoCandidates(m, t);
    }
    forall i | 0 <= i < |m| && Contains(t, m[i].keyword)
      ensures |Candidates(m, t)| > 0
    {
      CandidatesSpec(m, t, m[i].specialties[0]);
    }
  }

  /** Matching ignores case: the text and its lower-cased form get the same suggestions. */
  lemma FindSpecialtyIgnoresCase(text: string)
    ensures FindSpecialty(Lower(text)) == FindSpecialty(text)
  {
    LowerIdempotent(text);
  }

  lemma {:induction false} CandidatesAppend(a: seq<Keyword>, b: seq<Keyword>, text: string)
    ensures Candidates(a + b, text) == Candidates(a, text) + Candidates(b, text)
  {
    if |a| > 0 {
      assert (a + b)[1..] == a[1..] + b;
      CandidatesAppend(a[1..], b, text);
    } else {
      assert a + b == b;
    }
  }

  lemma {:induction false} NoKeywordNoCandidates(dict: seq<Keyword>, text: string)
    requires forall i :: 0 <= i < |dict| ==> !Contains(text, dict[i].keyword)
    ensures Candidates(dict, text) == []
  {
    if |dict| > 0 {
      NoKeywordNoCandidates(dict[1..], text);
    }
  }

  /** A list without repeats has as many distinct elements as entries. */
  lemma {:induction false} DistinctElementsCount(r: seq<string>)
    requires NoDuplicates(r)
    ensures |set x | x in r| == |r|
  {
    if |r| > 0 {
      DistinctElementsCount(r[1..]);
      assert (set x | x in r) == {r[0]} + (set x | x in r[1..]);
      assert r[0] !in r[1..];
    }
  }

  /** The only ordered de-duplication of a candidate list over two names that starts with `a`. */
  lemma TwoNamesInOrder(r: seq<string>, c: seq<string>, a: string, b: string)
    requires a != b && |c| > 0 && c[0] == a && b in c
    requires forall i :: 0 <= i < |c| ==> c[i] == a || c[i] == b
    requires DistinctInOrder(r, c)
    ensures r == [a, b]
  {
    assert a in r && b in r;
    assert forall k :: 0 <= k < |r| ==> r[k] in c;
    assert forall k :: 0 <= k < |r| ==> r[k] == a || r[k] == b;
    DistinctElementsCount(r);
    assert (set x | x in r) == {a, b};
    assert |r| == 2;
    assert FirstIndex(c, a) == 0;
    assert FirstIndex(c, r[0]) < FirstIndex(c, r[1]);
    assert r[1] != a;
  }

  lemma CandidatesOfThree(dict: seq<Keyword>, text: string, lo: nat, hi: nat)
    requires lo <= hi <= |dict|
    ensures Candidates(dict, text)
      == Candidates(dict[..lo], text) + Candidates(dict[lo..hi], text) + Candidates(dict[hi..], text)
  {
    assert dict == dict[..lo] + (dict[lo..hi] + dict[hi..]);
    CandidatesAppend(dict[..lo], dict[lo..hi] + dict[hi..], text);
    CandidatesAppend(dict[lo..hi], dict[hi..], text);
  }

  /** Only the entries in `dict[lo..hi]` can contribute candidates when no keyword outside them occurs. */
  lemma CandidatesWithin(dict: seq<Keyword>, text: string, lo: nat, hi: nat)
    requires lo <= hi <= |dict|
    requires forall i :: 0 <= i < |dict| && !(lo <= i < hi) ==> !Contains(text, dict[i].keyword)
    ensures Candidates(dict, text) == Candidates(dict[lo..hi], text)
  {
    CandidatesOfThree(dict, text, lo, hi);
    var pre, post := dict[..lo], dict[hi..];
    assert forall i :: 0 <= i < |pre| ==> pre[i] == dict[i];
    assert forall i :: 0 <= i < |post| ==> post[i] == dict[hi + i];
    NoKeywordNoCandidates(pre, text);
    NoKeywordNoCandidates(post, text);
  }

  lemma TooShort(s: string, p: string)
    requires |s| < |p|
    ensures !Contains(s, p)
  {
  }

  /** Two different candidate names are suggested as they are, in their order. */
  lemma TwoCandidates(text: string, a: string, b: string)
    requires a != b
    requires Candidates(SymptomSpecialtyMap, Lower(text)) == [a, b]
    ensures FindSpecialty(text) == [a, b]
  {
    var r, c := FindSpecialty(text), Candidates(SymptomSpecialtyMap, Lower(text));
    TwoNamesInOrder(r, c, a, b);
  }

  /** Keyword `i` is ruled out for `t` because `t` lacks its character `ch`. */
  lemma RuledOut(t: string, i: nat, ch: char)
    requires i < |SymptomSpecialtyMap| && ch in SymptomSpecialtyMap[i].keyword && ch !in t
    ensures !Contains(t, SymptomSpecialtyMap[i].keyword)
  {
    MissingCharRulesOut(t, SymptomSpecialtyMap[i].keyword, ch);
  }

  lemma OccursIn(t: string, p: string, k: nat)
    requires k + |p| <= |t| && t[k..k + |p|] == p
    ensures Contains(t, p)
  {
    assert OccursAt(t, p, k);
    ContainsSpec(t, p);
  }

  lemma SubstringNotWordHead(t: string)
    requires t == "datos"
    ensures forall i :: 0 <= i < 10 && i != 3 ==> !Contains(t, SymptomSpecialtyMap[i].keyword)
  {
    forall i | 0 <= i < 10 && i != 3
      ensures !Contains(t, SymptomSpecialtyMap[i].keyword)
    {
      if i == 7 { RuledOut(t, i, 'c'); }
      else { TooShort(t, SymptomSpecialtyMap[i].keyword); }
    }
  }

  lemma SubstringNotWordTail(t: string)
    requires t == "datos"
    ensures forall i :: 10 <= i < |SymptomSpecialtyMap| ==> !Contains(t, SymptomSpecialtyMap[i].keyword)
  {
    forall i | 10 <= i < |SymptomSpecialtyMap|
      ensures !Contains(t, SymptomSpecialtyMap[i].keyword)
    {
      if i == 17 { RuledOut(t, i, 'i'); }
      else if i == 18 { RuledOut(t, i, 'n'); }
      else if i == 19 { RuledOut(t, i, 'b'); }
      else { TooShort(t, SymptomSpecialtyMap[i].keyword); }
    }
  }

  /** A text in which "tos" is the only keyword gets the suggestions of "tos". */
  lemma OnlyCoughCandidates(t: string)
    requires Contains(t, "tos")
    requires forall i :: 0 <= i < |SymptomSpecialtyMap| && i != 3 ==> !Contains(t, SymptomSpecialtyMap[i].keyword)
    ensures Candidates(SymptomSpecialtyMap, t) == [GeneralMedicine, "Pediatría"]
  {
    CandidatesWithin(SymptomSpecialtyMap, t, 3, 4);
    assert SymptomSpecialtyMap[3..4] == [Keyword("tos", [GeneralMedicine, "Pediatría"])];
  }

  /** Matching is by substring, not by word: "datos" contains the keyword "tos". */
  lemma SubstringNotWordExample(text: string)
    requires Lower(text) == "datos"
    ensures FindSpecialty(text) == [GeneralMedicine, "Pediatría"]
  {
    SubstringNotWordKeywords(Lower(text));
    OnlyCoughCandidates(Lower(text));
    TwoCandidates(text, GeneralMedicine, "Pediatría");
  }

  /** Of all the keywords, "datos" contains exactly "tos". */
  lemma SubstringNotWordKeywords(t: string)
    requires t == "datos"
    ensures Contains(t, "tos")
    ensures forall i :: 0 <= i < |SymptomSpecialtyMap| && i != 3 ==> !Contains(t, SymptomSpecialtyMap[i].keyword)
  {
    SubstringNotWordHead(t);
    SubstringNotWordTail(t);
    assert t[2..5] == "tos";
    OccursIn(t, "tos", 2);
  }

  lemma MigraineHead(t: string)
    requires t == "migraña"
    ensures forall i :: 0 <= i < 10 && i != 1 ==> !Contains(t, SymptomSpecialtyMap[i].keyword)
  {
    forall i | 0 <= i < 10 && i != 1
      ensures !Contains(t, SymptomSpecialtyMap[i].keyword)
    {
      if i == 2 { RuledOut(t, i, 'f'); }
      else if i == 3 { RuledOut(t, i, 't'); }
      else if i == 7 { RuledOut(t, i, 'c'); }
      else { TooShort(t, SymptomSpecialtyMap[i].keyword); }
    }
  }

  lemma MigraineTail(t: string)
    requires t == "migraña"
    ensures forall i :: 10 <= i < |SymptomSpecialtyMap| ==> !Contains(t, SymptomSpecialtyMap[i].keyword)
  {
    forall i | 10 <= i < |SymptomSpecialtyMap|
      ensures !Contains(t, SymptomSpecialtyMap[i].keyword)
    {
      if i == 17 { RuledOut(t, i, 'd'); }
      else if i == 18 { RuledOut(t, i, 'n'); }
      else if i == 19 { RuledOut(t, i, 'b'); }
      else { TooShort(t, SymptomSpecialtyMap[i].keyword); }
    }
  }

  /** A text in which "migraña" is the only keyword gets the suggestions of "migraña". */
  lemma OnlyMigraineCandidates(t: string)
    requires Contains(t, "migraña")
    requires forall i :: 0 <= i < |SymptomSpecialtyMap| && i != 1 ==> !Contains(t, SymptomSpecialtyMap[i].keyword)
    ensures Candidates(SymptomSpecialtyMap, t) == ["Neurología", GeneralMedicine]
  {
    CandidatesWithin(SymptomSpecialtyMap, t, 1, 2);
    assert SymptomSpecialtyMap[1..2] == [Keyword("migraña", ["Neurología", GeneralMedicine])];
  }

  /** "Migraña", in any capitalisation: a single keyword keeps its own list order. */
  lemma MigraineExample(text: string)
    requires Lower(text) == "migraña"
    ensures FindSpecialty(text) == ["Neurología", GeneralMedicine]
  {
    MigraineKeywords(Lower(text));
    OnlyMigraineCandidates(Lower(text));
    TwoCandidates(text, "Neurología", GeneralMedicine);
  }

  /** Of all the keywords, "migraña" contains exactly "migraña". */
  lemma MigraineKeywords(t: string)
    requires t == "migraña"
    ensures Contains(t, "migraña")
    ensures forall i :: 0 <= i < |SymptomSpecialtyMap| && i != 1 ==> !Contains(t, SymptomSpecialtyMap[i].keyword)
  {
    MigraineHead(t);
    MigraineTail(t);
    OccursIn(t, "migraña", 0);
  }

  // ---------------------------------------------------------------------------
  // The conversation

  /** The chat page's state: the messages so far, the text box, the typing indicator. */
  datatype Chat = Chat(messages: seq<ChatMessage>, input: string, typing: bool)

  const Greeting: string :=
    "¡Hola! Soy tu asistente de salud. Cuéntame tus síntomas y te ayudaré a encontrar la especialidad médica adecuada."

  /** The page opens with the assistant's greeting and an empty text box. */
  const InitialChat: Chat := Chat([ChatMessage("1", Greeting, SentByAi)], "", false)

  /** The word the quick action looks for to recognise a recommendation. */
  const RecommendMarker: string := "recomiendo"

  const IntroLead: string := "Basándome en tus síntomas, te "
  const ReplyIntro: string := IntroLead + RecommendMarker + " consultar con un especialista en:\n\n"
  const ReplyOutro: string := "\n¿Te gustaría agendar una cita con alguno de estos especialistas?"

  function Bullet(spec: string): string {
    "• **" + spec + "**\n"
  }

  function Bullets(specs: seq<string>): string {
    if |specs| == 0 then "" else Bullet(specs[0]) + Bullets(specs[1..])
  }

  lemma {:induction false} BulletsMention(specs: seq<string>, s: string)
    requires s in specs
    ensures Contains(Bullets(specs), s)
  {
    if specs[0] == s {
      var b := Bullet(s);
      assert b[4..4 + |s|] == s;
      OccursIn(b, s, 4);
      ContainsInPrefix(b, Bullets(specs[1..]), s);
    } else {
      BulletsMention(specs[1..], s);
      ContainsInSuffix(Bullet(specs[0]), Bullets(specs[1..]), s);
    }
  }

  lemma IntroRecommends()
    ensures Contains(ReplyIntro, RecommendMarker)
  {
    assert ReplyIntro[|IntroLead|..|IntroLead| + |RecommendMarker|] == RecommendMarker;
    OccursIn(ReplyIntro, RecommendMarker, |IntroLead|);
  }

  /** The assistant's reply: the intro, one bold bullet per suggested specialty, the closing question. */
  function ReplyText(specs: seq<string>): (r: string)
    ensures Contains(r, RecommendMarker)
    ensures forall s :: s in specs ==> Contains(r, s)
  {
    var r := ReplyIntro + Bullets(specs) + ReplyOutro;
    IntroRecommends();
    ContainsInPrefix(ReplyIntro, Bullets(specs) + ReplyOutro, RecommendMarker);
    assert r == ReplyIntro + (Bullets(specs) + ReplyOutro);
    forall s | s in specs
      ensures Contains(r, s)
    {
      BulletsMention(specs, s);
      ContainsInPrefix(Bullets(specs), ReplyOutro, s);
      ContainsInSuffix(ReplyIntro, Bullets(specs) + ReplyOutro, s);
    }
    r
  }

  /**
   * `handleSend`: a blank text box does nothing; otherwise the user's text is
   * appended verbatim, the box is cleared, and, after the simulated delay, the
   * reply built from the suggestions for the text as sent is appended. The
   * message ids are clock readings and are parameters here.
   */
  function HandleSend(chat: Chat, userId: string, aiId: string): (c: Chat)
    ensures IsBlank(chat.input) ==> c == chat
    ensures !IsBlank(chat.input) ==>
      && |c.messages| == |chat.messages| + 2
      && c.messages[..|chat.messages|] == chat.messages
      && c.messages[|chat.messages|] == ChatMessage(userId, chat.input, SentByUser)
      && c.messages[|chat.messages| + 1] == ChatMessage(aiId, ReplyText(FindSpecialty(chat.input)), SentByAi)
      && c.input == "" && !c.typing
  {
    if IsBlank(chat.input) then chat
    else
      var sent := Chat(chat.messages + [ChatMessage(userId, chat.input, SentByUser)], "", true);
      Chat(sent.messages + [ChatMessage(aiId, ReplyText(FindSpecialty(chat.input)), SentByAi)], sent.input, false)
  }

  /** The "book with a specialist" shortcut appears once the conversation has more than two messages. */
  predicate QuickActionShown(chat: Chat) {
    |chat.messages| > 2
  }

  /** An assistant message that recommends specialists. */
  predicate IsRecommendation(m: ChatMessage) {
    m.sender == SentByAi && Contains(m.text, RecommendMarker)
  }

  /** Message `i` is the latest recommendation of the conversation. */
  ghost predicate IsLastRecommendation(msgs: seq<ChatMessage>, i: int) {
    0 <= i < |msgs| && IsRecommendation(msgs[i])
    && forall j :: i < j < |msgs| ==> !IsRecommendation(msgs[j])
  }

  predicate Names(text: string, k: nat)
    requires k < |Specialties|
  {
    Contains(text, Specialties[k].name)
  }

  /** Entry `k` is the first specialty, in table order, whose name occurs in `text`. */
  ghost predicate IsFirstNamed(text: string, k: int) {
    0 <= k < |Specialties| && Names(text, k)
    && forall j :: 0 <= j < k ==> !Names(text, j)
  }

  /** `[...messages].reverse().find(...)`: the index of the latest recommendation, if any. */
  function LastRecommendation(msgs: seq<ChatMessage>): (r: Option<nat>)
    ensures r.Some? ==> IsLastRecommendation(msgs, r.value)
    ensures r.None? ==> forall j :: 0 <= j < |msgs| ==> !IsRecommendation(msgs[j])
  {
    if |msgs| == 0 then None
    else if IsRecommendation(msgs[|msgs| - 1]) then Some(|msgs| - 1)
    else LastRecommendation(msgs[..|msgs| - 1])
  }

  /** The loop over `specialties`: the first entry from `k` on whose name occurs in `text`. */
  function FirstNamedFrom(text: string, k: nat): (r: Option<nat>)
    requires k <= |Specialties|
    ensures r.Some? ==>
      k <= r.value < |Specialties| && Names(text, r.value) && forall j :: k <= j < r.value ==> !Names(text, j)
    ensures r.None? ==> forall j :: k <= j < |Specialties| ==> !Names(text, j)
    decreases |Specialties| - k
  {
    if k == |Specialties| then None
    else if Names(text, k) then Some(k)
    else FirstNamedFrom(text, k + 1)
  }

  /**
   * `getFirstSuggestedSpecialtyId`: the id of the first specialty, in table order,
   * named in the latest recommendation; "1" (general medicine) when there is no
   * recommendation or it names no specialty.
   */
  function FirstSuggestedSpecialtyId(msgs: seq<ChatMessage>): (id: string)
    ensures (forall j :: 0 <= j < |msgs| ==> !IsRecommendation(msgs[j])) ==> id == "1"
    ensures forall i, k :: IsLastRecommendation(msgs, i) && IsFirstNamed(msgs[i].text, k) ==>
      id == Specialties[k].id
    ensures forall i :: IsLastRecommendation(msgs, i) && (forall k :: 0 <= k < |Specialties| ==> !Names(msgs[i].text, k)) ==>
      id == "1"
  {
    match LastRecommendation(msgs)
    case None => "1"
    case Some(i) =>
      assert forall i' :: IsLastRecommendation(msgs, i') ==> i' == i;
      match FirstNamedFrom(msgs[i].text, 0)
      case None => "1"
      case Some(k) =>
        assert forall k' :: IsFirstNamed(msgs[i].text, k') ==> k' == k;
        Specialties[k].id
  }

  lemma LastRecommendationUnique(msgs: seq<ChatMessage>, i: int, j: int)
    requires IsLastRecommendation(msgs, i) && IsLastRecommendation(msgs, j)
    ensures i == j
  {
  }

  /** Every suggestion the matcher can make is a specialty of the table. */
  lemma SuggestionsInTable(text: string)
    ensures forall s :: s in FindSpecialty(text) ==> s in SpecialtyNames(Specialties)
  {
    SymptomSuggestionsInTable();
    SpecialtyKeysDistinct();
    forall s | s in FindSpecialty(text)
      ensures s in SpecialtyNames(Specialties)
    {
      FindSpecialtySoundAndComplete(text, s);
    }
  }

  /**
   * After a message is sent, the shortcut shows, and it leads to the first
   * specialty, in table order, named in the reply; one always is, so the
   * shortcut follows the reply rather than the fallback, and whenever general
   * medicine is among the suggestions it wins, being first in the table.
   */
  lemma QuickActionFollowsReply(chat: Chat, userId: string, aiId: string)
    requires |chat.messages| >= 1 && !IsBlank(chat.input)
    ensures QuickActionShown(HandleSend(chat, userId, aiId))
    ensures exists k ::
      IsFirstNamed(ReplyText(FindSpecialty(chat.input)), k) &&
      FirstSuggestedSpecialtyId(HandleSend(chat, userId, aiId).messages) == Specialties[k].id
    ensures GeneralMedicine in FindSpecialty(chat.input) ==>
      FirstSuggestedSpecialtyId(HandleSend(chat, userId, aiId).messages) == "1"
  {
    var msgs := HandleSend(chat, userId, aiId).messages;
    var reply := ReplyText(FindSpecialty(chat.input));
    var last := |msgs| - 1;
    assert msgs[last] == ChatMessage(aiId, reply, SentByAi);
    assert IsLastRecommendation(msgs, last);
    var s0 := FindSpecialty(chat.input)[0];
    SuggestionsInTable(chat.input);
    assert s0 in SpecialtyNames(Specialties);
    var k0 :| 0 <= k0 < |Specialties| && SpecialtyNames(Specialties)[k0] == s0;
    assert Names(reply, k0);
    var k := FirstNamedFrom(reply, 0).value;
    assert IsFirstNamed(reply, k);
    SpecialtyKeysDistinct();
    if GeneralMedicine in FindSpecialty(chat.input) {
      assert Names(reply, 0);
      assert k == 0;
    }
  }
}

=== FILE: app_context.dfy ===
/**
 * The application-wide state: the signed-in user and the list of appointments,
 * with the operations every page calls on it. The simulated network delays are
 * not modelled; an operation's result is what the state holds once it finishes.
 */
module AppContext {
  import opened Wrappers
  import opened Types

  datatype AppState = AppState(user: Option<User>, appointments: seq<Appointment>)

  /** What an asynchronous sign-in or sign-up resolves to, with the state it leaves behind. */
  datatype Outcome = Outcome(state: AppState, ok: bool)

  /**
   * `Partial<User>`: a present field (`Some`) overrides, an absent one (`None`)
   * keeps the current value.
   */
  datatype PartialUser = PartialUser(
    id: Option<string>,
    email: Option<string>,
    firstName: Option<string>,
    lastName: Option<string>,
    dni: Option<string>,
    birthDate: Option<string>,
    phone: Option<string>,
    avatarUrl: Option<string>)

  const NoChanges: PartialUser := PartialUser(None, None, None, None, None, None, None, None)

  /** No user is signed in at start; the appointments are the demo ones. */
  function Initial(appointments: seq<Appointment>): (s: AppState)
    ensures !IsAuthenticated(s) && s.appointments == appointments
  {
    AppState(None, appointments)
  }

  /** `isAuthenticated: !!user`. */
  predicate IsAuthenticated(s: AppState) {
    s.user.Some?
  }

  /** The demo profile every successful sign-in loads; only the e-mail comes from the form. */
  function DemoUser(email: string): User {
    User("1", email, "Juan", "Pérez García", "12345678A", "1990-05-15", "+34 612 345 678", None)
  }

  /**
   * `login`: any non-empty e-mail with any non-empty password signs in as the
   * demo profile; otherwise nothing changes and the result is `false`.
   */
  function Login(s: AppState, email: string, password: string): (o: Outcome)
    ensures o.ok <==> email != "" && password != ""
    ensures o.ok ==> o.state == AppState(Some(DemoUser(email)), s.appointments)
    ensures !o.ok ==> o.state == s
  {
    if email != "" && password != "" then
      Outcome(s.(user := Some(DemoUser(email))), true)
    else
      Outcome(s, false)
  }

  /** `x || ''` on an optional string: a missing or empty value becomes the empty string. */
  function OrEmpty(x: Option<string>): (r: string)
    ensures x.Some? ==> r == x.value
    ensures x.None? ==> r == ""
  {
    x.GetOr("")
  }

  /**
   * `register`: needs a non-empty e-mail in the form data and a non-empty password;
   * the new user gets id "1", the given e-mail, the other fields or "" in their
   * place, and no avatar. The password is not stored.
   */
  function Register(s: AppState, data: PartialUser, password: string): (o: Outcome)
    ensures o.ok <==> data.email.Some? && data.email.value != "" && password != ""
    ensures o.ok ==> o.state.appointments == s.appointments && o.state.user.Some?
    ensures o.ok ==> var u := o.state.user.value;
      && u.id == "1" && u.email == data.email.value && u.avatarUrl.None?
      && u.firstName == OrEmpty(data.firstName) && u.lastName == OrEmpty(data.lastName)
      && u.dni == OrEmpty(data.dni) && u.birthDate == OrEmpty(data.birthDate)
      && u.phone == OrEmpty(data.phone)
    ensures !o.ok ==> o.state == s
  {
    if data.email.Some? && data.email.value != "" && password != "" then
      var u := User("1", data.email.value, OrEmpty(data.firstName), OrEmpty(data.lastName),
        OrEmpty(data.dni), OrEmpty(data.birthDate), OrEmpty(data.phone), None);
      Outcome(s.(user := Some(u)), true)
    else
      Outcome(s, false)
  }

  /** `logout`: forget the user, keep the appointments. */
  function Logout(s: AppState): (r: AppState)
    ensures !IsAuthenticated(r) && r.appointments == s.appointments
  {
    s.(user := None)
  }

  /** `{ ...user, ...patch }`. */
  function Merge(u: User, p: PartialUser): (r: User)
    ensures r.id == p.id.GetOr(u.id) && r.email == p.email.GetOr(u.email)
    ensures r.firstName == p.firstName.GetOr(u.firstName) && r.lastName == p.lastName.GetOr(u.lastName)
    ensures r.dni == p.dni.GetOr(u.dni) && r.birthDate == p.birthDate.GetOr(u.birthDate)
    ensures r.phone == p.phone.GetOr(u.phone)
    ensures r.avatarUrl == (if p.avatarUrl.Some? then p.avatarUrl else u.avatarUrl)
  {
    User(
      p.id.GetOr(u.id), p.email.GetOr(u.email), p.firstName.GetOr(u.firstName),
      p.lastName.GetOr(u.lastName), p.dni.GetOr(u.dni), p.birthDate.GetOr(u.birthDate),
      p.phone.GetOr(u.phone), if p.avatarUrl.Some? then p.avatarUrl else u.avatarUrl)
  }

  /** Applying `p` and then `q` is applying `q` over `p`: the later value of each field wins. */
  function Then(p: PartialUser, q: PartialUser): PartialUser {
    PartialUser(
      if q.id.Some? then q.id else p.id,
      if q.email.Some? then q.email else p.email,
      if q.firstName.Some? then q.firstName else p.firstName,
      if q.lastName.Some? then q.lastName else p.lastName,
      if q.dni.Some? then q.dni else p.dni,
      if q.birthDate.Some? then q.birthDate else p.birthDate,
      if q.phone.Some? then q.phone else p.phone,
      if q.avatarUrl.Some? then q.avatarUrl else p.avatarUrl)
  }

  /** `updateProfile`: merge the patch into the signed-in user; without a user nothing happens. */
  function UpdateProfile(s: AppState, p: PartialUser): (r: AppState)
    ensures r.appointments == s.appointments
    ensures s.user.None? ==> r == s
    ensures s.user.Some? ==> r.user == Some(Merge(s.user.value, p))
  {
    if s.user.Some? then s.(user := Some(Merge(s.user.value, p))) else s
  }

  /** The empty patch changes nothing. */
  lemma UpdateWithNoChanges(s: AppState)
    ensures UpdateProfile(s, NoChanges) == s
  {
  }

  /** Saving the same patch twice is saving it once. */
  lemma UpdateIdempotent(s: AppState, p: PartialUser)
    ensures UpdateProfile(UpdateProfile(s, p), p) == UpdateProfile(s, p)
  {
  }

  /** Two updates in a row amount to one with the combined patch. */
  lemma UpdateCompose(s: AppState, p: PartialUser, q: PartialUser)
    ensures UpdateProfile(UpdateProfile(s, p), q) == UpdateProfile(s, Then(p, q))
  {
  }

  /** A patch that sets every field of the user replaces the user outright. */
  lemma UpdateWithFullPatch(s: AppState, v: User)
    requires s.user.Some?
    ensures UpdateProfile(s, PartialUser(Some(v.id), Some(v.email), Some(v.firstName), Some(v.lastName),
      Some(v.dni), Some(v.birthDate), Some(v.phone), v.avatarUrl)).user
      == Some(if v.avatarUrl.Some? then v else v.(avatarUrl := s.user.value.avatarUrl))
  {
  }

  /**
   * `bookAppointment`: append a scheduled appointment for the doctor at the
   * slot's date and time, carrying the symptoms if any. The id is a clock
   * reading in the original and is a parameter here.
   */
  function BookAppointment(s: AppState, newId: string, doctor: Doctor, slot: TimeSlot, symptoms: Option<string>): (r: AppState)
    ensures r.user == s.user
    ensures |r.appointments| == |s.appointments| + 1
    ensures r.appointments[..|s.appointments|] == s.appointments
    ensures var a := r.appointments[|s.appointments|];
      && a.id == newId && a.doctor == doctor && a.date == slot.date && a.time == slot.time
      && a.status == Scheduled && a.symptoms == symptoms
      && a.diagnosis.None? && a.prescription.None? && a.notes.None?
  {
    var a := Appointment(newId, doctor, slot.date, slot.time, Scheduled, symptoms, None, None, None);
    s.(appointments := s.appointments + [a])
  }

  /** Booking under a fresh id keeps appointment ids unique. */
  lemma BookKeepsIdsUnique(s: AppState, newId: string, doctor: Doctor, slot: TimeSlot, symptoms: Option<string>)
    requires UniqueIds(s.appointments) && !HasId(s.appointments, newId)
    ensures UniqueIds(BookAppointment(s, newId, doctor, slot, symptoms).appointments)
  {
    var r := BookAppointment(s, newId, doctor, slot, symptoms).appointments;
    forall i, j | 0 <= i < j < |r|
      ensures r[i].id != r[j].id
    {
      assert r[i] == s.appointments[i];
      if j < |s.appointments| {
        assert r[j] == s.appointments[j];
      }
    }
  }

  /** `{ ...apt, status: 'cancelled' }` for the appointment with the id, the others as they are. */
  function CancelOne(a: Appointment, id: string): (r: Appointment)
    ensures a.id == id ==> r == a.(status := Cancelled)
    ensures a.id != id ==> r == a
  {
    if a.id == id then a.(status := Cancelled) else a
  }

  /**
   * `cancelAppointment`: every appointment with the id becomes cancelled,
   * whatever its status was, completed ones included; all else stays.
   */
  function CancelAppointment(s: AppState, id: string): (r: AppState)
    ensures r.user == s.user
    ensures |r.appointments| == |s.appointments|
    ensures forall i :: 0 <= i < |s.appointments| ==>
      if s.appointments[i].id == id then r.appointments[i] == s.appointments[i].(status := Cancelled)
      else r.appointments[i] == s.appointments[i]
  {
    s.(appointments := seq(|s.appointments|, i requires 0 <= i < |s.appointments| => CancelOne(s.appointments[i], id)))
  }

  /** Cancelling an id no appointment has changes nothing. */
  lemma CancelUnknownId(s: AppState, id: string)
    requires !HasId(s.appointments, id)
    ensures CancelAppointment(s, id) == s
  {
    assert CancelAppointment(s, id).appointments == s.appointments;
  }

  /** Cancelling twice is cancelling once. */
  lemma CancelIdempotent(s: AppState, id: string)
    ensures CancelAppointment(CancelAppointment(s, id), id) == CancelAppointment(s, id)
  {
    assert CancelAppointment(CancelAppointment(s, id), id).appointments == CancelAppointment(s, id).appointments;
  }

  /** Cancellations of different appointments can happen in either order. */
  lemma CancelCommutes(s: AppState, a: string, b: string)
    ensures CancelAppointment(CancelAppointment(s, a), b) == CancelAppointment(CancelAppointment(s, b), a)
  {
    assert CancelAppointment(CancelAppointment(s, a), b).appointments
      == CancelAppointment(CancelAppointment(s, b), a).appointments;
  }

  /** Cancelling keeps the set of ids, so unique ids stay unique. */
  lemma CancelKeepsIdsUnique(s: AppState, id: string)
    requires UniqueIds(s.appointments)
    ensures UniqueIds(CancelAppointment(s, id).appointments)
  {
  }

  function CountStatus(apts: seq<Appointment>, st: Status): (n: nat)
    ensures n <= |apts|
  {
    if |apts| == 0 then 0
    else (if apts[0].status == st then 1 else 0) + CountStatus(apts[1..], st)
  }

  lemma {:induction false} CountStatusAppend(a: seq<Appointment>, b: seq<Appointment>, st: Status)
    ensures CountStatus(a + b, st) == CountStatus(a, st) + CountStatus(b, st)
  {
    if |a| > 0 {
      assert (a + b)[1..] == a[1..] + b;
      CountStatusAppend(a[1..], b, st);
    } else {
      assert a + b == b;
    }
  }

  /** Index-wise, no appointment leaves the cancelled state or enters another. */
  lemma {:induction false} CountAfterPointwiseCancel(a: seq<Appointment>, b: seq<Appointment>)
    requires |a| == |b|
    requires forall i :: 0 <= i < |a| ==> b[i] == a[i] || b[i] == a[i].(status := Cancelled)
    ensures CountStatus(b, Completed) <= CountStatus(a, Completed)
    ensures CountStatus(b, Scheduled) <= CountStatus(a, Scheduled)
    ensures CountStatus(b, Cancelled) >= CountStatus(a, Cancelled)
  {
    if |a| > 0 {
      CountAfterPointwiseCancel(a[1..], b[1..]);
    }
  }

  /**
   * No operation creates a completed appointment: completed ones only come with
   * the initial data, and cancelling can only take them away.
   */
  lemma NothingBecomesCompleted(s: AppState, id: string, newId: string, doctor: Doctor, slot: TimeSlot, symptoms: Option<string>)
    ensures CountStatus(CancelAppointment(s, id).appointments, Completed) <= CountStatus(s.appointments, Completed)
    ensures CountStatus(BookAppointment(s, newId, doctor, slot, symptoms).appointments, Completed)
      == CountStatus(s.appointments, Completed)
  {
    CountAfterPointwiseCancel(s.appointments, CancelAppointment(s, id).appointments);
    var a := BookAppointment(s, newId, doctor, slot, symptoms).appointments;
    assert a == s.appointments + [a[|s.appointments|]];
    CountStatusAppend(s.appointments, [a[|s.appointments|]], Completed);
  }

  /** Signing out after signing in leaves the appointments and no user. */
  lemma LoginThenLogout(s: AppState, email: string, password: string)
    ensures Logout(Login(s, email, password).state) == Logout(s)
  {
  }
}

=== FILE: appointment_lists.dfy ===
/**
 * The three appointment lists the pages show: "Mis Citas" (scheduled and
 * cancelled, scheduled first, each soonest first), "Historial" (completed and
 * cancelled, latest first) and the two upcoming ones on the home page.
 *
 * `Array.prototype.sort` is stable, so the model sorts with a stable insertion
 * sort and proves what any stable sort guarantees: the result is a permutation
 * of the input, ordered by the comparator, and entries the comparator ties keep
 * their input order. Dates are ISO `YYYY-MM-DD` strings, for which comparing the
 * `getTime()` of `new Date(date)` agrees with comparing the strings.
 */
module AppointmentLists {
  import opened Wrappers
  import opened Text
  import opened Types
  import opened MockData

  /** The two comparators of the pages. */
  datatype Order = Upcoming | History

  /**
   * `a` may precede `b` (the comparator returns at most 0). Upcoming: scheduled
   * before not scheduled, otherwise the earlier date first. History: the later
   * date first.
   */
  predicate Le(o: Order, a: Appointment, b: Appointment) {
    match o
    case Upcoming =>
      (a.status == Scheduled && b.status != Scheduled)
      || ((a.status == Scheduled) == (b.status == Scheduled) && LexLe(a.date, b.date))
    case History => LexLe(b.date, a.date)
  }

  /** The comparator ties `a` and `b`. */
  predicate Tied(o: Order, a: Appointment, b: Appointment) {
    Le(o, a, b) && Le(o, b, a)
  }

  lemma LeTotal(o: Order, a: Appointment, b: Appointment)
    ensures Le(o, a, b) || Le(o, b, a)
  {
    LexLeTotal(a.date, b.date);
  }

  lemma LeTransitive(o: Order, a: Appointment, b: Appointment, c: Appointment)
    requires Le(o, a, b) && Le(o, b, c)
    ensures Le(o, a, c)
  {
    match o
    case Upcoming =>
      if (a.status == Scheduled) == (b.status == Scheduled) && (b.status == Scheduled) == (c.status == Scheduled) {
        LexLeTransitive(a.date, b.date, c.date);
      }
    case History =>
      LexLeTransitive(c.date, b.date, a.date);
  }

  /** Tied entries are exactly those in the same status class with the same date. */
  lemma TiedMeans(o: Order, a: Appointment, b: Appointment)
    ensures Tied(o, a, b) <==>
      a.date == b.date && (o.Upcoming? ==> (a.status == Scheduled) == (b.status == Scheduled))
  {
    if a.date == b.date {
      LexLeTotal(a.date, b.date);
    }
    if LexLe(a.date, b.date) && LexLe(b.date, a.date) {
      LexLeAntisymmetric(a.date, b.date);
    }
  }

  ghost predicate Sorted(o: Order, s: seq<Appointment>) {
    forall i, j :: 0 <= i < j < |s| ==> Le(o, s[i], s[j])
  }

  /** The entries of `s` the comparator ties with `x`, in their order in `s`. */
  function TiedWith(o: Order, s: seq<Appointment>, x: Appointment): (r: seq<Appointment>)
    ensures |r| <= |s|
  {
    if |s| == 0 then []
    else (if Tied(o, x, s[0]) then [s[0]] else []) + TiedWith(o, s[1..], x)
  }

  /** `TiedWith` keeps exactly the entries of `s` tied with `x`. */
  lemma {:induction false} TiedWithMembers(o: Order, s: seq<Appointment>, x: Appointment, y: Appointment)
    ensures y in TiedWith(o, s, x) <==> y in s && Tied(o, x, y)
  {
    if |s| > 0 {
      TiedWithMembers(o, s[1..], x, y);
      assert s == [s[0]] + s[1..];
    }
  }

  /** `x` goes in front of the first entry it may precede. */
  function Insert(o: Order, x: Appointment, s: seq<Appointment>): (r: seq<Appointment>)
    ensures multiset(r) == multiset(s) + multiset{x}
  {
    if |s| == 0 then [x]
    else if Le(o, x, s[0]) then [x] + s
    else
      assert s == [s[0]] + s[1..];
      [s[0]] + Insert(o, x, s[1..])
  }

  /** A stable insertion sort: later entries are sorted first, each earlier one goes before its ties. */
  function Sort(o: Order, s: seq<Appointment>): (r: seq<Appointment>)
    ensures multiset(r) == multiset(s)
  {
    if |s| == 0 then []
    else
      assert s == [s[0]] + s[1..];
      Insert(o, s[0], Sort(o, s[1..]))
  }

  /** The head of a sorted list may precede everything after it. */
  lemma HeadPrecedesTail(o: Order, s: seq<Appointment>, y: Appointment)
    requires Sorted(o, s) && |s| > 0 && y in s[1..]
    ensures Le(o, s[0], y)
  {
    var k :| 0 <= k < |s[1..]| && s[1..][k] == y;
    assert s[k + 1] == y;
  }

  lemma {:induction false} InsertMembers(o: Order, x: Appointment, s: seq<Appointment>, y: Appointment)
    ensures y in Insert(o, x, s) <==> y == x || y in s
  {
    if |s| > 0 && !Le(o, x, s[0]) {
      InsertMembers(o, x, s[1..], y);
      assert s == [s[0]] + s[1..];
    }
  }

  lemma {:induction false} InsertSorted(o: Order, x: Appointment, s: seq<Appointment>)
    requires Sorted(o, s)
    ensures Sorted(o, Insert(o, x, s))
  {
    if |s| > 0 {
      var r := Insert(o, x, s);
      if Le(o, x, s[0]) {
        forall j | 1 <= j < |r|
          ensures Le(o, r[0], r[j])
        {
          if j > 1 {
            LeTransitive(o, x, s[0], s[j - 1]);
          }
        }
      } else {
        LeTotal(o, x, s[0]);
        InsertSorted(o, x, s[1..]);
        var t := Insert(o, x, s[1..]);
        assert r == [s[0]] + t;
        forall j | 0 <= j < |t|
          ensures Le(o, s[0], t[j])
        {
          InsertMembers(o, x, s[1..], t[j]);
          if t[j] != x {
            HeadPrecedesTail(o, s, t[j]);
          }
        }
      }
    }
  }

  /** The tie class of `[a] + t`: `a` if tied, then the class in `t`. */
  lemma TiedWithCons(o: Order, a: Appointment, t: seq<Appointment>, z: Appointment)
    ensures TiedWith(o, [a] + t, z) == (if Tied(o, z, a) then [a] else []) + TiedWith(o, t, z)
  {
    assert ([a] + t)[1..] == t;
  }

  /** An entry `x` may not precede is never in `x`'s tie class. */
  lemma SkippedNotTied(o: Order, x: Appointment, y: Appointment, z: Appointment)
    requires !Le(o, x, y)
    ensures !(Tied(o, z, x) && Tied(o, z, y))
  {
    if Tied(o, z, x) && Tied(o, z, y) {
      LeTransitive(o, x, z, y);
    }
  }

  lemma SwapHeads<T>(a: seq<T>, b: seq<T>, rest: seq<T>)
    requires a == [] || b == []
    ensures a + (b + rest) == b + (a + rest)
  {
  }

  /** Inserting `x` adds it to its own tie class, in front; other classes are untouched. */
  lemma {:induction false} InsertTiedWith(o: Order, x: Appointment, s: seq<Appointment>, z: Appointment)
    ensures TiedWith(o, Insert(o, x, s), z) ==
      (if Tied(o, z, x) then [x] else []) + TiedWith(o, s, z)
  {
    if |s| == 0 {
    } else if Le(o, x, s[0]) {
      TiedWithCons(o, x, s, z);
    } else {
      var t := Insert(o, x, s[1..]);
      var bx, b0 := Tied(o, z, x), Tied(o, z, s[0]);
      SkippedNotTied(o, x, s[0], z);
      var hx: seq<Appointment> := if bx then [x] else [];
      var h0: seq<Appointment> := if b0 then [s[0]] else [];
      var rest := TiedWith(o, s[1..], z);
      InsertTiedWith(o, x, s[1..], z);
      assert Insert(o, x, s) == [s[0]] + t;
      TiedWithCons(o, s[0], t, z);
      assert s == [s[0]] + s[1..];
      TiedWithCons(o, s[0], s[1..], z);
      SwapHeads(hx, h0, rest);
    }
  }

  lemma {:induction false} SortSorted(o: Order, s: seq<Appointment>)
    ensures Sorted(o, Sort(o, s))
  {
    if |s| > 0 {
      SortSorted(o, s[1..]);
      InsertSorted(o, s[0], Sort(o, s[1..]));
    }
  }

  /** The sort is stable: every tie class appears in the result in its input order. */
  lemma {:induction false} SortStable(o: Order, s: seq<Appointment>, z: Appointment)
    ensures TiedWith(o, Sort(o, s), z) == TiedWith(o, s, z)
  {
    if |s| > 0 {
      SortStable(o, s[1..], z);
      InsertTiedWith(o, s[0], Sort(o, s[1..]), z);
    }
  }

  /** `apts.filter(apt => statuses has apt.status)`. */
  function Keep(apts: seq<Appointment>, statuses: set<Status>): (r: seq<Appointment>)
    ensures |r| <= |apts|
    ensures forall x :: x in r <==> x in apts && x.status in statuses
  {
    if |apts| == 0 then []
    else
      assert apts == [apts[0]] + apts[1..];
      (if apts[0].status in statuses then [apts[0]] else []) + Keep(apts[1..], statuses)
  }

  const UpcomingStatuses: set<Status> := {Scheduled, Cancelled}
  const PastStatuses: set<Status> := {Completed, Cancelled}

  /** "Mis Citas": scheduled and cancelled appointments, scheduled first, each group soonest first. */
  function UpcomingAppointments(apts: seq<Appointment>): (r: seq<Appointment>)
    ensures multiset(r) == multiset(Keep(apts, UpcomingStatuses))
    ensures forall x :: x in r <==> x in apts && (x.status == Scheduled || x.status == Cancelled)
    ensures Sorted(Upcoming, r)
    ensures forall z :: TiedWith(Upcoming, r, z) == TiedWith(Upcoming, Keep(apts, UpcomingStatuses), z)
  {
    var kept := Keep(apts, UpcomingStatuses);
    var r := Sort(Upcoming, kept);
    SortSorted(Upcoming, kept);
    forall z
      ensures TiedWith(Upcoming, r, z) == TiedWith(Upcoming, kept, z)
    {
      SortStable(Upcoming, kept, z);
    }
    assert forall x :: x in r <==> x in multiset(kept);
    r
  }

  /** "Historial": completed and cancelled appointments, latest date first. */
  function PastAppointments(apts: seq<Appointment>): (r: seq<Appointment>)
    ensures multiset(r) == multiset(Keep(apts, PastStatuses))
    ensures forall x :: x in r <==> x in apts && (x.status == Completed || x.status == Cancelled)
    ensures Sorted(History, r)
    ensures forall z :: TiedWith(History, r, z) == TiedWith(History, Keep(apts, PastStatuses), z)
  {
    var kept := Keep(apts, PastStatuses);
    var r := Sort(History, kept);
    SortSorted(History, kept);
    forall z
      ensures TiedWith(History, r, z) == TiedWith(History, kept, z)
    {
      SortStable(History, kept, z);
    }
    assert forall x :: x in r <==> x in multiset(kept);
    r
  }

  /** On "Mis Citas" no cancelled appointment comes before a scheduled one, and within a group dates ascend. */
  lemma UpcomingScheduledFirst(apts: seq<Appointment>, i: int, j: int)
    requires 0 <= i < j < |UpcomingAppointments(apts)|
    ensures var r := UpcomingAppointments(apts);
      && !(r[i].status == Cancelled && r[j].status == Scheduled)
      && (r[i].status == r[j].status ==> LexLe(r[i].date, r[j].date))
  {
    var r := UpcomingAppointments(apts);
    assert Le(Upcoming, r[i], r[j]);
    assert r[i] in r && r[j] in r;
  }

  /** On "Historial" dates never ascend. */
  lemma PastLatestFirst(apts: seq<Appointment>, i: int, j: int)
    requires 0 <= i < j < |PastAppointments(apts)|
    ensures LexLe(PastAppointments(apts)[j].date, PastAppointments(apts)[i].date)
  {
    assert Le(History, PastAppointments(apts)[i], PastAppointments(apts)[j]);
  }

  /** A cancelled appointment is listed on both pages. */
  lemma CancelledOnBothPages(apts: seq<Appointment>, a: Appointment)
    requires a in apts && a.status == Cancelled
    ensures a in UpcomingAppointments(apts) && a in PastAppointments(apts)
  {
  }

  /** "Sin citas programadas" shows exactly when no appointment is scheduled or cancelled. */
  lemma UpcomingEmptyState(apts: seq<Appointment>)
    ensures |UpcomingAppointments(apts)| == 0 <==>
      forall i :: 0 <= i < |apts| ==> apts[i].status == Completed
  {
    var r := UpcomingAppointments(apts);
    if |r| > 0 {
      assert r[0] in r;
    }
    if exists i :: 0 <= i < |apts| && apts[i].status != Completed {
      var i :| 0 <= i < |apts| && apts[i].status != Completed;
      assert apts[i] in r;
    }
  }

  /** "Sin historial" shows exactly when every appointment is still scheduled. */
  lemma PastEmptyState(apts: seq<Appointment>)
    ensures |PastAppointments(apts)| == 0 <==>
      forall i :: 0 <= i < |apts| ==> apts[i].status == Scheduled
  {
    var r := PastAppointments(apts);
    if |r| > 0 {
      assert r[0] in r;
    }
    if exists i :: 0 <= i < |apts| && apts[i].status != Scheduled {
      var i :| 0 <= i < |apts| && apts[i].status != Scheduled;
      assert apts[i] in r;
    }
  }

  /** The home page: the first two scheduled appointments in booking order (no sorting by date). */
  function HomeUpcoming(apts: seq<Appointment>): (r: seq<Appointment>)
    ensures |r| <= 2
    ensures r <= Keep(apts, {Scheduled})
    ensures forall a :: a in r ==> a in apts && a.status == Scheduled
    ensures |r| == if |Keep(apts, {Scheduled})| < 2 then |Keep(apts, {Scheduled})| else 2
  {
    Take(Keep(apts, {Scheduled}), 2)
  }

  lemma {:induction false} KeepAppend(a: seq<Appointment>, b: seq<Appointment>, statuses: set<Status>)
    ensures Keep(a + b, statuses) == Keep(a, statuses) + Keep(b, statuses)
  {
    if |a| > 0 {
      var h := if a[0].status in statuses then [a[0]] else [];
      var ka, kb := Keep(a[1..], statuses), Keep(b, statuses);
      assert (a + b)[0] == a[0];
      assert (a + b)[1..] == a[1..] + b;
      KeepAppend(a[1..], b, statuses);
      assert Keep(a + b, statuses) == h + (ka + kb);
      assert h + (ka + kb) == (h + ka) + kb;
    } else {
      assert a + b == b;
    }
  }

  /** Once two appointments are scheduled, booking more leaves the home page list as it is. */
  lemma HomeUpcomingStableUnderAppend(apts: seq<Appointment>, more: seq<Appointment>)
    requires |Keep(apts, {Scheduled})| >= 2
    ensures HomeUpcoming(apts + more) == HomeUpcoming(apts)
  {
    KeepAppend(apts, more, {Scheduled});
    var k := Keep(apts, {Scheduled});
    assert (k + Keep(more, {Scheduled}))[..2] == k[..2];
  }

  /** The "Próximas Citas" section shows exactly when some appointment is scheduled. */
  lemma HomeSectionShown(apts: seq<Appointment>)
    ensures |HomeUpcoming(apts)| > 0 <==> exists i :: 0 <= i < |apts| && apts[i].status == Scheduled
  {
    var k := Keep(apts, {Scheduled});
    if |k| > 0 {
      assert k[0] in k;
    }
    if exists i :: 0 <= i < |apts| && apts[i].status == Scheduled {
      var i :| 0 <= i < |apts| && apts[i].status == Scheduled;
      assert apts[i] in k;
    }
  }

  /** `specialties.slice(0, 4)`. */
  function PopularSpecialties(): (r: seq<Specialty>)
    ensures |r| == 4 && r <= Specialties
    ensures r[0].name == GeneralMedicine && r[1].name == "Pediatría"
    ensures r[2].name == "Cardiología" && r[3].name == "Dermatología"
  {
    Take(Specialties, 4)
  }

  /** `user?.firstName || 'Usuario'`. */
  function GreetingName(user: Option<User>): (name: string)
    ensures name != ""
    ensures user.Some? && user.value.firstName != "" ==> name == user.value.firstName
    ensures user.None? || user.value.firstName == "" ==> name == "Usuario"
  {
    if user.Some? && user.value.firstName != "" then user.value.firstName else "Usuario"
  }
}

=== FILE: appointment_view.dfy ===
/**
 * How one appointment is shown: the status badge shared by the card and the
 * detail page, the card's cancel button, the detail page's sections and the
 * cancel action both the list and the detail page offer.
 */
module AppointmentView {
  import opened Wrappers
  import opened Types
  import opened AppContext

  /** The badge text of a status. */
  function StatusLabel(st: Status): (l: string)
    ensures l != ""
  {
    match st
    case Scheduled => "Programada"
    case Completed => "Completada"
    case Cancelled => "Cancelada"
  }

  /** Reading a badge back: the partner of `StatusLabel`. */
  function StatusOfLabel(l: string): (r: Option<Status>)
    ensures r.Some? ==> StatusLabel(r.value) == l
  {
    if l == "Programada" then Some(Scheduled)
    else if l == "Completada" then Some(Completed)
    else if l == "Cancelada" then Some(Cancelled)
    else None
  }

  /** Every status has its own badge: the label determines the status. */
  lemma StatusLabelInjective(a: Status, b: Status)
    ensures StatusOfLabel(StatusLabel(a)) == Some(a)
    ensures StatusLabel(a) == StatusLabel(b) <==> a == b
  {
    assert StatusOfLabel(StatusLabel(b)) == Some(b);
  }

  /** The badge colour classes of a status. */
  function StatusColor(st: Status): (c: string)
    ensures c != ""
  {
    match st
    case Scheduled => "bg-primary/10 text-primary"
    case Completed => "bg-success/10 text-success"
    case Cancelled => "bg-destructive/10 text-destructive"
  }

  /** Different statuses get different colours. */
  lemma StatusColorInjective(a: Status, b: Status)
    ensures StatusColor(a) == StatusColor(b) <==> a == b
  {
    if a != b {
      assert StatusColor(a)[3] != StatusColor(b)[3] || StatusColor(a)[4] != StatusColor(b)[4];
    }
  }

  // ---------------------------------------------------------------- card

  /** The card's props: the optional handlers are present or not, `showCancelButton` may be left out. */
  datatype CardProps = CardProps(
    appointment: Appointment,
    hasOnClick: bool,
    hasOnCancel: bool,
    showCancelButton: Option<bool>)

  /** `showCancelButton = false` when the prop is left out. */
  function ShowCancelButton(p: CardProps): (b: bool)
    ensures p.showCancelButton.None? ==> !b
    ensures p.showCancelButton.Some? ==> b == p.showCancelButton.value
  {
    p.showCancelButton.GetOr(false)
  }

  /** The card's cancel button renders only when asked for, for a scheduled appointment with a handler. */
  predicate CardCancelShown(p: CardProps) {
    ShowCancelButton(p) && p.appointment.status == Scheduled && p.hasOnCancel
  }

  /** Cards rendered without the prop, as every page renders them, never show the button. */
  lemma CardCancelNeedsOptIn(p: CardProps)
    ensures CardCancelShown(p) <==>
      p.showCancelButton == Some(true) && p.appointment.status == Scheduled && p.hasOnCancel
  {
  }

  // ---------------------------------------------------------------- cancel action

  /**
   * The cancel action of the list page and the detail page: offered only for a
   * scheduled appointment, and it cancels that appointment's own id.
   */
  function CancelTarget(a: Appointment): (id: Option<string>)
    ensures id.Some? <==> a.status == Scheduled
    ensures id.Some? ==> id.value == a.id
  {
    if a.status == Scheduled then Some(a.id) else None
  }

  /**
   * With unique ids, following a card's cancel action changes that appointment
   * alone, and only its status.
   */
  lemma CancelTargetCancelsOnlyIt(s: AppState, k: nat)
    requires UniqueIds(s.appointments) && k < |s.appointments|
    requires CancelTarget(s.appointments[k]).Some?
    ensures var r := CancelAppointment(s, CancelTarget(s.appointments[k]).value).appointments;
      && |r| == |s.appointments|
      && r[k] == s.appointments[k].(status := Cancelled)
      && forall i :: 0 <= i < |r| && i != k ==> r[i] == s.appointments[i]
  {
  }

  // ---------------------------------------------------------------- detail page

  /** `appointments.find(a => a.id === id)`. */
  function FindAppointment(apts: seq<Appointment>, id: string): (r: Option<nat>)
    ensures r.None? <==> !HasId(apts, id)
    ensures r.Some? ==> r.value < |apts| && apts[r.value].id == id
    ensures r.Some? ==> forall k :: 0 <= k < r.value ==> apts[k].id != id
  {
    if |apts| == 0 then None
    else if apts[0].id == id then Some(0)
    else
      assert HasId(apts, id) <==> HasId(apts[1..], id) by {
        if HasId(apts, id) {
          var i :| 0 <= i < |apts| && apts[i].id == id;
          assert apts[1..][i - 1].id == id;
        }
        if HasId(apts[1..], id) {
          var i :| 0 <= i < |apts[1..]| && apts[1..][i].id == id;
          assert apts[i + 1].id == id;
        }
      }
      match FindAppointment(apts[1..], id)
      case None => None
      case Some(k) => Some(k + 1)
  }

  /** `value && <section>`: an optional text shows when present and non-empty. */
  function Shown(v: Option<string>): (r: Option<string>)
    ensures r.Some? <==> v.Some? && v.value != ""
    ensures r.Some? ==> r == v
  {
    if v.Some? && v.value != "" then v else None
  }

  /** What the detail page renders. */
  datatype DetailView =
    | NotFound
    | Detail(
        badge: string,
        color: string,
        symptoms: Option<string>,
        diagnosis: Option<string>,
        prescription: Option<string>,
        notes: Option<string>,
        downloads: bool,
        cancel: Option<string>)

  /**
   * `v` shows `a`: its badge, the symptoms when present, the medical sections (each
   * when present) and the download buttons for a completed appointment only, and
   * the cancel action for a scheduled one.
   */
  ghost predicate Renders(v: DetailView, a: Appointment)
    requires v.Detail?
  {
    && v.badge == StatusLabel(a.status) && v.color == StatusColor(a.status)
    && v.symptoms == Shown(a.symptoms)
    && (v.diagnosis.Some? <==> a.status == Completed && a.diagnosis.Some? && a.diagnosis.value != "")
    && (v.prescription.Some? <==> a.status == Completed && a.prescription.Some? && a.prescription.value != "")
    && (v.notes.Some? <==> a.status == Completed && a.notes.Some? && a.notes.value != "")
    && (v.diagnosis.Some? ==> v.diagnosis == a.diagnosis)
    && (v.prescription.Some? ==> v.prescription == a.prescription)
    && (v.notes.Some? ==> v.notes == a.notes)
    && (v.downloads <==> a.status == Completed)
    && v.cancel == CancelTarget(a)
  }

  /** The detail page for `id`: "Cita no encontrada" when no appointment has it, else the first one with it. */
  function DetailPage(apts: seq<Appointment>, id: string): (v: DetailView)
    ensures v.NotFound? <==> !HasId(apts, id)
    ensures v.Detail? ==>
      exists k :: 0 <= k < |apts| && apts[k].id == id && Renders(v, apts[k]) &&
        forall j :: 0 <= j < k ==> apts[j].id != id
  {
    match FindAppointment(apts, id)
    case None => NotFound
    case Some(k) =>
      var a := apts[k];
      var completed := a.status == Completed;
      Detail(StatusLabel(a.status), StatusColor(a.status), Shown(a.symptoms),
        if completed then Shown(a.diagnosis) else None,
        if completed then Shown(a.prescription) else None,
        if completed then Shown(a.notes) else None,
        completed, CancelTarget(a))
  }

  /** The medical sections and the cancel action never show together: one needs completed, the other scheduled. */
  lemma DetailSectionsExclusive(apts: seq<Appointment>, id: string)
    requires DetailPage(apts, id).Detail?
    ensures var v := DetailPage(apts, id);
      v.cancel.Some? ==> v.diagnosis.None? && v.prescription.None? && v.notes.None? && !v.downloads
  {
  }

  /** The detail page's cancel action, after which the page goes to the list of appointments. */
  function DetailCancel(s: AppState, id: string): (r: Option<(AppState, string)>)
    ensures r.Some? <==> DetailPage(s.appointments, id).Detail? && DetailPage(s.appointments, id).cancel.Some?
    ensures r.Some? ==> r.value.1 == "/appointments" && r.value.0 == CancelAppointment(s, id)
  {
    match DetailPage(s.appointments, id)
    case NotFound => None
    case Detail(_, _, _, _, _, _, _, cancel) =>
      if cancel.Some? then Some((CancelAppointment(s, cancel.value), "/appointments")) else None
  }
}

=== FILE: auth_pages.dfy ===
/**
 * The sign-in and sign-up pages: the form state, the ordered checks each submit
 * runs before it calls the session context, and where a successful submit goes.
 */
module AuthPages {
  import opened Wrappers
  import opened Text
  import opened Types
  import opened AppContext

  /** What a submit leaves behind: the session, the message under the form, and the route navigated to, if any. */
  datatype Submitted = Submitted(state: AppState, error: string, next: Option<string>)

  const HomeRoute := "/home"

  // ---------------------------------------------------------------- sign-in

  /** The sign-in page: the two inputs and the message under the form. */
  datatype LoginForm = LoginForm(email: string, password: string, error: string)

  const LoginMissingError := "Por favor completa todos los campos"
  const LoginFailedError := "Credenciales inválidas"

  /**
   * `handleSubmit` of the sign-in page: the message is cleared first; an empty field
   * gives the missing-fields message without calling `login`; otherwise `login`
   * decides between the home page and the invalid-credentials message.
   */
  function SubmitLogin(s: AppState, f: LoginForm): (r: Submitted)
    ensures f.email == "" || f.password == "" ==> r == Submitted(s, LoginMissingError, None)
    ensures f.email != "" && f.password != "" ==>
      var o := Login(s, f.email, f.password);
      r.state == o.state && (o.ok ==> r.error == "" && r.next == Some(HomeRoute))
      && (!o.ok ==> r.error == LoginFailedError && r.next.None?)
  {
    if f.email == "" || f.password == "" then
      Submitted(s, LoginMissingError, None)
    else
      var o := Login(s, f.email, f.password);
      if o.ok then Submitted(o.state, "", Some(HomeRoute))
      else Submitted(o.state, LoginFailedError, None)
  }

  /**
   * The invalid-credentials branch is dead: the submit handler only calls `login`
   * with two non-empty fields, and those always sign in. The handler signs in
   * exactly when both fields are filled.
   */
  lemma LoginNeverRejectsCredentials(s: AppState, f: LoginForm)
    ensures SubmitLogin(s, f).error != LoginFailedError
    ensures SubmitLogin(s, f).next == Some(HomeRoute) <==> f.email != "" && f.password != ""
    ensures SubmitLogin(s, f).next.Some? ==> SubmitLogin(s, f).state.user == Some(DemoUser(f.email))
  {
  }

  /** The message shown before a submit has no bearing on its outcome: it is cleared first. */
  lemma LoginErrorClearedOnSubmit(s: AppState, f: LoginForm, previous: string)
    ensures SubmitLogin(s, f.(error := previous)) == SubmitLogin(s, f)
  {
  }

  // ---------------------------------------------------------------- sign-up

  /** The sign-up page's inputs, each addressed by its `name` attribute. */
  datatype Field = FirstName | LastName | Email | Dni | BirthDate | Phone | Password | ConfirmPassword

  datatype RegisterForm = RegisterForm(
    firstName: string,
    lastName: string,
    email: string,
    dni: string,
    birthDate: string,
    phone: string,
    password: string,
    confirmPassword: string)

  const EmptyRegisterForm := RegisterForm("", "", "", "", "", "", "", "")

  function Get(f: RegisterForm, x: Field): string {
    match x
    case FirstName => f.firstName
    case LastName => f.lastName
    case Email => f.email
    case Dni => f.dni
    case BirthDate => f.birthDate
    case Phone => f.phone
    case Password => f.password
    case ConfirmPassword => f.confirmPassword
  }

  /** `handleChange`: `{ ...prev, [name]: value }`. */
  function HandleChange(f: RegisterForm, x: Field, v: string): (r: RegisterForm)
    ensures Get(r, x) == v
    ensures forall y :: y != x ==> Get(r, y) == Get(f, y)
  {
    match x
    case FirstName => f.(firstName := v)
    case LastName => f.(lastName := v)
    case Email => f.(email := v)
    case Dni => f.(dni := v)
    case BirthDate => f.(birthDate := v)
    case Phone => f.(phone := v)
    case Password => f.(password := v)
    case ConfirmPassword => f.(confirmPassword := v)
  }

  /** Two forms that agree on every field are the same form. */
  lemma FormsEqualByFields(f: RegisterForm, g: RegisterForm)
    requires forall x :: Get(f, x) == Get(g, x)
    ensures f == g
  {
    assert Get(f, FirstName) == Get(g, FirstName) && Get(f, LastName) == Get(g, LastName);
    assert Get(f, Email) == Get(g, Email) && Get(f, Dni) == Get(g, Dni);
    assert Get(f, BirthDate) == Get(g, BirthDate) && Get(f, Phone) == Get(g, Phone);
    assert Get(f, Password) == Get(g, Password) && Get(f, ConfirmPassword) == Get(g, ConfirmPassword);
  }

  /** Edits of two different inputs commute; a second edit of the same input wins. */
  lemma HandleChangeCommutes(f: RegisterForm, x: Field, v: string, y: Field, w: string)
    ensures x != y ==> HandleChange(HandleChange(f, x, v), y, w) == HandleChange(HandleChange(f, y, w), x, v)
    ensures HandleChange(HandleChange(f, x, v), x, w) == HandleChange(f, x, w)
  {
    if x != y {
      FormsEqualByFields(HandleChange(HandleChange(f, x, v), y, w), HandleChange(HandleChange(f, y, w), x, v));
    }
    FormsEqualByFields(HandleChange(HandleChange(f, x, v), x, w), HandleChange(f, x, w));
  }

  /** The form data handed to `register`: the six profile fields, no id, no avatar. */
  function ProfileData(f: RegisterForm): (p: PartialUser)
    ensures p.id.None? && p.avatarUrl.None?
    ensures p.email == Some(f.email) && p.firstName == Some(f.firstName) && p.lastName == Some(f.lastName)
    ensures p.dni == Some(f.dni) && p.birthDate == Some(f.birthDate) && p.phone == Some(f.phone)
  {
    PartialUser(None, Some(f.email), Some(f.firstName), Some(f.lastName),
      Some(f.dni), Some(f.birthDate), Some(f.phone), None)
  }

  const RequiredFieldsError := "Por favor completa los campos obligatorios"
  const MismatchError := "Las contraseñas no coinciden"
  const ShortPasswordError := "La contraseña debe tener al menos 6 caracteres"
  const RegisterFailedError := "Error al registrar. Intenta de nuevo."

  /**
   * `handleSubmit` of the sign-up page, checks in order: the four required fields,
   * the confirmation, a password of at least 6 UTF-16 units; then `register`.
   */
  function SubmitRegister(s: AppState, f: RegisterForm): (r: Submitted)
    ensures f.email == "" || f.password == "" || f.firstName == "" || f.lastName == "" ==>
      r == Submitted(s, RequiredFieldsError, None)
    ensures f.email != "" && f.password != "" && f.firstName != "" && f.lastName != "" ==>
      && (f.password != f.confirmPassword ==> r == Submitted(s, MismatchError, None))
      && (f.password == f.confirmPassword && Utf16Length(f.password) < 6 ==>
          r == Submitted(s, ShortPasswordError, None))
    ensures r.next.Some? ==> r.state == Register(s, ProfileData(f), f.password).state
  {
    if f.email == "" || f.password == "" || f.firstName == "" || f.lastName == "" then
      Submitted(s, RequiredFieldsError, None)
    else if f.password != f.confirmPassword then
      Submitted(s, MismatchError, None)
    else if Utf16Length(f.password) < 6 then
      Submitted(s, ShortPasswordError, None)
    else
      var o := Register(s, ProfileData(f), f.password);
      if o.ok then Submitted(o.state, "", Some(HomeRoute))
      else Submitted(o.state, RegisterFailedError, None)
  }

  /**
   * `register` runs exactly when all three checks pass, and then it always succeeds:
   * the e-mail and password it needs are already known to be non-empty. The new
   * user holds the form's fields.
   */
  lemma RegisterSucceedsIffChecksPass(s: AppState, f: RegisterForm)
    ensures SubmitRegister(s, f).error != RegisterFailedError
    ensures SubmitRegister(s, f).next.Some? <==>
      f.email != "" && f.password != "" && f.firstName != "" && f.lastName != "" &&
      f.password == f.confirmPassword && Utf16Length(f.password) >= 6
    ensures SubmitRegister(s, f).next.Some? ==>
      var u := SubmitRegister(s, f).state.user;
      u.Some? && u.value.email == f.email && u.value.firstName == f.firstName &&
      u.value.lastName == f.lastName && u.value.dni == f.dni &&
      u.value.birthDate == f.birthDate && u.value.phone == f.phone
    ensures SubmitRegister(s, f).next.None? ==> SubmitRegister(s, f).state == s
  {
  }
}

=== FILE: mock_data.dfy ===
/**
 * The app's reference data: the specialty table, the doctor table, the generated
 * time slots, the seed appointments and the ordered symptom dictionary.
 *
 * What the original computes from the clock or from a random source is a
 * parameter here: the 14 day strings of the booking window, the availability
 * coin of every slot, and the dates of the seed appointments.
 */
module MockData {
  import opened Wrappers
  import opened Text
  import opened Types

  const Specialties: seq<Specialty> := [
    Specialty("1", "Medicina General", "🩺", "Atención primaria y consultas generales"),
    Specialty("2", "Pediatría", "👶", "Salud infantil y adolescente"),
    Specialty("3", "Cardiología", "❤️", "Corazón y sistema cardiovascular"),
    Specialty("4", "Dermatología", "🧴", "Piel, cabello y uñas"),
    Specialty("5", "Ginecología", "👩", "Salud femenina"),
    Specialty("6", "Traumatología", "🦴", "Huesos, músculos y articulaciones"),
    Specialty("7", "Neurología", "🧠", "Sistema nervioso"),
    Specialty("8", "Oftalmología", "👁️", "Salud visual"),
    Specialty("9", "Psicología", "🧘", "Salud mental y bienestar emocional"),
    Specialty("10", "Nutrición", "🥗", "Alimentación y dietas")
  ]

  /** The name every fallback in the app points at: the first specialty of the table. */
  const GeneralMedicine: string := "Medicina General"

  /** The specialty ids, pairwise distinct, and so are the names, none of them empty. */
  lemma SpecialtyKeysDistinct()
    ensures forall i, j :: 0 <= i < j < |Specialties| ==> Specialties[i].id != Specialties[j].id
    ensures forall i, j :: 0 <= i < j < |Specialties| ==> Specialties[i].name != Specialties[j].name
    ensures forall i :: 0 <= i < |Specialties| ==> Specialties[i].name != ""
    ensures Specialties[0].id == "1" && Specialties[0].name == GeneralMedicine
  {
  }

  /** `specialties.find(s => s.id === id)`: the first specialty with that id, if any. */
  function FindSpecialtyById(table: seq<Specialty>, id: string): (r: Option<nat>)
    ensures r.Some? ==> r.value < |table| && table[r.value].id == id
    ensures r.Some? ==> forall k :: 0 <= k < r.value ==> table[k].id != id
    ensures r.None? ==> forall k :: 0 <= k < |table| ==> table[k].id != id
  {
    if |table| == 0 then None
    else if table[0].id == id then Some(0)
    else match FindSpecialtyById(table[1..], id)
      case None => None
      case Some(k) => Some(k + 1)
  }

  const WindowDays: nat := 14
  const SlotsPerDay: nat := 12

  /** The fixed consultation times of every day, in the order slots are generated. */
  const Times: seq<string> := [
    "09:00", "09:30", "10:00", "10:30", "11:00", "11:30",
    "14:00", "14:30", "15:00", "15:30", "16:00", "16:30"
  ]

  /** The times are five characters long and strictly ascending, hence distinct. */
  lemma TimesShape()
    ensures |Times| == SlotsPerDay
    ensures forall t :: 0 <= t < |Times| ==> |Times[t]| == 5
    ensures forall t :: 0 <= t < |Times| - 1 ==> LexLt(Times[t], Times[t + 1])
    ensures forall t, u :: 0 <= t < u < |Times| ==> Times[t] != Times[u]
  {
  }

  /** The slot the original builds for one day and one time; its id is `date + "-" + time`. */
  function MakeSlot(day: string, t: nat, available: bool): TimeSlot
    requires t < |Times|
  {
    TimeSlot(day + "-" + Times[t], day, Times[t], available)
  }

  /** The inner `times.forEach` of `generateTimeSlots`: the twelve slots of one day. */
  function DaySlots(day: string, coin: seq<bool>): seq<TimeSlot>
    requires |coin| == SlotsPerDay
  {
    seq(SlotsPerDay, t requires 0 <= t < SlotsPerDay => MakeSlot(day, t, coin[t]))
  }

  /** The outer loop of `generateTimeSlots`: the slots of every day in turn. */
  function SlotsFor(days: seq<string>, coin: seq<bool>): (slots: seq<TimeSlot>)
    requires |coin| == |days| * SlotsPerDay
    ensures |slots| == |days| * SlotsPerDay
  {
    if |days| == 0 then []
    else DaySlots(days[0], coin[..SlotsPerDay]) + SlotsFor(days[1..], coin[SlotsPerDay..])
  }

  /** Slot `k` belongs to day `k / 12` and time `k % 12`, and takes coin `k`. */
  lemma {:induction false} SlotsForIndex(days: seq<string>, coin: seq<bool>, k: nat)
    requires |coin| == |days| * SlotsPerDay && k < |days| * SlotsPerDay
    ensures SlotsFor(days, coin)[k] == MakeSlot(days[k / SlotsPerDay], k % SlotsPerDay, coin[k])
  {
    if k >= SlotsPerDay {
      SlotsForIndex(days[1..], coin[SlotsPerDay..], k - SlotsPerDay);
      assert (k - SlotsPerDay) / SlotsPerDay + 1 == k / SlotsPerDay;
      assert (k - SlotsPerDay) % SlotsPerDay == k % SlotsPerDay;
    }
  }

  lemma SlotsForAll(days: seq<string>, coin: seq<bool>)
    requires |coin| == |days| * SlotsPerDay
    ensures forall k :: 0 <= k < |days| * SlotsPerDay ==>
      SlotsFor(days, coin)[k] == MakeSlot(days[k / SlotsPerDay], k % SlotsPerDay, coin[k])
  {
    forall k | 0 <= k < |days| * SlotsPerDay
      ensures SlotsFor(days, coin)[k] == MakeSlot(days[k / SlotsPerDay], k % SlotsPerDay, coin[k])
    {
      SlotsForIndex(days, coin, k);
    }
  }

  /**
   * `generateTimeSlots`: the 14 days after today, twelve slots a day in the
   * order of `Times`, availability as given by `coin`.
   */
  function GenerateTimeSlots(days: seq<string>, coin: seq<bool>): (slots: seq<TimeSlot>)
    requires |days| == WindowDays && |coin| == WindowDays * SlotsPerDay
    ensures |slots| == 168
    ensures forall k :: 0 <= k < |slots| ==>
      slots[k] == MakeSlot(days[k / SlotsPerDay], k % SlotsPerDay, coin[k])
  {
    SlotsForAll(days, coin);
    SlotsFor(days, coin)
  }

  lemma SlotIdDeterminesTime(d1: string, d2: string, t1: nat, t2: nat)
    requires t1 < |Times| && t2 < |Times|
    requires d1 + "-" + Times[t1] == d2 + "-" + Times[t2]
    ensures t1 == t2 && d1 == d2
  {
    TimesShape();
    var id := d1 + "-" + Times[t1];
    assert id[|id| - 5..] == Times[t1];
    assert (d2 + "-" + Times[t2])[|id| - 5..] == Times[t2];
    assert id[..|id| - 6] == d1;
    assert (d2 + "-" + Times[t2])[..|id| - 6] == d2;
  }

  /** Slot ids are unique whenever the 14 day strings are. */
  lemma SlotIdsUnique(days: seq<string>, coin: seq<bool>)
    requires |days| == WindowDays && |coin| == WindowDays * SlotsPerDay
    requires forall i, j :: 0 <= i < j < |days| ==> days[i] != days[j]
    ensures forall i, j :: 0 <= i < j < 168 ==>
      GenerateTimeSlots(days, coin)[i].id != GenerateTimeSlots(days, coin)[j].id
  {
    var slots := GenerateTimeSlots(days, coin);
    forall i, j | 0 <= i < j < 168
      ensures slots[i].id != slots[j].id
    {
      if slots[i].id == slots[j].id {
        SlotIdDeterminesTime(days[i / SlotsPerDay], days[j / SlotsPerDay], i % SlotsPerDay, j % SlotsPerDay);
      }
    }
  }

  /** Within one day the generated slots follow strictly ascending times. */
  lemma SlotTimesAscendWithinDay(days: seq<string>, coin: seq<bool>)
    requires |days| == WindowDays && |coin| == WindowDays * SlotsPerDay
    ensures forall k :: 0 <= k < 167 && k % SlotsPerDay != SlotsPerDay - 1 ==>
      && GenerateTimeSlots(days, coin)[k].date == GenerateTimeSlots(days, coin)[k + 1].date
      && LexLt(GenerateTimeSlots(days, coin)[k].time, GenerateTimeSlots(days, coin)[k + 1].time)
  {
    TimesShape();
    var slots := GenerateTimeSlots(days, coin);
    forall k | 0 <= k < 167 && k % SlotsPerDay != SlotsPerDay - 1
      ensures slots[k].date == slots[k + 1].date && LexLt(slots[k].time, slots[k + 1].time)
    {
      assert (k + 1) / SlotsPerDay == k / SlotsPerDay && (k + 1) % SlotsPerDay == k % SlotsPerDay + 1;
    }
  }

  /** The doctor table without its generated slots. */
  const DoctorProfiles: seq<Doctor> := [
    Doctor("1", "Dra. María García López", "Medicina General", "1", 15, 50, []),
    Doctor("2", "Dr. Carlos Rodríguez Sánchez", "Cardiología", "3", 20, 80, []),
    Doctor("3", "Dra. Ana Martínez Ruiz", "Pediatría", "2", 12, 60, []),
    Doctor("4", "Dr. Luis Fernández Torres", "Dermatología", "4", 8, 70, []),
    Doctor("5", "Dra. Patricia Gómez Vega", "Ginecología", "5", 18, 75, []),
    Doctor("6", "Dr. Roberto Díaz Mendoza", "Traumatología", "6", 22, 85, []),
    Doctor("7", "Dra. Elena Castro Navarro", "Neurología", "7", 16, 90, []),
    Doctor("8", "Dr. Miguel Herrera Blanco", "Oftalmología", "8", 14, 65, []),
    Doctor("9", "Dra. Laura Jiménez Ortega", "Psicología", "9", 10, 55, []),
    Doctor("10", "Dr. Antonio Morales Prieto", "Nutrición", "10", 7, 45, [])
  ]

  /** The doctor table; `slots[k]` is the generated slot list of the k-th doctor. */
  function Doctors(slots: seq<seq<TimeSlot>>): (docs: seq<Doctor>)
    requires |slots| == |DoctorProfiles|
    ensures |docs| == |DoctorProfiles|
    ensures forall k :: 0 <= k < |docs| ==>
      docs[k] == DoctorProfiles[k].(availableSlots := slots[k])
  {
    seq(|DoctorProfiles|, k requires 0 <= k < |DoctorProfiles| => DoctorProfiles[k].(availableSlots := slots[k]))
  }

  /** `sp` is the specialty `d` belongs to, by id and by name alike. */
  predicate Describes(sp: Specialty, d: Doctor) {
    sp.id == d.specialtyId && sp.name == d.specialty
  }

  /** The specialty of the `k`-th doctor profile: the table lists cardiology second and pediatrics third. */
  function Owner(k: nat): nat {
    if k == 1 then 2 else if k == 2 then 1 else k
  }

  /**
   * Every doctor's specialty name is the name of the specialty its `specialtyId`
   * points at, and the doctors cover the ten specialties one each.
   */
  lemma DoctorSpecialtiesConsistent()
    ensures forall k :: 0 <= k < |DoctorProfiles| ==> Owner(k) < |Specialties| && Owner(Owner(k)) == k
    ensures forall k :: 0 <= k < |DoctorProfiles| ==> Describes(Specialties[Owner(k)], DoctorProfiles[k])
  {
    assert Describes(Specialties[2], DoctorProfiles[1]);
    assert Describes(Specialties[1], DoctorProfiles[2]);
    assert forall k :: 0 <= k < |DoctorProfiles| && k != 1 && k != 2 ==>
      Describes(Specialties[k], DoctorProfiles[k]);
  }

  lemma DoctorIdsDistinct()
    ensures forall i, j :: 0 <= i < j < |DoctorProfiles| ==> DoctorProfiles[i].id != DoctorProfiles[j].id
  {
  }

  /** `doctors.find(d => d.id === id)`: the index of the first doctor with that id, if any. */
  function FindDoctor(docs: seq<Doctor>, id: string): (r: Option<nat>)
    ensures r.Some? ==> r.value < |docs| && docs[r.value].id == id
    ensures r.Some? ==> forall k :: 0 <= k < r.value ==> docs[k].id != id
    ensures r.None? ==> forall k :: 0 <= k < |docs| ==> docs[k].id != id
  {
    if |docs| == 0 then None
    else if docs[0].id == id then Some(0)
    else match FindDoctor(docs[1..], id)
      case None => None
      case Some(k) => Some(k + 1)
  }

  /**
   * `initialAppointments`; `dates` are the four days the original computes from the
   * clock (two and five days ahead, ten and thirty days back).
   */
  function InitialAppointments(slots: seq<seq<TimeSlot>>, dates: seq<string>): (apts: seq<Appointment>)
    requires |slots| == |DoctorProfiles| && |dates| == 4
    ensures |apts| == 4
  {
    var docs := Doctors(slots);
    [
      Appointment("1", docs[0], dates[0], "10:00", Scheduled,
        Some("Dolor de cabeza frecuente"), None, None, None),
      Appointment("2", docs[2], dates[1], "14:30", Scheduled,
        Some("Control pediátrico"), None, None, None),
      Appointment("3", docs[1], dates[2], "09:00", Completed,
        Some("Chequeo cardiovascular"), Some("Presión arterial ligeramente elevada"),
        Some("Losartán 50mg - 1 vez al día"), Some("Control en 3 meses. Reducir consumo de sal.")),
      Appointment("4", docs[3], dates[3], "11:00", Completed,
        Some("Manchas en la piel"), Some("Dermatitis leve"),
        Some("Crema hidratante con urea al 10%"), Some("Evitar exposición solar directa."))
    ]
  }

  /** The seed ids are distinct; two seeds are scheduled, two completed, none cancelled. */
  lemma InitialAppointmentsShape(slots: seq<seq<TimeSlot>>, dates: seq<string>)
    requires |slots| == |DoctorProfiles| && |dates| == 4
    ensures UniqueIds(InitialAppointments(slots, dates))
    ensures forall k :: 0 <= k < 4 ==>
      (InitialAppointments(slots, dates)[k].status == Scheduled <==> k < 2)
    ensures forall k :: 0 <= k < 4 ==>
      (InitialAppointments(slots, dates)[k].status == Completed <==> 2 <= k)
    ensures forall k :: 0 <= k < 4 ==> InitialAppointments(slots, dates)[k].status != Cancelled
  {
  }

  /** One entry of the symptom dictionary: a keyword and the specialties it suggests. */
  datatype Keyword = Keyword(keyword: string, specialties: seq<string>)

  /** `symptomSpecialtyMap`, in declaration order (the order `Object.entries` yields). */
  const SymptomSpecialtyMap: seq<Keyword> := [
    Keyword("dolor de cabeza", ["Medicina General", "Neurología"]),
    Keyword("migraña", ["Neurología", "Medicina General"]),
    Keyword("fiebre", ["Medicina General", "Pediatría"]),
    Keyword("tos", ["Medicina General", "Pediatría"]),
    Keyword("dolor de pecho", ["Cardiología", "Medicina General"]),
    Keyword("palpitaciones", ["Cardiología"]),
    Keyword("manchas en la piel", ["Dermatología"]),
    Keyword("acné", ["Dermatología"]),
    Keyword("dolor de huesos", ["Traumatología"]),
    Keyword("fractura", ["Traumatología"]),
    Keyword("ansiedad", ["Psicología", "Medicina General"]),
    Keyword("depresión", ["Psicología"]),
    Keyword("problemas de visión", ["Oftalmología"]),
    Keyword("ojos rojos", ["Oftalmología"]),
    Keyword("embarazo", ["Ginecología"]),
    Keyword("menstruación", ["Ginecología"]),
    Keyword("nutrición", ["Nutrición"]),
    Keyword("dieta", ["Nutrición"]),
    Keyword("niño", ["Pediatría"]),
    Keyword("bebé", ["Pediatría"])
  ]

  function SpecialtyNames(table: seq<Specialty>): (names: seq<string>)
    ensures |names| == |table|
    ensures forall k :: 0 <= k < |table| ==> names[k] == table[k].name
  {
    seq(|table|, k requires 0 <= k < |table| => table[k].name)
  }

  /** The dictionary keywords (the keys of the original object) are distinct. */
  lemma SymptomKeywordsDistinct()
    ensures forall i, j :: 0 <= i < j < |SymptomSpecialtyMap| ==>
      SymptomSpecialtyMap[i].keyword != SymptomSpecialtyMap[j].keyword
  {
  }

  /** Every keyword is already lower case, so matching it against lower-cased text can succeed. */
  lemma SymptomKeywordsLowerCase()
    ensures forall i :: 0 <= i < |SymptomSpecialtyMap| ==> IsLowerCase(SymptomSpecialtyMap[i].keyword)
  {
    KeywordsLowerCaseA();
    KeywordsLowerCaseB();
    KeywordsLowerCaseC();
    KeywordsLowerCaseD();
  }

  lemma KeywordsLowerCaseA()
    ensures forall i :: 0 <= i < 5 ==> IsLowerCase(SymptomSpecialtyMap[i].keyword)
  {
  }

  lemma KeywordsLowerCaseB()
    ensures forall i :: 5 <= i < 10 ==> IsLowerCase(SymptomSpecialtyMap[i].keyword)
  {
  }

  lemma KeywordsLowerCaseC()
    ensures forall i :: 10 <= i < 15 ==> IsLowerCase(SymptomSpecialtyMap[i].keyword)
  {
  }

  lemma KeywordsLowerCaseD()
    ensures forall i :: 15 <= i < 20 ==> IsLowerCase(SymptomSpecialtyMap[i].keyword)
  {
  }

  /** Every keyword suggests at least one specialty. */
  lemma SymptomSuggestionsNonEmpty()
    ensures forall i :: 0 <= i < |SymptomSpecialtyMap| ==> |SymptomSpecialtyMap[i].specialties| > 0
  {
  }

  /** Every specialty the dictionary suggests is a name of the specialty table. */
  lemma SymptomSuggestionsInTable()
    ensures forall i, n :: 0 <= i < |SymptomSpecialtyMap| && n in SymptomSpecialtyMap[i].specialties ==>
      n in SpecialtyNames(Specialties)
  {
    assert SpecialtyNames(Specialties) == [
      "Medicina General", "Pediatría", "Cardiología", "Dermatología", "Ginecología",
      "Traumatología", "Neurología", "Oftalmología", "Psicología", "Nutrición"];
  }
}

=== FILE: navigation.dfy ===
/**
 * The two navigation bars: the same five destinations (the top bar on wide
 * screens, the bottom bar on narrow ones), which item is highlighted for the
 * current route, and the sign-out the top bar shares with the profile page.
 */
module Navigation {
  import opened Types
  import opened AppContext

  datatype NavItem = NavItem(path: string, caption: string)

  const TopNavItems: seq<NavItem> := [
    NavItem("/home", "Inicio"),
    NavItem("/ai-assistant", "Asistente IA"),
    NavItem("/appointments", "Mis Citas"),
    NavItem("/history", "Historial"),
    NavItem("/profile", "Perfil")
  ]

  const BottomNavItems: seq<NavItem> := [
    NavItem("/home", "Inicio"),
    NavItem("/ai-assistant", "IA"),
    NavItem("/appointments", "Citas"),
    NavItem("/history", "Historial"),
    NavItem("/profile", "Perfil")
  ]

  /** `pathname === path || pathname.startsWith(path + '/')`. */
  predicate IsActive(pathname: string, path: string)
    ensures IsActive(pathname, path) ==> path <= pathname
  {
    assert path + "/" <= pathname ==> pathname[..|path|] == (path + "/")[..|path|] == path;
    pathname == path || path + "/" <= pathname
  }

  /** A path of one segment: a leading slash and no other. */
  predicate OneSegment(path: string) {
    |path| >= 2 && path[0] == '/' && forall i :: 1 <= i < |path| ==> path[i] != '/'
  }

  /** Both bars list the same paths in the same order; only some labels differ. */
  lemma NavBarsShareRoutes()
    ensures |TopNavItems| == |BottomNavItems| == 5
    ensures forall k :: 0 <= k < 5 ==> TopNavItems[k].path == BottomNavItems[k].path
    ensures TopNavItems[1].caption != BottomNavItems[1].caption && TopNavItems[2].caption != BottomNavItems[2].caption
  {
  }

  lemma NavPathsOneSegment()
    ensures forall k :: 0 <= k < |TopNavItems| ==> OneSegment(TopNavItems[k].path)
  {
    assert OneSegment("/home");
    assert OneSegment("/ai-assistant");
    assert OneSegment("/appointments");
    assert OneSegment("/history");
    assert OneSegment("/profile");
  }

  lemma NavPathsDistinct()
    ensures forall i, j :: 0 <= i < j < |TopNavItems| ==> TopNavItems[i].path != TopNavItems[j].path
  {
    assert "/ai-assistant"[2] != "/appointments"[2];
    assert "/history"[1] != "/profile"[1];
  }

  /** An active path is a prefix of the route that the route continues, if at all, with a slash. */
  lemma ActivePrefix(pathname: string, path: string)
    requires IsActive(pathname, path)
    ensures |path| <= |pathname| && pathname[..|path|] == path
    ensures |path| < |pathname| ==> pathname[|path|] == '/'
  {
    if pathname != path {
      assert (path + "/")[|path|] == '/';
    }
  }

  /** A prefix of `s` agrees with `s` at every index it has. */
  lemma PrefixAgrees(s: string, p: string, k: nat)
    ensures k < |p| <= |s| && s[..|p|] == p ==> p[k] == s[k]
  {
    if k < |p| <= |s| && s[..|p|] == p {
      assert s[..|p|][k] == s[k];
    }
  }

  /**
   * For a one-segment path, being active pins down the route's first segment: the
   * route is the path itself, or continues with a slash right after it.
   */
  lemma ActiveMeansFirstSegment(pathname: string, path: string, n: nat)
    requires OneSegment(path)
    requires 1 <= n <= |pathname| && (n == |pathname| || pathname[n] == '/')
    requires forall i :: 1 <= i < n ==> pathname[i] != '/'
    ensures IsActive(pathname, path) ==> path == pathname[..n]
  {
    if IsActive(pathname, path) {
      ActivePrefix(pathname, path);
      PrefixAgrees(pathname, path, n);
    }
  }

  /** Two different one-segment paths are never active together. */
  lemma OneSegmentPathsExclusive(pathname: string, a: string, b: string)
    requires OneSegment(a) && OneSegment(b) && a != b
    ensures !(IsActive(pathname, a) && IsActive(pathname, b))
  {
    PrefixAgrees(pathname, b, |a|);
    if IsActive(pathname, a) && IsActive(pathname, b) {
      ActivePrefix(pathname, a);
      ActivePrefix(pathname, b);
    }
  }

  /** At most one item of either bar is highlighted, whatever the route. */
  lemma AtMostOneActive(pathname: string, i: nat, j: nat)
    requires i < j < |TopNavItems|
    ensures !(IsActive(pathname, TopNavItems[i].path) && IsActive(pathname, TopNavItems[j].path))
    ensures !(IsActive(pathname, BottomNavItems[i].path) && IsActive(pathname, BottomNavItems[j].path))
  {
    NavPathsOneSegment();
    NavPathsDistinct();
    NavBarsShareRoutes();
    OneSegmentPathsExclusive(pathname, TopNavItems[i].path, TopNavItems[j].path);
  }

  /** A bare prefix is not enough: "/homepage" does not highlight "/home", "/home/x" does. */
  lemma SlashPrefixOnly()
    ensures !IsActive("/homepage", "/home")
    ensures IsActive("/home/x", "/home")
  {
    assert ("/home" + "/")[5] != "/homepage"[5];
    assert "/home" + "/" == "/home/x"[..6];
  }

  /** The appointment-detail and booking routes highlight no item. */
  lemma DetailAndBookingRoutesActivateNothing(rest: string, k: nat)
    requires k < |TopNavItems|
    ensures !IsActive("/appointment/" + rest, TopNavItems[k].path)
    ensures !IsActive("/book/" + rest, TopNavItems[k].path)
  {
    NavPathsOneSegment();
    var detail, book := "/appointment/" + rest, "/book/" + rest;
    assert detail[..12] == "/appointment";
    assert book[..5] == "/book";
    ActiveMeansFirstSegment(detail, TopNavItems[k].path, 12);
    ActiveMeansFirstSegment(book, TopNavItems[k].path, 5);
  }

  /**
   * The sign-out handler, written the same way in the top bar and on the profile
   * page: forget the user, then go to the landing route.
   */
  function SignOut(s: AppState): (r: (AppState, string))
    ensures !IsAuthenticated(r.0) && r.0.appointments == s.appointments
    ensures r.1 == "/"
  {
    (Logout(s), "/")
  }
}

=== FILE: payment.dfy ===
/**
 * The payment step of a booking: the three input formatters (card number, expiry,
 * CVV) and the submit handler's validation chain.
 */
module Payment {
  import opened Wrappers
  import opened Text
  import opened Types
  import opened MockData
  import opened AppContext

  /** `digits.match(/.{1,4}/g) || []`: consecutive chunks of four, the last one of one to four. */
  function Chunks(d: string): (cs: seq<string>)
    ensures forall k :: 0 <= k < |cs| ==> 1 <= |cs[k]| <= 4
    ensures forall k :: 0 <= k < |cs| - 1 ==> |cs[k]| == 4
    decreases |d|
  {
    if |d| == 0 then []
    else if |d| <= 4 then [d]
    else [d[..4]] + Chunks(d[4..])
  }

  /** `chunks.join(sep)`. */
  function Join(cs: seq<string>, sep: string): string {
    if |cs| == 0 then ""
    else if |cs| == 1 then cs[0]
    else cs[0] + sep + Join(cs[1..], sep)
  }

  /** The digits grouped in fours, separated by single spaces. */
  function Grouped(d: string): string {
    Join(Chunks(d), " ")
  }

  /**
   * `formatCardNumber`: keep the digits, group them in fours, cut to 19 characters.
   * Its shape and digit content are `FormatCardNumberShape`.
   */
  function FormatCardNumber(value: string): (r: string)
    ensures |r| <= 19
    ensures r <= Grouped(Digits(value))
  {
    Take(Grouped(Digits(value)), 19)
  }

  lemma GroupedStep(d: string)
    requires |d| > 4
    ensures Grouped(d) == d[..4] + " " + Grouped(d[4..])
  {
    assert Chunks(d)[1..] == Chunks(d[4..]);
  }

  /** A grouping of `n` digits has one space per full group of four that something follows. */
  lemma {:induction false} GroupedLength(d: string)
    ensures |Grouped(d)| == if |d| == 0 then 0 else |d| + (|d| - 1) / 4
    decreases |d|
  {
    if |d| > 4 {
      GroupedStep(d);
      GroupedLength(d[4..]);
    }
  }

  /** In the grouping of digits, the spaces sit exactly at the positions 4, 9, 14, ... */
  lemma {:induction false} GroupedSpaces(d: string)
    requires AllDigits(d)
    ensures forall i :: 0 <= i < |Grouped(d)| ==> (IsDigit(Grouped(d)[i]) || Grouped(d)[i] == ' ')
    ensures forall i :: 0 <= i < |Grouped(d)| ==> (Grouped(d)[i] == ' ' <==> i % 5 == 4)
    decreases |d|
  {
    if |d| > 4 {
      GroupedStep(d);
      GroupedSpaces(d[4..]);
      var r, t := Grouped(d), Grouped(d[4..]);
      forall i | 5 <= i < |r|
        ensures IsDigit(r[i]) || r[i] == ' '
        ensures r[i] == ' ' <==> i % 5 == 4
      {
        assert r[i] == t[i - 5];
        assert (i - 5) % 5 == i % 5;
      }
    }
  }

  /** The grouping ends with the last digit, never with a space. */
  lemma {:induction false} GroupedLast(d: string)
    requires |d| > 0
    ensures |Grouped(d)| > 0 && Grouped(d)[|Grouped(d)| - 1] == d[|d| - 1]
    decreases |d|
  {
    if |d| > 4 {
      GroupedStep(d);
      GroupedLast(d[4..]);
    }
  }

  /** Cutting the grouping after `n` groups (`5n - 1` characters) groups the first `4n` digits. */
  lemma {:induction false} TakeGrouped(d: string, n: nat)
    requires n >= 1
    ensures Take(Grouped(d), 5 * n - 1) == Grouped(Take(d, 4 * n))
    decreases n
  {
    if |d| <= 4 {
      GroupedLength(d);
    } else {
      GroupedStep(d);
      var t := d[4..];
      if n == 1 {
        assert Take(d, 4) == d[..4];
        assert Grouped(d[..4]) == d[..4];
      } else {
        TakeGrouped(t, n - 1);
        var dn := Take(d, 4 * n);
        assert dn == d[..4] + Take(t, 4 * (n - 1));
        assert |dn| > 4 && dn[..4] == d[..4] && dn[4..] == Take(t, 4 * (n - 1));
        GroupedStep(dn);
        GroupedLength(t);
        assert Take(Grouped(d), 5 * n - 1) == d[..4] + " " + Take(Grouped(t), 5 * (n - 1) - 1);
      }
    }
  }

  /** The card number field is the grouping of the first 16 digits typed. */
  lemma FormatCardNumberIsGroupedPrefix(value: string)
    ensures FormatCardNumber(value) == Grouped(Take(Digits(value), 16))
  {
    TakeGrouped(Digits(value), 4);
  }

  lemma {:induction false} DigitsOfGrouped(d: string)
    requires AllDigits(d)
    ensures Digits(Grouped(d)) == d
    ensures RemoveSpaces(Grouped(d)) == d
    decreases |d|
  {
    if |d| <= 4 {
      DigitsFixpoint(d);
      RemoveSpacesOfDigits(d);
    } else {
      GroupedStep(d);
      DigitsOfGrouped(d[4..]);
      DigitsFixpoint(d[..4]);
      RemoveSpacesOfDigits(d[..4]);
      DigitsAppend(d[..4] + " ", Grouped(d[4..]));
      DigitsAppend(d[..4], " ");
      RemoveSpacesAppend(d[..4] + " ", Grouped(d[4..]));
      RemoveSpacesAppend(d[..4], " ");
      assert d[..4] + d[4..] == d;
    }
  }

  /**
   * The card number field: at most 19 characters, digits and single spaces only, a
   * space exactly at positions 4, 9 and 14 (those that exist), never a trailing space,
   * and with the spaces removed it is the first 16 digits typed (all of them if fewer).
   */
  lemma FormatCardNumberShape(value: string)
    ensures var r := FormatCardNumber(value);
      && |r| <= 19
      && (forall i :: 0 <= i < |r| ==> (IsDigit(r[i]) || r[i] == ' '))
      && (forall i :: 0 <= i < |r| ==> (r[i] == ' ' <==> i % 5 == 4))
      && (|r| == 0 || r[|r| - 1] != ' ')
      && RemoveSpaces(r) == Take(Digits(value), 16)
  {
    var d := Take(Digits(value), 16);
    FormatCardNumberIsGroupedPrefix(value);
    GroupedLength(d);
    GroupedSpaces(d);
    DigitsOfGrouped(d);
    if |d| > 0 {
      GroupedLast(d);
    }
  }

  /** Formatting an already formatted card number changes nothing. */
  lemma FormatCardNumberIdempotent(value: string)
    ensures FormatCardNumber(FormatCardNumber(value)) == FormatCardNumber(value)
  {
    var d := Take(Digits(value), 16);
    FormatCardNumberIsGroupedPrefix(value);
    DigitsOfGrouped(d);
    FormatCardNumberIsGroupedPrefix(FormatCardNumber(value));
  }

  /** `formatExpiry`: with two digits or more, the first two, a slash, then up to two more; otherwise the digits. */
  function FormatExpiry(value: string): (r: string)
    ensures |r| <= 5
    ensures |Digits(value)| < 2 ==> r == Digits(value)
    ensures |Digits(value)| >= 2 ==>
      |r| >= 3 && r[..2] == Digits(value)[..2] && r[2] == '/' && r[3..] == Take(Digits(value)[2..], 2)
  {
    var cleaned := Digits(value);
    if |cleaned| >= 2 then cleaned[..2] + "/" + Take(cleaned[2..], 2) else cleaned
  }

  /** Formatting an already formatted expiry changes nothing. */
  lemma FormatExpiryIdempotent(value: string)
    ensures FormatExpiry(FormatExpiry(value)) == FormatExpiry(value)
  {
    var c := Digits(value);
    var r := FormatExpiry(value);
    if |c| >= 2 {
      var tail := Take(c[2..], 2);
      DigitsAppend(c[..2] + "/", tail);
      DigitsAppend(c[..2], "/");
      DigitsFixpoint(c[..2]);
      DigitsFixpoint(tail);
      assert Digits(r) == c[..2] + tail;
      assert Digits(r)[..2] == c[..2] && Digits(r)[2..] == tail;
    } else {
      DigitsFixpoint(c);
    }
  }

  /** The CVV field: `value.replace(/\D/g, '').substring(0, 3)`. */
  function FilterCvv(value: string): (r: string)
    ensures |r| <= 3 && AllDigits(r)
    ensures r <= Digits(value)
    ensures |Digits(value)| >= 3 ==> |r| == 3
    ensures |Digits(value)| < 3 ==> r == Digits(value)
  {
    Take(Digits(value), 3)
  }

  /** The payment form's fields. */
  datatype PaymentForm = PaymentForm(
    cardNumber: string,
    expiry: string,
    cvv: string,
    cardName: string,
    symptoms: string)

  const EmptyForm := PaymentForm("", "", "", "", "")

  /** The fields as the input handlers leave them: each value is what its formatter returns. */
  ghost predicate Formatted(f: PaymentForm) {
    && (exists v :: f.cardNumber == FormatCardNumber(v))
    && (exists v :: f.expiry == FormatExpiry(v))
    && (exists v :: f.cvv == FilterCvv(v))
  }

  /** Input handlers: every keystroke passes the whole new value through the field's formatter. */
  datatype Edit = CardNumber(value: string) | Expiry(value: string) | Cvv(value: string)
                | CardName(value: string) | Symptoms(value: string)

  function ApplyEdit(f: PaymentForm, e: Edit): (r: PaymentForm)
    ensures e.CardNumber? ==> r == f.(cardNumber := FormatCardNumber(e.value))
    ensures e.Expiry? ==> r == f.(expiry := FormatExpiry(e.value))
    ensures e.Cvv? ==> r == f.(cvv := FilterCvv(e.value))
    ensures e.CardName? ==> r == f.(cardName := e.value)
    ensures e.Symptoms? ==> r == f.(symptoms := e.value)
  {
    match e
    case CardNumber(v) => f.(cardNumber := FormatCardNumber(v))
    case Expiry(v) => f.(expiry := FormatExpiry(v))
    case Cvv(v) => f.(cvv := FilterCvv(v))
    case CardName(v) => f.(cardName := v)
    case Symptoms(v) => f.(symptoms := v)
  }

  /** The empty form is formatted, and every edit keeps it so. */
  lemma EditsKeepFormatted(f: PaymentForm, e: Edit)
    requires Formatted(f)
    ensures Formatted(EmptyForm)
    ensures Formatted(ApplyEdit(f, e))
  {
    assert FormatCardNumber("") == "";
    assert FormatExpiry("") == "";
    assert FilterCvv("") == "";
  }

  /** Every field the formatters wrote is left as it is by formatting it again. */
  lemma FormattedFieldsAreFixpoints(f: PaymentForm)
    requires Formatted(f)
    ensures FormatCardNumber(f.cardNumber) == f.cardNumber
    ensures FormatExpiry(f.expiry) == f.expiry
    ensures FilterCvv(f.cvv) == f.cvv
  {
    var a :| f.cardNumber == FormatCardNumber(a);
    var b :| f.expiry == FormatExpiry(b);
    var c :| f.cvv == FilterCvv(c);
    FormatCardNumberIdempotent(a);
    FormatExpiryIdempotent(b);
    DigitsFixpoint(f.cvv);
  }

  const MissingFieldsError := "Por favor completa todos los campos de pago"
  const InvalidCardError := "Número de tarjeta inválido"

  /** What a submit ends in: an error message on the form, or the confirmation screen. */
  datatype PaymentResult =
    | Rejected(error: string)
    | Confirmed(state: AppState, booked: bool)

  /** Slot `k` has the id and no slot before it does. */
  ghost predicate FirstWithId(slots: seq<TimeSlot>, id: string, k: int) {
    0 <= k < |slots| && slots[k].id == id && forall j :: 0 <= j < k ==> slots[j].id != id
  }

  /** `doctor?.availableSlots.find(s => s.id === slotId)`: the first slot with the id. */
  function FindSlot(slots: seq<TimeSlot>, id: string): (r: Option<TimeSlot>)
    ensures r.Some? ==> r.value in slots && r.value.id == id
    ensures r.Some? ==> exists k :: FirstWithId(slots, id, k) && slots[k] == r.value
    ensures r.None? ==> forall k :: 0 <= k < |slots| ==> slots[k].id != id
  {
    if |slots| == 0 then None
    else if slots[0].id == id then
      assert FirstWithId(slots, id, 0);
      Some(slots[0])
    else
      var r := FindSlot(slots[1..], id);
      assert r.Some? ==> exists k :: FirstWithId(slots, id, k) && slots[k] == r.value by {
        if r.Some? {
          var k :| FirstWithId(slots[1..], id, k) && slots[1..][k] == r.value;
          forall j | 0 <= j < k + 1
            ensures slots[j].id != id
          {
            if j > 0 {
              assert slots[j] == slots[1..][j - 1];
            }
          }
          assert FirstWithId(slots, id, k + 1) && slots[k + 1] == r.value;
        }
      }
      r
  }

  /** The form passes both checks of the submit: four non-empty card fields and 16 non-space units. */
  predicate ValidCard(f: PaymentForm) {
    f.cardNumber != "" && f.expiry != "" && f.cvv != "" && f.cardName != "" &&
    Utf16Length(RemoveSpaces(f.cardNumber)) >= 16
  }

  /**
   * `handleSubmit`: all four card fields are required, then the card number needs 16
   * characters once whitespace is stripped (measured in UTF-16 units, as `length` does).
   * Expiry and CVV are only checked for being non-empty. A valid submit books the slot
   * when the route's doctor and slot exist and shows the confirmation either way.
   */
  function SubmitPayment(s: AppState, docs: seq<Doctor>, doctorId: string, slotId: string,
                         f: PaymentForm, newId: string): (r: PaymentResult)
    ensures (f.cardNumber == "" || f.expiry == "" || f.cvv == "" || f.cardName == "") <==>
      r == Rejected(MissingFieldsError)
    ensures r == Rejected(InvalidCardError) <==>
      f.cardNumber != "" && f.expiry != "" && f.cvv != "" && f.cardName != "" &&
      Utf16Length(RemoveSpaces(f.cardNumber)) < 16
    ensures ValidCard(f) ==> r.Confirmed?
    ensures r.Confirmed? ==> r.state.user == s.user
    ensures r.Confirmed? && !r.booked ==> r.state == s
    ensures r.Confirmed? && r.booked ==>
      exists k, j ::
        && 0 <= k < |docs| && docs[k].id == doctorId && (forall i :: 0 <= i < k ==> docs[i].id != doctorId)
        && FirstWithId(docs[k].availableSlots, slotId, j)
        && r.state == BookAppointment(s, newId, docs[k], docs[k].availableSlots[j], Some(f.symptoms))
  {
    if f.cardNumber == "" || f.expiry == "" || f.cvv == "" || f.cardName == "" then
      Rejected(MissingFieldsError)
    else if Utf16Length(RemoveSpaces(f.cardNumber)) < 16 then
      Rejected(InvalidCardError)
    else
      match FindDoctor(docs, doctorId)
      case None => Confirmed(s, false)
      case Some(k) =>
        match FindSlot(docs[k].availableSlots, slotId)
        case None => Confirmed(s, false)
        case Some(slot) => Confirmed(BookAppointment(s, newId, docs[k], slot, Some(f.symptoms)), true)
  }

  /**
   * A submit that passes both checks always shows the confirmation, and books exactly
   * when the route names a doctor of the table and one of its slots: a route that names
   * no such doctor or slot still reports success, with nothing booked.
   */
  lemma SubmitBooksIffFound(s: AppState, docs: seq<Doctor>, doctorId: string, slotId: string,
                            f: PaymentForm, newId: string)
    requires ValidCard(f)
    ensures SubmitPayment(s, docs, doctorId, slotId, f, newId).Confirmed?
    ensures SubmitPayment(s, docs, doctorId, slotId, f, newId).booked <==>
      FindDoctor(docs, doctorId).Some? &&
      (exists j :: 0 <= j < |docs[FindDoctor(docs, doctorId).value].availableSlots| &&
        docs[FindDoctor(docs, doctorId).value].availableSlots[j].id == slotId)
  {
    var r := SubmitPayment(s, docs, doctorId, slotId, f, newId);
    var k := FindDoctor(docs, doctorId);
    if k.Some? && r.booked {
      var slot := FindSlot(docs[k.value].availableSlots, slotId).value;
      var j :| 0 <= j < |docs[k.value].availableSlots| && docs[k.value].availableSlots[j] == slot;
    }
  }

  /**
   * A valid submit on the route of one of the table's doctors and one of its slots books
   * exactly that slot for that doctor, provided ids are distinct as the generated data
   * makes them.
   */
  lemma SelectedSlotIsBooked(s: AppState, docs: seq<Doctor>, k: nat, slot: TimeSlot, f: PaymentForm, newId: string)
    requires k < |docs| && forall i, j :: 0 <= i < j < |docs| ==> docs[i].id != docs[j].id
    requires slot in docs[k].availableSlots
    requires forall i, j :: 0 <= i < j < |docs[k].availableSlots| ==>
      docs[k].availableSlots[i].id != docs[k].availableSlots[j].id
    requires ValidCard(f)
    ensures SubmitPayment(s, docs, docs[k].id, slot.id, f, newId)
      == Confirmed(BookAppointment(s, newId, docs[k], slot, Some(f.symptoms)), true)
  {
    var d := FindDoctor(docs, docs[k].id);
    assert d.Some? && d.value == k;
    var slots := docs[k].availableSlots;
    var r := FindSlot(slots, slot.id);
    var j :| 0 <= j < |slots| && slots[j] == slot;
    assert r.Some?;
    var i :| 0 <= i < |slots| && slots[i] == r.value;
    assert i == j;
  }

  /** For a card number the form holds, the length check passes exactly when 16 digits were typed. */
  lemma CardCheckOnFormattedNumber(value: string)
    ensures Utf16Length(RemoveSpaces(FormatCardNumber(value))) >= 16 <==> |Digits(value)| >= 16
  {
    FormatCardNumberShape(value);
    Utf16LengthOfBmp(Take(Digits(value), 16));
  }
}

=== FILE: profile.dfy ===
/**
 * The profile page: the edit form seeded from the signed-in user, saving it
 * through `updateProfile`, cancelling an edit and the avatar initial. Its
 * "Cerrar sesión" button is `Navigation.SignOut`.
 */
module ProfilePage {
  import opened Wrappers
  import opened Text
  import opened Types
  import opened AppContext
  import Navigation

  datatype ProfileForm = ProfileForm(
    firstName: string,
    lastName: string,
    email: string,
    dni: string,
    birthDate: string,
    phone: string)

  /** The form's inputs, each addressed by its `name` attribute. */
  datatype Field = FirstName | LastName | Email | Dni | BirthDate | Phone

  /** `user?.field || ''` for the six fields. */
  function InitialForm(user: Option<User>): (f: ProfileForm)
    ensures user.None? ==> f == ProfileForm("", "", "", "", "", "")
    ensures user.Some? ==> var u := user.value;
      f == ProfileForm(u.firstName, u.lastName, u.email, u.dni, u.birthDate, u.phone)
  {
    match user
    case None => ProfileForm("", "", "", "", "", "")
    case Some(u) => ProfileForm(u.firstName, u.lastName, u.email, u.dni, u.birthDate, u.phone)
  }

  /** The value of input `x`. */
  function Get(f: ProfileForm, x: Field): string {
    match x
    case FirstName => f.firstName
    case LastName => f.lastName
    case Email => f.email
    case Dni => f.dni
    case BirthDate => f.birthDate
    case Phone => f.phone
  }

  /** Two forms are equal exactly when every input holds the same value. */
  lemma FormsEqualByFields(f: ProfileForm, g: ProfileForm)
    ensures f == g <==> forall x :: Get(f, x) == Get(g, x)
  {
    if forall x :: Get(f, x) == Get(g, x) {
      assert Get(f, FirstName) == Get(g, FirstName) && Get(f, LastName) == Get(g, LastName);
      assert Get(f, Email) == Get(g, Email) && Get(f, Dni) == Get(g, Dni);
      assert Get(f, BirthDate) == Get(g, BirthDate) && Get(f, Phone) == Get(g, Phone);
    }
  }

  /** `handleChange`: `{ ...prev, [name]: value }`. */
  function HandleChange(f: ProfileForm, x: Field, v: string): (r: ProfileForm)
    ensures Get(r, x) == v
    ensures forall y :: y != x ==> Get(r, y) == Get(f, y)
  {
    match x
    case FirstName => f.(firstName := v)
    case LastName => f.(lastName := v)
    case Email => f.(email := v)
    case Dni => f.(dni := v)
    case BirthDate => f.(birthDate := v)
    case Phone => f.(phone := v)
  }

  /** The object `handleSave` passes to `updateProfile`: exactly the six form fields. */
  function Patch(f: ProfileForm): (p: PartialUser)
    ensures p.id.None? && p.avatarUrl.None?
    ensures p.firstName == Some(f.firstName) && p.lastName == Some(f.lastName) && p.email == Some(f.email)
    ensures p.dni == Some(f.dni) && p.birthDate == Some(f.birthDate) && p.phone == Some(f.phone)
  {
    PartialUser(None, Some(f.email), Some(f.firstName), Some(f.lastName),
      Some(f.dni), Some(f.birthDate), Some(f.phone), None)
  }

  /** The page: whether the form is open for editing, and the form's values. */
  datatype Page = Page(editing: bool, form: ProfileForm)

  function Open(s: AppState): (p: Page)
    ensures !p.editing && p.form == InitialForm(s.user)
  {
    Page(false, InitialForm(s.user))
  }

  /** `handleSave`: the form goes to `updateProfile` and the page leaves edit mode. */
  function Save(s: AppState, p: Page): (r: (AppState, Page))
    ensures !r.1.editing && r.1.form == p.form
    ensures r.0.appointments == s.appointments
    ensures s.user.None? ==> r.0 == s
    ensures s.user.Some? ==> r.0.user.Some?
    ensures s.user.Some? && r.0.user.Some? ==> var u, v := s.user.value, r.0.user.value;
      v.id == u.id && v.avatarUrl == u.avatarUrl &&
      v.firstName == p.form.firstName && v.lastName == p.form.lastName && v.email == p.form.email &&
      v.dni == p.form.dni && v.birthDate == p.form.birthDate && v.phone == p.form.phone
  {
    (UpdateProfile(s, Patch(p.form)), p.(editing := false))
  }

  /** "Cancelar": leave edit mode and put the form back to the current user's values. */
  function CancelEdit(s: AppState, p: Page): (r: Page)
    ensures !r.editing && r.form == InitialForm(s.user)
  {
    Page(false, InitialForm(s.user))
  }

  /**
   * Saving and then cancelling the next edit brings back what was saved: the
   * signed-in user now holds the form. Without a user the save is dropped and
   * cancelling shows the empty form.
   */
  lemma CancelAfterSaveShowsSaved(s: AppState, p: Page, edits: ProfileForm)
    ensures var (s', _) := Save(s, p);
      CancelEdit(s', Page(true, edits)).form == if s.user.Some? then p.form else InitialForm(None)
  {
  }

  /** Editing one input leaves the other five as they were, and edits of different inputs commute. */
  lemma HandleChangeFrame(f: ProfileForm, x: Field, v: string, y: Field, w: string)
    ensures x != y ==> HandleChange(HandleChange(f, x, v), y, w) == HandleChange(HandleChange(f, y, w), x, v)
    ensures HandleChange(HandleChange(f, x, v), x, w) == HandleChange(f, x, w)
  {
  }

  /** `formData.firstName?.charAt(0)?.toUpperCase() || 'U'`. */
  function AvatarInitial(f: ProfileForm): (r: string)
    ensures |r| == 1
    ensures f.firstName == "" ==> r == "U"
    ensures f.firstName != "" ==> r[0] == UpperChar(f.firstName[0])
  {
    if f.firstName == "" then "U" else [UpperChar(f.firstName[0])]
  }

  /** The initial is already a capital: upper-casing it again changes nothing. */
  lemma AvatarInitialIsCapital(f: ProfileForm)
    ensures UpperChar(AvatarInitial(f)[0]) == AvatarInitial(f)[0]
  {
  }

  /** Signing out empties the profile form the page would open with. */
  lemma SignOutClearsForm(s: AppState)
    ensures InitialForm(Navigation.SignOut(s).0.user) == ProfileForm("", "", "", "", "", "")
  {
  }
}

=== FILE: select_date_time.dfy ===
/**
 * The date-and-time step of a booking: the doctor's slots grouped by day, the
 * sorted list of days shown seven at a time, and the slot selection.
 */
module SelectDateTime {
  import opened Wrappers
  import opened Text
  import opened Types
  import opened MockData

  // ---------------------------------------------------------------- grouping

  /** The slots of `date`, in their order in `slots`: the reference for one group. */
  function SlotsOn(slots: seq<TimeSlot>, date: string): (r: seq<TimeSlot>)
    ensures |r| <= |slots|
  {
    if |slots| == 0 then []
    else (if slots[0].date == date then [slots[0]] else []) + SlotsOn(slots[1..], date)
  }

  /** `groupedSlots`: each slot is pushed onto the list of its date, created on first sight. */
  function GroupInto(groups: map<string, seq<TimeSlot>>, slots: seq<TimeSlot>): map<string, seq<TimeSlot>>
    decreases |slots|
  {
    if |slots| == 0 then groups
    else
      var s := slots[0];
      var g := if s.date in groups then groups[s.date] else [];
      GroupInto(groups[s.date := g + [s]], slots[1..])
  }

  function GroupSlots(slots: seq<TimeSlot>): map<string, seq<TimeSlot>> {
    GroupInto(map[], slots)
  }

  ghost function DatesOf(slots: seq<TimeSlot>): set<string> {
    set k | 0 <= k < |slots| :: slots[k].date
  }

  /** A date has a group after grouping exactly when it had one before or some slot carries it. */
  lemma {:induction false} GroupIntoKeys(groups: map<string, seq<TimeSlot>>, slots: seq<TimeSlot>, d: string)
    ensures d in GroupInto(groups, slots) <==> d in groups || d in DatesOf(slots)
    decreases |slots|
  {
    if |slots| > 0 {
      var s := slots[0];
      var g := if s.date in groups then groups[s.date] else [];
      var groups' := groups[s.date := g + [s]];
      assert GroupInto(groups, slots) == GroupInto(groups', slots[1..]);
      assert d in groups' <==> d in groups || d == s.date;
      GroupIntoKeys(groups', slots[1..], d);
      DatesOfCons(slots);
    }
  }

  /** Grouping appends the slots of `d`, in order, to the group `d` already had. */
  lemma {:induction false} GroupIntoGroup(groups: map<string, seq<TimeSlot>>, slots: seq<TimeSlot>, d: string)
    requires d in GroupInto(groups, slots)
    ensures GroupInto(groups, slots)[d] == (if d in groups then groups[d] else []) + SlotsOn(slots, d)
    decreases |slots|
  {
    if |slots| == 0 {
      assert SlotsOn(slots, d) == [];
    } else {
      var s := slots[0];
      var g := if s.date in groups then groups[s.date] else [];
      var groups' := groups[s.date := g + [s]];
      var rest := SlotsOn(slots[1..], d);
      assert GroupInto(groups, slots) == GroupInto(groups', slots[1..]);
      GroupIntoGroup(groups', slots[1..], d);
      if d == s.date {
        assert SlotsOn(slots, d) == [s] + rest;
        assert groups'[d] == g + [s];
        assert (g + [s]) + rest == g + ([s] + rest);
      } else {
        assert SlotsOn(slots, d) == [] + rest;
        assert (d in groups' <==> d in groups) && (d in groups ==> groups'[d] == groups[d]);
      }
    }
  }

  lemma GroupIntoSpec(groups: map<string, seq<TimeSlot>>, slots: seq<TimeSlot>, d: string)
    ensures d in GroupInto(groups, slots) <==> d in groups || d in DatesOf(slots)
    ensures d in GroupInto(groups, slots) ==>
      GroupInto(groups, slots)[d] == (if d in groups then groups[d] else []) + SlotsOn(slots, d)
  {
    GroupIntoKeys(groups, slots, d);
    if d in GroupInto(groups, slots) {
      GroupIntoGroup(groups, slots, d);
    }
  }

  /** The dates of a non-empty list: its first slot's date and the dates of the rest. */
  lemma DatesOfCons(slots: seq<TimeSlot>)
    requires |slots| > 0
    ensures DatesOf(slots) == {slots[0].date} + DatesOf(slots[1..])
  {
    forall e | e in DatesOf(slots) ensures e in {slots[0].date} + DatesOf(slots[1..]) {
      var k :| 0 <= k < |slots| && slots[k].date == e;
      if k > 0 {
        assert slots[1..][k - 1].date == e;
      }
    }
    forall e | e in DatesOf(slots[1..]) ensures e in DatesOf(slots) {
      var k :| 0 <= k < |slots[1..]| && slots[1..][k].date == e;
      assert slots[k + 1].date == e;
    }
  }

  /**
   * Grouping partitions the slots by date: there is a group exactly for each date
   * that occurs, and each group holds that date's slots in their original order.
   */
  lemma GroupSlotsSpec(slots: seq<TimeSlot>, d: string)
    ensures d in GroupSlots(slots) <==> d in DatesOf(slots)
    ensures d in GroupSlots(slots) ==> GroupSlots(slots)[d] == SlotsOn(slots, d)
  {
    GroupIntoSpec(map[], slots, d);
  }

  // ---------------------------------------------------------------- dates

  /** `Object.keys(groups)`: each date once, in order of first appearance. */
  function Keys(slots: seq<TimeSlot>, seen: seq<string>): (ks: seq<string>)
    requires forall i, j :: 0 <= i < j < |seen| ==> seen[i] != seen[j]
    ensures forall i, j :: 0 <= i < j < |ks| ==> ks[i] != ks[j]
    ensures forall d :: d in ks <==> d in seen || d in DatesOf(slots)
  {
    if |slots| == 0 then seen
    else
      DatesOfCons(slots);
      if slots[0].date in seen then Keys(slots[1..], seen)
      else Keys(slots[1..], seen + [slots[0].date])
  }

  ghost predicate Ascending(ds: seq<string>) {
    forall i, j :: 0 <= i < j < |ds| ==> LexLt(ds[i], ds[j])
  }

  /** `x` goes in front of the first date not below it. */
  function InsertDate(x: string, ds: seq<string>): (r: seq<string>)
    ensures multiset(r) == multiset(ds) + multiset{x}
  {
    if |ds| == 0 then [x]
    else if LexLe(x, ds[0]) then [x] + ds
    else
      assert ds == [ds[0]] + ds[1..];
      [ds[0]] + InsertDate(x, ds[1..])
  }

  /** `sort()` without a comparator, on date strings. */
  function SortDates(ds: seq<string>): (r: seq<string>)
    ensures multiset(r) == multiset(ds)
  {
    if |ds| == 0 then []
    else
      assert ds == [ds[0]] + ds[1..];
      InsertDate(ds[0], SortDates(ds[1..]))
  }

  lemma {:induction false} InsertDateAscending(x: string, ds: seq<string>)
    requires Ascending(ds) && x !in ds
    ensures Ascending(InsertDate(x, ds))
  {
    if |ds| > 0 {
      var r := InsertDate(x, ds);
      if LexLe(x, ds[0]) {
        forall j | 1 <= j < |r|
          ensures LexLt(r[0], r[j])
        {
          if j > 1 {
            LexLeTransitive(x, ds[0], ds[j - 1]);
            assert ds[j - 1] in ds;
          } else {
            assert ds[0] in ds;
          }
        }
      } else {
        LexLeTotal(x, ds[0]);
        assert x !in ds[1..];
        InsertDateAscending(x, ds[1..]);
        var t := InsertDate(x, ds[1..]);
        assert r == [ds[0]] + t;
        forall j | 0 <= j < |t|
          ensures LexLt(ds[0], t[j])
        {
          assert t[j] in multiset(t);
          if t[j] != x {
            assert t[j] in multiset(ds[1..]);
            var k :| 0 <= k < |ds[1..]| && ds[1..][k] == t[j];
            assert ds[k + 1] == t[j];
          }
        }
      }
    }
  }

  lemma {:induction false} SortDatesAscending(ds: seq<string>)
    requires forall i, j :: 0 <= i < j < |ds| ==> ds[i] != ds[j]
    ensures Ascending(SortDates(ds))
  {
    if |ds| > 0 {
      SortDatesAscending(ds[1..]);
      assert ds[0] !in ds[1..];
      assert ds[0] !in multiset(SortDates(ds[1..]));
      InsertDateAscending(ds[0], SortDates(ds[1..]));
    }
  }

  /** `dates`: the days that have slots, each once, in ascending order. */
  function Dates(slots: seq<TimeSlot>): (ds: seq<string>)
    ensures Ascending(ds)
    ensures forall d :: d in ds <==> d in DatesOf(slots)
  {
    var keys := Keys(slots, []);
    SortDatesAscending(keys);
    assert forall d :: d in SortDates(keys) <==> d in multiset(keys);
    SortDates(keys)
  }

  // ---------------------------------------------------------------- weeks

  /** `dates.slice(7w, 7w + 7)`. */
  function VisibleDates(ds: seq<string>, week: nat): (r: seq<string>)
    ensures |r| == if |ds| <= 7 * week then 0 else if |ds| - 7 * week < 7 then |ds| - 7 * week else 7
    ensures |r| > 0 ==> r == ds[7 * week..7 * week + |r|]
  {
    if |ds| <= 7 * week then [] else Take(ds[7 * week..], 7)
  }

  /** The previous-week button: `Math.max(0, w - 1)`, disabled on the first week. */
  function PrevWeek(week: nat): (w: nat)
    ensures week > 0 ==> w == week - 1
    ensures week == 0 ==> w == 0
  {
    if week == 0 then 0 else week - 1
  }

  predicate PrevDisabled(week: nat) {
    week == 0
  }

  /** The next-week button: disabled once fewer than seven dates are showing. */
  predicate NextDisabled(ds: seq<string>, week: nat) {
    |VisibleDates(ds, week)| < 7
  }

  /**
   * The next-week button stays enabled while the current window is full, so after
   * a full last window it leads to an empty one: an empty window is reached by
   * paging forward exactly when the number of dates is a multiple of seven.
   */
  lemma NextWeekLeadsToEmptyWindow(ds: seq<string>, week: nat)
    ensures !NextDisabled(ds, week) <==> |ds| >= 7 * week + 7
    ensures !NextDisabled(ds, week) ==> (|VisibleDates(ds, week + 1)| == 0 <==> |ds| == 7 * week + 7)
  {
  }

  /** With the fourteen days of the mock table, the third window is empty and reachable. */
  lemma FourteenDatesReachEmptyWindow(ds: seq<string>)
    requires |ds| == 14
    ensures !NextDisabled(ds, 0) && !NextDisabled(ds, 1) && |VisibleDates(ds, 2)| == 0
  {
    NextWeekLeadsToEmptyWindow(ds, 0);
    NextWeekLeadsToEmptyWindow(ds, 1);
  }

  // ---------------------------------------------------------------- selection

  /** `slots.some(s => s.available)`. */
  predicate SomeAvailable(slots: seq<TimeSlot>) {
    exists k :: 0 <= k < |slots| && slots[k].available
  }

  /** Slot `k` is available and no slot before it is. */
  ghost predicate FirstAvailableAt(slots: seq<TimeSlot>, k: int) {
    0 <= k < |slots| && slots[k].available && forall j :: 0 <= j < k ==> !slots[j].available
  }

  /** Slot `k` has `date` and is available, and no slot before it is both. */
  ghost predicate FirstAvailableOnAt(slots: seq<TimeSlot>, date: string, k: int) {
    && 0 <= k < |slots| && slots[k].date == date && slots[k].available
    && forall j :: 0 <= j < k ==> !(slots[j].date == date && slots[j].available)
  }

  /** `slots.find(s => s.available)`: the available slot that no other available slot precedes. */
  function FirstAvailable(slots: seq<TimeSlot>): (r: Option<TimeSlot>)
    ensures r.Some? <==> SomeAvailable(slots)
    ensures r.Some? ==> r.value in slots && r.value.available
    ensures r.Some? ==> exists k :: FirstAvailableAt(slots, k) && slots[k] == r.value
  {
    if |slots| == 0 then None
    else if slots[0].available then Some(slots[0])
    else
      assert SomeAvailable(slots) ==> SomeAvailable(slots[1..]) by {
        if SomeAvailable(slots) {
          var k :| 0 <= k < |slots| && slots[k].available;
          assert slots[1..][k - 1].available;
        }
      }
      FirstAvailable(slots[1..])
  }

  /** `slots.filter(s => s.available)`; the order it keeps is `AvailableAppend`. */
  function Available(slots: seq<TimeSlot>): (r: seq<TimeSlot>)
    ensures |r| <= |slots|
    ensures forall s :: s in r <==> s in slots && s.available
  {
    if |slots| == 0 then []
    else
      assert slots == [slots[0]] + slots[1..];
      (if slots[0].available then [slots[0]] else []) + Available(slots[1..])
  }

  /**
   * The filter keeps input order: filtering a concatenation filters each part.
   * With the membership and length clauses of `Available` this fixes the result
   * of every list.
   */
  lemma {:induction false} AvailableAppend(a: seq<TimeSlot>, b: seq<TimeSlot>)
    ensures Available(a + b) == Available(a) + Available(b)
  {
    if |a| > 0 {
      assert (a + b)[1..] == a[1..] + b;
      AvailableAppend(a[1..], b);
    } else {
      assert a + b == b;
    }
  }

  /** The same for the slots of one date. */
  lemma {:induction false} SlotsOnAppend(a: seq<TimeSlot>, b: seq<TimeSlot>, date: string)
    ensures SlotsOn(a + b, date) == SlotsOn(a, date) + SlotsOn(b, date)
  {
    if |a| > 0 {
      assert (a + b)[1..] == a[1..] + b;
      SlotsOnAppend(a[1..], b, date);
    } else {
      assert a + b == b;
    }
  }

  /**
   * The first available slot of a date's group is the first slot of the whole list
   * that has that date and is available.
   */
  lemma {:induction false} FirstAvailableOn(slots: seq<TimeSlot>, date: string)
    ensures var r := FirstAvailable(SlotsOn(slots, date));
      r.Some? ==> exists k :: FirstAvailableOnAt(slots, date, k) && slots[k] == r.value
  {
    if |slots| > 0 {
      var s, rest := slots[0], SlotsOn(slots[1..], date);
      FirstAvailableOn(slots[1..], date);
      if s.date == date {
        assert SlotsOn(slots, date) == [s] + rest;
        if s.available {
          assert FirstAvailable(SlotsOn(slots, date)) == Some(s);
          assert slots[0] == s;
        } else {
          assert ([s] + rest)[1..] == rest;
          assert FirstAvailable(SlotsOn(slots, date)) == FirstAvailable(rest);
          ShiftFirst(slots, date, FirstAvailable(rest));
        }
      } else {
        assert SlotsOn(slots, date) == rest;
        ShiftFirst(slots, date, FirstAvailable(rest));
      }
    }
  }

  /** A first matching index of the tail, moved past a head that does not match. */
  lemma ShiftFirst(slots: seq<TimeSlot>, date: string, r: Option<TimeSlot>)
    requires |slots| > 0 && !(slots[0].date == date && slots[0].available)
    requires r.Some? ==> exists k :: FirstAvailableOnAt(slots[1..], date, k) && slots[1..][k] == r.value
    ensures r.Some? ==> exists k :: FirstAvailableOnAt(slots, date, k) && slots[k] == r.value
  {
    if r.Some? {
      var k :| FirstAvailableOnAt(slots[1..], date, k) && slots[1..][k] == r.value;
      assert slots[k + 1] == r.value;
      forall j | 0 <= j < k + 1
        ensures !(slots[j].date == date && slots[j].available)
      {
        if j > 0 {
          assert slots[j] == slots[1..][j - 1];
        }
      }
    }
  }

  /** The first available slot of a list is the head of its available ones. */
  lemma {:induction false} FirstAvailableIsHead(slots: seq<TimeSlot>)
    ensures FirstAvailable(slots).Some? <==> |Available(slots)| > 0
    ensures FirstAvailable(slots).Some? ==> FirstAvailable(slots).value == Available(slots)[0]
  {
    if |slots| > 0 {
      if slots[0].available {
        assert Available(slots) == [slots[0]] + Available(slots[1..]);
      } else {
        FirstAvailableIsHead(slots[1..]);
        assert Available(slots) == [] + Available(slots[1..]);
        assert FirstAvailable(slots) == FirstAvailable(slots[1..]);
      }
    }
  }

  /** A date button is clickable exactly when the day has an available slot. */
  predicate DateClickable(slots: seq<TimeSlot>, date: string)
    ensures DateClickable(slots, date) <==>
      exists k :: 0 <= k < |slots| && slots[k].date == date && slots[k].available
  {
    SlotsOnMembers(slots, date);
    assert SomeAvailable(SlotsOn(slots, date)) ==>
      exists k :: 0 <= k < |slots| && slots[k].date == date && slots[k].available by {
      if SomeAvailable(SlotsOn(slots, date)) {
        var i :| 0 <= i < |SlotsOn(slots, date)| && SlotsOn(slots, date)[i].available;
        assert SlotsOn(slots, date)[i] in slots;
      }
    }
    assert (exists k :: 0 <= k < |slots| && slots[k].date == date && slots[k].available) ==>
      SomeAvailable(SlotsOn(slots, date)) by {
      if exists k :: 0 <= k < |slots| && slots[k].date == date && slots[k].available {
        var k :| 0 <= k < |slots| && slots[k].date == date && slots[k].available;
        assert slots[k] in SlotsOn(slots, date);
      }
    }
    SomeAvailable(SlotsOn(slots, date))
  }

  /**
   * Clicking a date button selects the first slot of the list that has that date
   * and is available; a disabled button does nothing.
   */
  function ClickDate(slots: seq<TimeSlot>, selected: Option<TimeSlot>, date: string): (r: Option<TimeSlot>)
    ensures !DateClickable(slots, date) ==> r == selected
    ensures DateClickable(slots, date) ==> r == FirstAvailable(SlotsOn(slots, date))
    ensures DateClickable(slots, date) ==>
      r.Some? && exists k :: FirstAvailableOnAt(slots, date, k) && slots[k] == r.value
  {
    if DateClickable(slots, date) then
      FirstAvailableOn(slots, date);
      FirstAvailable(SlotsOn(slots, date))
    else selected
  }

  /**
   * The time buttons: the available slots of the selected slot's day, in order
   * (`TimeListAppend`); none without a selection.
   */
  function TimeList(slots: seq<TimeSlot>, selected: Option<TimeSlot>): (r: seq<TimeSlot>)
    ensures selected.None? ==> r == []
    ensures |r| <= |slots|
    ensures forall s :: s in r <==> selected.Some? && s in slots && s.available && s.date == selected.value.date
  {
    if selected.None? then []
    else
      var day := SlotsOn(slots, selected.value.date);
      assert forall s :: s in day <==> s in slots && s.date == selected.value.date by {
        SlotsOnMembers(slots, selected.value.date);
      }
      Available(day)
  }

  /**
   * The time list keeps the order of the doctor's slots: the list of a concatenation
   * is the lists of its parts, one after the other. With the clauses of `TimeList`
   * this fixes the list of every input.
   */
  lemma TimeListAppend(a: seq<TimeSlot>, b: seq<TimeSlot>, selected: Option<TimeSlot>)
    ensures TimeList(a + b, selected) == TimeList(a, selected) + TimeList(b, selected)
  {
    if selected.Some? {
      var d := selected.value.date;
      SlotsOnAppend(a, b, d);
      AvailableAppend(SlotsOn(a, d), SlotsOn(b, d));
    }
  }

  lemma {:induction false} SlotsOnMembers(slots: seq<TimeSlot>, date: string)
    ensures forall s :: s in SlotsOn(slots, date) <==> s in slots && s.date == date
  {
    if |slots| > 0 {
      SlotsOnMembers(slots[1..], date);
      assert slots == [slots[0]] + slots[1..];
    }
  }

  /** A selection the page can hold: nothing yet, or an available slot of the doctor. */
  ghost predicate ValidSelection(slots: seq<TimeSlot>, selected: Option<TimeSlot>) {
    selected.Some? ==> selected.value in slots && selected.value.available
  }

  /**
   * Clicking a date or a time keeps the selection valid, and a valid selection is
   * always among the time buttons shown; after a date click it is the first of them.
   */
  lemma SelectionStaysShown(slots: seq<TimeSlot>, selected: Option<TimeSlot>, date: string, t: TimeSlot)
    requires ValidSelection(slots, selected)
    ensures ValidSelection(slots, ClickDate(slots, selected, date))
    ensures t in TimeList(slots, selected) ==> ValidSelection(slots, Some(t))
    ensures selected.Some? ==> selected.value in TimeList(slots, selected)
    ensures DateClickable(slots, date) ==>
      var r := ClickDate(slots, selected, date);
      r.Some? && r.value.date == date && r.value == TimeList(slots, r)[0]
  {
    SlotsOnMembers(slots, date);
    if DateClickable(slots, date) {
      var day := SlotsOn(slots, date);
      FirstAvailableIsHead(day);
    }
  }

  /** The continue button: disabled until a slot is chosen, then it goes to that slot's payment page. */
  function ContinueTarget(doctorId: string, selected: Option<TimeSlot>): (r: Option<string>)
    ensures r.Some? <==> selected.Some?
    ensures r.Some? ==> r.value == "/book/payment/" + doctorId + "/" + selected.value.id
  {
    if selected.None? then None else Some("/book/payment/" + doctorId + "/" + selected.value.id)
  }
}

=== FILE: select_doctor.dfy ===
/**
 * The doctor step of a booking: the doctors of the chosen specialty and the
 * page title.
 */
module SelectDoctor {
  import opened Wrappers
  import opened Types
  import opened MockData

  /** `doctors.filter(d => d.specialtyId === specialtyId)`. */
  function FilteredDoctors(docs: seq<Doctor>, specialtyId: string): (r: seq<Doctor>)
    ensures |r| <= |docs|
    ensures forall d :: d in r <==> d in docs && d.specialtyId == specialtyId
  {
    if |docs| == 0 then []
    else
      assert docs == [docs[0]] + docs[1..];
      (if docs[0].specialtyId == specialtyId then [docs[0]] else []) + FilteredDoctors(docs[1..], specialtyId)
  }

  /** The filter keeps table order: filtering a concatenation filters each part. */
  lemma {:induction false} FilteredDoctorsAppend(a: seq<Doctor>, b: seq<Doctor>, specialtyId: string)
    ensures FilteredDoctors(a + b, specialtyId) == FilteredDoctors(a, specialtyId) + FilteredDoctors(b, specialtyId)
  {
    if |a| > 0 {
      assert (a + b)[1..] == a[1..] + b;
      FilteredDoctorsAppend(a[1..], b, specialtyId);
    } else {
      assert a + b == b;
    }
  }

  /** "Sin médicos disponibles" shows exactly when no doctor has that specialty. */
  lemma EmptyStateIffNoDoctor(docs: seq<Doctor>, specialtyId: string)
    ensures |FilteredDoctors(docs, specialtyId)| == 0 <==>
      forall k :: 0 <= k < |docs| ==> docs[k].specialtyId != specialtyId
  {
    var r := FilteredDoctors(docs, specialtyId);
    if |r| > 0 {
      assert r[0] in r;
    }
    if exists k :: 0 <= k < |docs| && docs[k].specialtyId == specialtyId {
      var k :| 0 <= k < |docs| && docs[k].specialtyId == specialtyId;
      assert docs[k] in r;
    }
  }

  /** A list with no entry of specialty `id` filters to nothing. */
  lemma {:induction false} FilterNone(docs: seq<Doctor>, id: string)
    requires forall k :: 0 <= k < |docs| ==> docs[k].specialtyId != id
    ensures FilteredDoctors(docs, id) == []
  {
    if |docs| > 0 {
      assert forall k :: 0 <= k < |docs[1..]| ==> docs[1..][k] == docs[k + 1];
      FilterNone(docs[1..], id);
    }
  }

  /** A list whose only entry with `id` is at `o` filters to that entry alone. */
  lemma {:induction false} FilterSingle(docs: seq<Doctor>, id: string, o: nat)
    requires o < |docs| && docs[o].specialtyId == id
    requires forall k :: 0 <= k < |docs| && k != o ==> docs[k].specialtyId != id
    ensures FilteredDoctors(docs, id) == [docs[o]]
  {
    var tail := docs[1..];
    assert forall k :: 0 <= k < |tail| ==> tail[k] == docs[k + 1];
    if o == 0 {
      FilterNone(tail, id);
      assert FilteredDoctors(docs, id) == [docs[0]] + [];
    } else {
      FilterSingle(tail, id, o - 1);
      assert FilteredDoctors(docs, id) == [] + [tail[o - 1]];
    }
  }

  /** With the app's doctor table, each of the ten specialties has exactly one doctor, and it practises that specialty. */
  lemma OneDoctorPerSpecialty(slots: seq<seq<TimeSlot>>, s: nat)
    requires |slots| == |DoctorProfiles| && s < |Specialties|
    ensures |FilteredDoctors(Doctors(slots), Specialties[s].id)| == 1
    ensures Describes(Specialties[s], FilteredDoctors(Doctors(slots), Specialties[s].id)[0])
  {
    var docs := Doctors(slots);
    var id := Specialties[s].id;
    DoctorSpecialtiesConsistent();
    SpecialtyKeysDistinct();
    forall k | 0 <= k < |docs| && k != Owner(s)
      ensures docs[k].specialtyId != id
    {
      assert docs[k].specialtyId == Specialties[Owner(k)].id;
      assert Owner(k) != s;
    }
    FilterSingle(docs, id, Owner(s));
  }

  const FallbackTitle := "Especialidad"

  /** `specialty?.name || 'Especialidad'`. */
  function Title(table: seq<Specialty>, specialtyId: string): (t: string)
    ensures t != ""
    ensures FindSpecialtyById(table, specialtyId).None? ==> t == FallbackTitle
    ensures FindSpecialtyById(table, specialtyId).Some? ==>
      var sp := table[FindSpecialtyById(table, specialtyId).value];
      t == if sp.name == "" then FallbackTitle else sp.name
  {
    match FindSpecialtyById(table, specialtyId)
    case None => FallbackTitle
    case Some(k) => if table[k].name == "" then FallbackTitle else table[k].name
  }

  /** With the app's table the title is the specialty's name for a known id and the fallback otherwise. */
  lemma TitleOfKnownAndUnknownIds(specialtyId: string)
    ensures (forall s :: 0 <= s < |Specialties| ==> Specialties[s].id != specialtyId) ==>
      Title(Specialties, specialtyId) == FallbackTitle
    ensures forall s :: 0 <= s < |Specialties| && Specialties[s].id == specialtyId ==>
      Title(Specialties, specialtyId) == Specialties[s].name
  {
    SpecialtyKeysDistinct();
    var r := FindSpecialtyById(Specialties, specialtyId);
    forall s | 0 <= s < |Specialties| && Specialties[s].id == specialtyId
      ensures Title(Specialties, specialtyId) == Specialties[s].name
    {
      assert r.Some?;
      assert r.value == s;
    }
  }

  /** A doctor card leads to that doctor's date-and-time page. */
  function DoctorTarget(d: Doctor): (route: string)
    ensures route == "/book/datetime/" + d.id
  {
    "/book/datetime/" + d.id
  }

  /**
   * The date-and-time page reads the doctor id back from the route: with distinct ids
   * the lookup it does finds the very doctor whose card was clicked.
   */
  lemma DoctorTargetFindsDoctor(docs: seq<Doctor>, k: nat)
    requires k < |docs|
    requires forall i, j :: 0 <= i < j < |docs| ==> docs[i].id != docs[j].id
    ensures |DoctorTarget(docs[k])| >= 15
    ensures FindDoctor(docs, DoctorTarget(docs[k])[15..]) == Some(k)
  {
    var route := DoctorTarget(docs[k]);
    assert route[15..] == docs[k].id;
    var r := FindDoctor(docs, docs[k].id);
    assert r.Some?;
    assert r.value == k;
  }
}

=== FILE: text.dfy ===
/**
 * The string operations the app uses (`replace(/\D/g, '')`, `substring`, `includes`,
 * `trim`, `toLowerCase`, `length`, the default string order), stated over Dafny's
 * `string`, a sequence of Unicode scalar values.
 */
module Text {

  /** `\d` in a JavaScript regular expression: the ASCII digits and nothing else. */
  predicate IsDigit(c: char) {
    '0' <= c <= '9'
  }

  predicate AllDigits(s: string) {
    forall i :: 0 <= i < |s| ==> IsDigit(s[i])
  }

  /** ECMAScript WhiteSpace and LineTerminator: what `\s` matches and what `trim` strips. */
  predicate IsSpace(c: char) {
    || c == '\t' || c == '\n' || c == '\U{000B}' || c == '\U{000C}' || c == '\r' || c == ' '
    || c == '\U{00A0}' || c == '\U{1680}' || ('\U{2000}' <= c <= '\U{200A}')
    || c == '\U{2028}' || c == '\U{2029}' || c == '\U{202F}' || c == '\U{205F}'
    || c == '\U{3000}' || c == '\U{FEFF}'
  }

  /** `!s.trim()`: nothing is left once leading and trailing whitespace is stripped. */
  predicate IsBlank(s: string) {
    forall i :: 0 <= i < |s| ==> IsSpace(s[i])
  }

  /** `s.replace(/\D/g, '')`: the digits of `s`, in their order. */
  function Digits(s: string): (d: string)
    ensures AllDigits(d)
    ensures |d| <= |s|
  {
    if |s| == 0 then ""
    else (if IsDigit(s[0]) then [s[0]] else []) + Digits(s[1..])
  }

  /** Filtering the digits is the identity exactly on all-digit strings. */
  lemma {:induction false} DigitsFixpoint(s: string)
    ensures Digits(s) == s <==> AllDigits(s)
  {
    if |s| > 0 {
      DigitsFixpoint(s[1..]);
      if Digits(s) == s {
        assert AllDigits(s);
      }
    }
  }

  lemma {:induction false} DigitsAppend(a: string, b: string)
    ensures Digits(a + b) == Digits(a) + Digits(b)
  {
    if |a| > 0 {
      assert (a + b)[1..] == a[1..] + b;
      DigitsAppend(a[1..], b);
    } else {
      assert a + b == b;
    }
  }

  /** `s.replace(/\s/g, '')`: `s` without its whitespace. */
  function RemoveSpaces(s: string): (r: string)
    ensures forall i :: 0 <= i < |r| ==> !IsSpace(r[i])
    ensures |r| <= |s|
  {
    if |s| == 0 then ""
    else (if IsSpace(s[0]) then [] else [s[0]]) + RemoveSpaces(s[1..])
  }

  lemma {:induction false} RemoveSpacesAppend(a: string, b: string)
    ensures RemoveSpaces(a + b) == RemoveSpaces(a) + RemoveSpaces(b)
  {
    if |a| > 0 {
      assert (a + b)[1..] == a[1..] + b;
      RemoveSpacesAppend(a[1..], b);
    } else {
      assert a + b == b;
    }
  }

  /** A string with no whitespace in it is left as it is. */
  lemma {:induction false} RemoveSpacesOfDigits(s: string)
    requires AllDigits(s)
    ensures RemoveSpaces(s) == s
  {
    if |s| > 0 {
      RemoveSpacesOfDigits(s[1..]);
    }
  }

  /** `s.substring(0, n)` for `n >= 0`: the first `n` characters, or all of `s` when it is shorter. */
  function Take<T>(s: seq<T>, n: nat): (t: seq<T>)
    ensures t <= s
    ensures |t| == if |s| < n then |s| else n
  {
    if |s| <= n then s else s[..n]
  }

  /** `p` occurs in `s` starting at index `i`. */
  ghost predicate OccursAt(s: string, p: string, i: int) {
    0 <= i && i + |p| <= |s| && s[i..i + |p|] == p
  }

  /** `p[j..]` matches `s` at offset `i + j`. */
  predicate MatchesAt(s: string, p: string, i: nat, j: nat)
    requires i + |p| <= |s| && j <= |p|
    decreases |p| - j
  {
    j == |p| || (s[i + j] == p[j] && MatchesAt(s, p, i, j + 1))
  }

  /** `p` occurs in `s` at some index `i` or later. */
  predicate ContainsFrom(s: string, p: string, i: nat)
    decreases |s| - i
  {
    i + |p| <= |s| && (MatchesAt(s, p, i, 0) || ContainsFrom(s, p, i + 1))
  }

  /** `s.includes(p)`. */
  predicate Contains(s: string, p: string) {
    ContainsFrom(s, p, 0)
  }

  lemma {:induction false} MatchesAtSpec(s: string, p: string, i: nat, j: nat)
    requires i + |p| <= |s| && j <= |p|
    ensures MatchesAt(s, p, i, j) <==> s[i + j..i + |p|] == p[j..]
    decreases |p| - j
  {
    if j < |p| {
      MatchesAtSpec(s, p, i, j + 1);
      assert s[i + j..i + |p|] == [s[i + j]] + s[i + j + 1..i + |p|];
      assert p[j..] == [p[j]] + p[j + 1..];
    }
  }

  lemma {:induction false} ContainsFromSpec(s: string, p: string, i: nat)
    ensures ContainsFrom(s, p, i) <==> exists k :: i <= k && OccursAt(s, p, k)
    decreases |s| - i
  {
    if i + |p| <= |s| {
      MatchesAtSpec(s, p, i, 0);
      assert p[0..] == p;
      ContainsFromSpec(s, p, i + 1);
      if MatchesAt(s, p, i, 0) {
        assert OccursAt(s, p, i);
      }
      if exists k :: i <= k && OccursAt(s, p, k) {
        var k :| i <= k && OccursAt(s, p, k);
        if k == i {
          assert MatchesAt(s, p, i, 0);
        } else {
          assert i + 1 <= k;
        }
      }
    } else {
      assert forall k :: i <= k ==> !OccursAt(s, p, k);
    }
  }

  /** `includes` is exactly "occurs at some index". */
  lemma ContainsSpec(s: string, p: string)
    ensures Contains(s, p) <==> exists k :: OccursAt(s, p, k)
  {
    ContainsFromSpec(s, p, 0);
  }

  lemma ContainsInPrefix(a: string, b: string, p: string)
    requires Contains(a, p)
    ensures Contains(a + b, p)
  {
    ContainsSpec(a, p);
    var k :| OccursAt(a, p, k);
    assert (a + b)[k..k + |p|] == a[k..k + |p|];
    assert OccursAt(a + b, p, k);
    ContainsSpec(a + b, p);
  }

  lemma ContainsInSuffix(a: string, b: string, p: string)
    requires Contains(b, p)
    ensures Contains(a + b, p)
  {
    ContainsSpec(b, p);
    var k :| OccursAt(b, p, k);
    assert (a + b)[|a| + k..|a| + k + |p|] == b[k..k + |p|];
    assert OccursAt(a + b, p, |a| + k);
    ContainsSpec(a + b, p);
  }

  /** A pattern with a character that `s` lacks does not occur in `s`. */
  lemma MissingCharRulesOut(s: string, p: string, c: char)
    requires c in p && c !in s
    ensures !Contains(s, p)
  {
    ContainsSpec(s, p);
  }

  /** `toLowerCase` on one character, for Basic Latin and Latin-1 (A-Z and À-Þ except ×). */
  function LowerChar(c: char): char {
    if 'A' <= c <= 'Z' || ('\U{00C0}' <= c <= '\U{00DE}' && c != '\U{00D7}') then
      (c as int + 32) as char
    else
      c
  }

  /** `toUpperCase` on one character, for Basic Latin and Latin-1 (a-z, à-þ except ÷, then ÿ and µ). */
  function UpperChar(c: char): char {
    if 'a' <= c <= 'z' || ('\U{00E0}' <= c <= '\U{00FE}' && c != '\U{00F7}') then
      (c as int - 32) as char
    else if c == '\U{00FF}' then
      '\U{0178}'
    else if c == '\U{00B5}' then
      '\U{039C}'
    else
      c
  }

  /** `s.toLowerCase()`, one character at a time. */
  function Lower(s: string): (l: string)
    ensures |l| == |s|
    ensures forall i :: 0 <= i < |s| ==> l[i] == LowerChar(s[i])
  {
    seq(|s|, i requires 0 <= i < |s| => LowerChar(s[i]))
  }

  predicate IsLowerCase(s: string) {
    forall i :: 0 <= i < |s| ==> LowerChar(s[i]) == s[i]
  }

  /** Lower-casing lands on lower-case text, so doing it twice changes nothing. */
  lemma LowerIdempotent(s: string)
    ensures IsLowerCase(Lower(s))
    ensures Lower(Lower(s)) == Lower(s)
  {
  }

  /** JavaScript's default string order, `a <= b`, continued from index `k`. */
  predicate LexLeFrom(a: string, b: string, k: nat)
    decreases |a| - k
  {
    k >= |a| || (k < |b| && (a[k] < b[k] || (a[k] == b[k] && LexLeFrom(a, b, k + 1))))
  }

  /**
   * JavaScript's default string order (also the order `sort()` uses without a
   * comparator), for characters of the Basic Multilingual Plane, where UTF-16
   * code-unit order and code-point order agree.
   */
  predicate LexLe(a: string, b: string) {
    LexLeFrom(a, b, 0)
  }

  predicate LexLt(a: string, b: string) {
    LexLe(a, b) && a != b
  }

  lemma {:induction false} LexLeFromTotal(a: string, b: string, k: nat)
    ensures LexLeFrom(a, b, k) || LexLeFrom(b, a, k)
    decreases |a| - k
  {
    if k < |a| && k < |b| && a[k] == b[k] {
      LexLeFromTotal(a, b, k + 1);
    }
  }

  lemma {:induction false} LexLeFromTransitive(a: string, b: string, c: string, k: nat)
    requires LexLeFrom(a, b, k) && LexLeFrom(b, c, k)
    ensures LexLeFrom(a, c, k)
    decreases |a| - k
  {
    if k < |a| && a[k] == b[k] && b[k] == c[k] {
      LexLeFromTransitive(a, b, c, k + 1);
    }
  }

  lemma {:induction false} LexLeFromAntisymmetric(a: string, b: string, k: nat)
    requires k <= |a| && k <= |b| && a[..k] == b[..k]
    requires LexLeFrom(a, b, k) && LexLeFrom(b, a, k)
    ensures a == b
    decreases |a| - k
  {
    if k < |a| && k < |b| {
      assert a[..k + 1] == a[..k] + [a[k]];
      assert b[..k + 1] == b[..k] + [b[k]];
      LexLeFromAntisymmetric(a, b, k + 1);
    } else {
      assert a == a[..k] && b == b[..k];
    }
  }

  lemma LexLeTotal(a: string, b: string)
    ensures LexLe(a, b) || LexLe(b, a)
  {
    LexLeFromTotal(a, b, 0);
  }

  lemma LexLeTransitive(a: string, b: string, c: string)
    requires LexLe(a, b) && LexLe(b, c)
    ensures LexLe(a, c)
  {
    LexLeFromTransitive(a, b, c, 0);
  }

  lemma LexLeAntisymmetric(a: string, b: string)
    requires LexLe(a, b) && LexLe(b, a)
    ensures a == b
  {
    LexLeFromAntisymmetric(a, b, 0);
  }

  /** `s.length` in JavaScript: UTF-16 code units, two for a character beyond U+FFFF. */
  function Utf16Length(s: string): (n: nat)
    ensures |s| <= n <= 2 * |s|
  {
    if |s| == 0 then 0
    else (if s[0] as int >= 0x1_0000 then 2 else 1) + Utf16Length(s[1..])
  }

  /** For text in the Basic Multilingual Plane, JavaScript's `length` is the character count. */
  lemma {:induction false} Utf16LengthOfBmp(s: string)
    requires forall i :: 0 <= i < |s| ==> s[i] as int < 0x1_0000
    ensures Utf16Length(s) == |s|
  {
    if |s| > 0 {
      Utf16LengthOfBmp(s[1..]);
    }
  }
}

=== FILE: types.dfy ===
/**
 * The app's records. An optional TypeScript property (`symptoms?: string`) is an
 * `Option`; a string-literal union (`'scheduled' | 'completed' | 'cancelled'`) is a
 * datatype with one constructor per literal, so a value is always exactly one of them.
 */
module Types {
  import opened Wrappers

  /** The signed-in user. `avatarUrl` is the only optional field. */
  datatype User = User(
    id: string,
    email: string,
    firstName: string,
    lastName: string,
    dni: string,
    birthDate: string,
    phone: string,
    avatarUrl: Option<string>)

  /** A bookable (date, time) unit; `date` is an ISO `YYYY-MM-DD` day, `time` is `HH:MM`. */
  datatype TimeSlot = TimeSlot(id: string, date: string, time: string, available: bool)

  /** A doctor of the reference table (rating and photo are display-only and left out). */
  datatype Doctor = Doctor(
    id: string,
    name: string,
    specialty: string,
    specialtyId: string,
    experience: nat,
    price: nat,
    availableSlots: seq<TimeSlot>)

  datatype Specialty = Specialty(id: string, name: string, icon: string, description: string)

  datatype Status = Scheduled | Completed | Cancelled

  /**
   * An appointment embeds a copy of the whole doctor record, not a doctor id.
   * `id`, `doctor`, `date`, `time` and `status` are required; the rest are optional.
   */
  datatype Appointment = Appointment(
    id: string,
    doctor: Doctor,
    date: string,
    time: string,
    status: Status,
    symptoms: Option<string>,
    diagnosis: Option<string>,
    prescription: Option<string>,
    notes: Option<string>)

  datatype Sender = SentByUser | SentByAi

  /** A chat message (the timestamp is a clock reading and is left out). */
  datatype ChatMessage = ChatMessage(id: string, text: string, sender: Sender)

  /** The ids in a list of appointments are pairwise distinct. */
  ghost predicate UniqueIds(apts: seq<Appointment>) {
    forall i, j :: 0 <= i < j < |apts| ==> apts[i].id != apts[j].id
  }

  predicate HasId(apts: seq<Appointment>, id: string) {
    exists i :: 0 <= i < |apts| && apts[i].id == id
  }
}

=== FILE: wrappers.dfy ===
/** Optional values: the model's stand-in for TypeScript's `T | undefined` and `T | null`. */
module Wrappers {

  datatype Option<+T> = None | Some(value: T) {

    /** The value, or `default` when there is none (TypeScript's `x ?? default`). */
    function GetOr(default: T): T {
      match this
      case Some(v) => v
      case None => default
    }
  }
}
